=== FILE: README.md ===
# qreview core, modelled in Dafny

qreview is a command-line tool that has an AI backend review source files or
pull-request diffs. It writes the review as HTML, Markdown or API reports and
can post it back to a GitHub pull request as line comments. This project
models the text logic at the centre of that flow and proves properties of it:

- **Diff mapper** (`diffmapper.dfy`): parses unified-diff hunks
  (`@@ -a,b +c,d @@`) into the added lines of the new file. It keeps the
  last result (`latestChanges`) for "closest added line at or before n"
  queries.
- **Context extractor** (`contextextractor.dfy`): builds a window of
  context lines around each changed line. It sorts the windows in place,
  merges touching ones and serialises them with markers.
- **Line remapper** (`helpers.dfy`): drops blank lines and remembers each
  kept line's original number.
- **Review parser** (`reviewparser.dfy`): splits the AI's free-text review
  into comments keyed by the `Line N:` / `Line N-M:` references it holds.
- **Comment dispatch** (`review.dfy`): posts the parsed review to the pull
  request. It also drives the reporters and picks the AI backend.
- Secondary pieces:
  - ANSI-code stripping (`ansistrip.dfy`);
  - GitHub PR URL checking and splitting (`gitpr.dfy`);
  - command-line argument and flag lookup (`cmdinterpreter.dfy`);
  - `.env` loading and the environment-backed settings (`dotenv.dfy`);
  - report paths and the reporters' `processedFiles` lists
    (`reportcommon.dfy`, `reporters.dfy`);
  - the parent-directory index walk (`parentsummary.dfy`).
- `text.dfy` holds the library behaviour the code relies on:
  - `bufio.Scanner` line splitting;
  - ASCII `TrimSpace` and `ToLower`;
  - `strings.Split` and `strings.Cut`;
  - `strconv.Atoi` on a 64-bit `int`.

Code that changes state step by step is modelled that way:

- `GetMap` is a method of the `DiffMapper` class with a `latestChanges`
  field.
- `sortBlocks` swaps elements of an `array` in place.
- The parse, remap, `.env` and argument loops are `while`/`for` loops.

Each of these is proved against a specification function, and the
properties are lemmas about that function.

Inputs and outside effects become parameters:

- the process arguments (a sequence);
- the environment (a map or an optional value);
- the iteration order of Go maps (an `order` sequence that lists the keys
  exactly once, so every order is covered);
- the report disk and directory tree (classes holding maps, with a set of
  unwritable paths; the tree also has a set of paths that exist but cannot
  be listed, disjoint from its readable directories);
- the PR commenter and the reporters (a `World` class that logs every call
  and fails the calls made at a given set of log positions, so the same
  call made twice can succeed once and fail once);
- HTTP responses (a `Result`).

Where the documented behaviour and the code differ, the model follows the
code. The documented example says `Line: 8*: x` yields the comment `x`, but
`hasLineNumberByRegex` keeps everything after the match, so the comment is
`: x` (`ReviewParser.SingleReference` states this).

## Model

| member | source | states |
|---|---|---|
| DiffMapper.DiffMapper.constructor | internal/diffmapper/diffmapper.go:18 | `latestChanges` starts out nil (the empty sequence). |
| DiffMapper.DiffMapper.GetMap | internal/diffmapper/diffmapper.go:20-62 | The result is the scan's output for the diff's lines, and `latestChanges` is replaced by it. |
| DiffMapper.DiffMapper.GetClosestPrOffset | internal/diffmapper/diffmapper.go:64-76 | Errors when `latestChanges` is nil. Otherwise the backward search returns the last-listed line number at most n, or 1; it never errors once anything was recorded. |
| DiffMapper.NothingBeforeFirstHeader | internal/diffmapper/diffmapper.go:30-43 | Lines before the first `@@` header leave the scan in its initial state: nothing is emitted and the counter is untouched. |
| DiffMapper.StandardHeaderStart | internal/diffmapper/diffmapper.go:30-38 | A header `@@ -a,b +c,d @@` is a hunk header, splits into enough fields, and sets the counter to c. |
| DiffMapper.SplitStandardHeader | internal/diffmapper/diffmapper.go:34-36 | Splitting that header at spaces gives exactly `@@`, `-a,b`, `+c,d`, `@@`. |
| DiffMapper.ScanEmitsAddedLines | internal/diffmapper/diffmapper.go:41-57 | Each `+` line after the first header yields exactly one record, in order, with the `+` stripped. So the record count is the number of such lines, and the scan is inside a hunk iff a header has been seen. |
| DiffMapper.WithinHunkIncreasing | internal/diffmapper/diffmapper.go:45-57 | Within one hunk, earlier records are kept and the new line numbers strictly increase. They lie between the counter values at the hunk's ends, and the counter never decreases. |
| DiffMapper.ClosestIsLastAtMost | internal/diffmapper/diffmapper.go:69-75 | The query's value is the line number of the last-listed record at most n, with no later record qualifying, or 1 when no record qualifies. |
| DiffMapper.ClosestBound | internal/diffmapper/diffmapper.go:69-75 | With line numbers at least 1, the answer is at most n or is 1. |
| DiffMapper.ClosestMonotone | internal/diffmapper/diffmapper.go:69-75 | With line numbers at least 1, the answer is non-decreasing in n. |
| DiffMapper.ClosestIsGreatest | internal/diffmapper/diffmapper.go:69-75 | With ascending line numbers, the answer is the greatest recorded number at most n, or 1 when there is none. |
| ContextExtractor.Min | internal/retriever/context_extractor.go:156-161 | The result is one of the arguments and no larger than either. |
| ContextExtractor.Max | internal/retriever/context_extractor.go:163-168 | The result is one of the arguments and no smaller than either. |
| ContextExtractor.ContextExtractor.constructor | internal/retriever/context_extractor.go:18-25 | A width of 0 or less becomes 5; a positive width is kept. |
| ContextExtractor.ContextExtractor.CreateContextBlocks | internal/retriever/context_extractor.go:81-107 | One block per entry of the iteration order over the changed-line set, each the window for that line. |
| ContextExtractor.InitialBlocks | internal/retriever/context_extractor.go:85-104 | Exactly one initial block per listed line number. |
| ContextExtractor.InitialBlockWindow | internal/retriever/context_extractor.go:87-103 | For a changed line n inside the file, the block spans max(1,n-C)..min(lineCount,n+C) and contains n. Its content is exactly those original lines, each followed by a newline. |
| ContextExtractor.InitialBlockPastEnd | internal/retriever/context_extractor.go:87-103 | A changed line more than C lines past the end of the file yields an empty block whose start lies after its end. |
| ContextExtractor.TwentyLineExample | internal/retriever/context_extractor.go:87-103 | 20 lines, line 15 changed, C = 3: the block covers 12..18 and holds those 7 lines. |
| ContextExtractor.SortBlocks | internal/retriever/context_extractor.go:144-153 | The array ends up as the exchange sort of its old contents, including the order among blocks with equal starts. It is therefore ordered by start line and a permutation of its input, and an already ordered array is left as it is. |
| ContextExtractor.ExchangeStepKeeps | internal/retriever/context_extractor.go:148-150 | One comparison-and-swap keeps earlier positions settled, makes position i smallest up to j, and permutes the blocks. |
| ContextExtractor.ExchangePassPlaces | internal/retriever/context_extractor.go:147-151 | One pass of the inner loop, from a state where earlier positions are settled and position i is smallest so far, settles position i and permutes the blocks. |
| ContextExtractor.ExchangePassOrdered | internal/retriever/context_extractor.go:147-151 | On a sequence already ordered by start line the inner loop swaps nothing. |
| ContextExtractor.ExchangeSortFromSorts | internal/retriever/context_extractor.go:146-152 | The remaining outer-loop passes, from a state where the first i positions are settled, yield an ordered permutation of the blocks. |
| ContextExtractor.ExchangeSortFromOrdered | internal/retriever/context_extractor.go:146-152 | On a sequence already ordered by start line the remaining outer-loop passes change nothing. |
| ContextExtractor.ExchangeSortSorts | internal/retriever/context_extractor.go:144-153 | The exchange sort orders the blocks by start line, is a permutation of its input, and changes nothing in an ordered sequence. |
| ContextExtractor.ExchangeSortReordersTies | internal/retriever/context_extractor.go:144-153 | The sort is not stable: two blocks starting at line 2 given before a block at line 1 come out in reverse order. |
| ContextExtractor.ExchangeSortDecidesMergedText | internal/retriever/context_extractor.go:110-153 | Blocks 5..6, 1..3 and 1..4 in that order sort to 1..3, 1..4, 5..6 and merge into one block 1..6 holding the 1..3 text, so the sort's tie order decides the merged content. |
| ContextExtractor.PlaceSmallest | internal/retriever/context_extractor.go:147-151 | The inner loop leaves the array as one exchange pass for position i over its old contents. |
| ContextExtractor.ContextExtractor.MergeBlocks | internal/retriever/context_extractor.go:110-141 | The array is left as the exchange sort of its old contents, hence ordered and a permutation, and the result is the merge of that array. Lists of at most one block come back unchanged. |
| ContextExtractor.MergeSeparated | internal/retriever/context_extractor.go:121-138 | After merging, each block starts more than one line after the previous one ends. |
| ContextExtractor.MergeCovers | internal/retriever/context_extractor.go:121-138 | On sorted input, every input block's range lies inside some merged block. |
| ContextExtractor.MergeIdempotent | internal/retriever/context_extractor.go:121-138 | A separated list is left as it is, so merging a merged list changes nothing. |
| ContextExtractor.MergeUpToSorted | internal/retriever/context_extractor.go:121-138 | On start-sorted input the merge loop's blocks stay start-sorted, and the current block starts no later than the block just read. |
| ContextExtractor.MergeSortedIdempotent | internal/retriever/context_extractor.go:110-141 | Merging start-sorted blocks gives start-sorted blocks, so a second `mergeBlocks` (its sort leaves them in place) changes nothing. |
| ContextExtractor.MergeKeepsFirstContent | internal/retriever/context_extractor.go:122-133 | Each merged block takes its start and content from one input block and its end from an input block; content is never regenerated. |
| ContextExtractor.StaleContentExample | internal/retriever/context_extractor.go:124-129 | Two touching windows 1..3 and 3..5 merge into a block announcing 1..5 that holds only the first window's three lines. |
| ContextExtractor.CollectLineNumbers | internal/retriever/context_extractor.go:43-46 | The set built from the records is exactly their line numbers. |
| ContextExtractor.RenderBlocks | internal/retriever/context_extractor.go:62-77 | The output loop produces the rendering: the header, then per block `// Lines s-e` and its content, with the omission marker before every block but the first. |
| ContextExtractor.RenderIsJoin | internal/retriever/context_extractor.go:67-75 | The body after the header is the block texts joined by the omission marker. |
| ContextExtractor.ContextExtractor.ExtractContext | internal/retriever/context_extractor.go:35-78 | With no added lines, returns the file as is. Otherwise it returns the rendering of the merge of the exchange sort of the initial blocks, taken in the given map order. One changed line gives exactly that line's window. |
| Helpers.SourceCodeLineRemap | internal/helpers/helpers.go:10-29 | The new content is the non-blank lines, each followed by a newline, and the map sends each 0-based kept position to its 1-based original number. |
| Helpers.IndexMap | internal/helpers/helpers.go:12-24 | The map's keys are exactly 0..k-1 for k kept lines. |
| Helpers.KeptLinesSound | internal/helpers/helpers.go:16-25 | The kept numbers strictly increase, lie in 1..lineCount and name non-blank lines only. The i-th compacted line is original line `remap[i]`. |
| Helpers.KeptLinesComplete | internal/helpers/helpers.go:16-25 | Every non-blank original line is kept. |
| Helpers.AllBlankCompactsToNothing | internal/helpers/helpers.go:10-28 | Input made of blank lines only gives empty content and an empty map. |
| Helpers.RemapPointsBack | internal/helpers/helpers.go:10-29 | For `\n`-only input, the output has exactly as many lines as the map has keys, and output line i equals original line `remap[i]`. |
| ReviewParser.MatchAtSound | internal/reviewparser/reviewparser.go:52-58 | Every match the scanner finds fits the pattern `(?i)Line:?\s*\d+[:*]` or `(?i)Line:?\s*\d+-\d+[:*]`. |
| ReviewParser.MatchAtComplete | internal/reviewparser/reviewparser.go:52-58 | Every way the pattern can match at a position is the match the scanner finds there. |
| ReviewParser.ByRegex | internal/reviewparser/reviewparser.go:60-88 | A found reference always carries a line number of at least 1. |
| ReviewParser.ByRegexSpec | internal/reviewparser/reviewparser.go:60-88 | A reference is found exactly when the pattern matches somewhere. It then carries the leftmost match's first number, or 1 when that number is 0 or too large, and the text after the match. |
| ReviewParser.HasLineNumberSpec | internal/reviewparser/reviewparser.go:44-58 | A line has a reference iff either pattern matches in it; when the range pattern matches anywhere, it decides. |
| ReviewParser.RangeReference | internal/reviewparser/reviewparser.go:44-84 | `Line 10-12: foo` is filed under 10 with comment ` foo`. |
| ReviewParser.SingleReference | internal/reviewparser/reviewparser.go:56-84 | `Line: N` plus `:` or `*` plus rest is filed under N with comment rest, kept verbatim (`Line: 8*: x` gives `: x`). |
| ReviewParser.NoDashNoRange | internal/reviewparser/reviewparser.go:53 | A line without `-` never matches the range pattern. |
| ReviewParser.NoDigitNoReference | internal/reviewparser/reviewparser.go:52-58 | A line without digits carries no reference. |
| ReviewParser.BlankHasNoLineNumber | internal/reviewparser/reviewparser.go:28-30 | A blank line carries no reference. |
| ReviewParser.Append | internal/reviewparser/reviewparser.go:32-38 | `m[k] += x` adds exactly key k to the map's keys. |
| ReviewParser.Parse | internal/reviewparser/reviewparser.go:16-42 | Parsing never fails. The summary is always "This is an automated review" and the lines map is the line-by-line scan's result. |
| ReviewParser.ParseKeysPositive | internal/reviewparser/reviewparser.go:17-82 | The current line and every key of the map are at least 1. |
| ReviewParser.ParseBlank | internal/reviewparser/reviewparser.go:24-30 | Input with only blank lines gives an empty map. |
| ReviewParser.ParseCurrent | internal/reviewparser/reviewparser.go:17-33 | The current line is the number of the last reference seen, 1 before any. |
| ReviewParser.ParseKeys | internal/reviewparser/reviewparser.go:32-38 | The map has a key exactly for each number that some non-blank line is filed under. |
| ReviewParser.ParseCollects | internal/reviewparser/reviewparser.go:32-38 | Each entry is the concatenation, in input order, of the pieces filed under it. A piece is the text after a reference, or a whole unreferenced line, plus a newline; entries are appended to, never overwritten. |
| ReviewParser.NoReferencesAllToLineOne | internal/reviewparser/reviewparser.go:17-38 | Without any reference, every comment goes under line 1. |
| Review.SelectClient | internal/review/client.go:49-60 | The client is picked by its name; any other name gives `amazon_q`. |
| Review.SelectClientByName | internal/review/client.go:49-60 | Every backend is selected by its own name. |
| Review.CallReporters | internal/review/client.go:63-85 | Calls each non-nil reporter in order and stops after the first failing call. It succeeds iff no intended call fails. |
| Review.GenerateReports | internal/review/client.go:63-73 | `Report(fileName, mdContent)` on each non-nil reporter in order, stopping at the first error. |
| Review.Summary | internal/review/client.go:75-85 | `Summary("index")` on each non-nil reporter in order, stopping at the first error. |
| Review.EachReporterCallsPresent | internal/review/client.go:63-85 | Each non-nil reporter gets exactly one call, in order; nil ones are skipped. |
| Review.RepeatedCallMayFailLater | internal/review/client.go:111-130 | Outcomes belong to attempts: the same comment can go through once and fail when posted again. |
| Review.AttemptedStopsAtFirstFailure | internal/review/client.go:63-131 | The calls made are a prefix of the intended ones. All but the last succeed, the last fails iff some intended call fails, and all are made when none fails. |
| Review.CommentOnPRIfNecessary | internal/review/client.go:87-135 | Nothing is posted unless both flags and a commenter are present. Otherwise it posts the summary, then one comment per entry in the given order, and stops at the first failed post. The diff map is refreshed only for a non-empty diff. |
| Review.PostReview | internal/review/client.go:91-131 | The enabled branch: the calls made are the intended comments up to the first failure. |
| Review.PrepareReview | internal/review/client.go:91-108 | Maps the diff only when there is one, parses the review, and aims the summary at the first added line or line 1. |
| Review.PostEntries | internal/review/client.go:115-131 | Entries whose lookup fails are skipped; the others are posted in order until the first failed post. |
| Review.SummaryFirst | internal/review/client.go:104-114 | The summary comes first. It goes at line 1, or at the first added line when the diff adds lines, and a failed summary ends the run with no line comments. |
| Review.NoDiffPostsEveryEntry | internal/review/client.go:115-130 | Without a diff, each entry is posted once, in order, at `lineMap[n]`, or 0 when n is not a key. |
| Review.DiffPostsAtClosest | internal/review/client.go:115-130 | With a diff that adds lines, each entry is posted once, at the closest added line at or before `lineMap[n]`. |
| Review.NoAddedLinesOnlySummary | internal/review/client.go:93-123 | A diff without added lines makes every lookup fail, so only the summary is posted, at line 1. |
| Review.ClosestExample | internal/review/client.go:117-118 | Added lines 10, 40, 45 put the comment for line 42 on line 40. |
| Review.ReviewLineIndexesRemapFromZero | internal/review/client.go:116 | The review's 1-based line k reads the 0-based remap at k. It lands on the original line of the (k+1)-th kept line, and the last kept line lands on 0. |
| AnsiStrip.MatchLen | internal/review/qclient.go:86-96 | A match is non-empty, fits in the input and starts with the pattern's leading character. |
| AnsiStrip.DeleteAll | internal/review/qclient.go:87-96 | One replace-all pass never lengthens the text. |
| AnsiStrip.StripOnlyDeletes | internal/review/qclient.go:84-99 | The result uses only characters of the input (as a multiset) and is never longer. |
| AnsiStrip.DeleteAllKeeps | internal/review/qclient.go:87-96 | A pass keeps any stretch holding no character a match could start with. |
| AnsiStrip.PassesWellFormed | internal/review/qclient.go:86-96 | The first pass is the ESC pattern; every later pass starts with `[`. |
| AnsiStrip.NoBracketAtAllUnchanged | internal/review/qclient.go:84-99 | A string without `[` comes back unchanged. |
| AnsiStrip.ColouredTextStripped | internal/review/qclient.go:86-99 | ESC `[` params `m` text ESC `[0m` comes back as the text alone. |
| AnsiStrip.EscapeCodeDeleted | internal/review/qclient.go:86-87 | An escape code at the front is dropped whole. |
| AnsiStrip.RedExample | internal/review/qclient.go:86-87 | `"\x1b[31mred\x1b[0m"` becomes `"red"`. |
| AnsiStrip.OnePassPerPattern | internal/review/qclient.go:92 | Each pattern runs once, so `[3[39m9m` leaves `[39m`, which a second pass would delete. |
| GitPr.AfterHost | internal/git/pr.go:39 | The rest follows `https://github.com/` or `http://github.com/`. |
| GitPr.PRURLIsValid | internal/git/pr.go:38-41 | Every `http(s)://github.com/<seg>/<seg>/pull/<digits>` URL is accepted. |
| GitPr.ValidIsPRURL | internal/git/pr.go:38-41 | Every accepted URL has that shape. |
| GitPr.GetPRInfo | internal/git/pr.go:12-35 | A rejected URL is an error, and the number of a result is never negative. |
| GitPr.GetPRInfoOfValid | internal/git/pr.go:22-34 | An accepted URL always passes the path check. It yields owner, repo and number, or a number error when the digits exceed a 64-bit int. |
| GitPr.GetPRInfoRoundTrip | internal/git/pr.go:12-41 | Building the URL from owner, repo and a 64-bit n, then taking it apart, gives them back. |
| GitPr.TooLargeNumberRejected | internal/git/pr.go:29-32 | A number too large for a 64-bit int is an error, not wrapped. |
| CmdInterpreter.Arg | internal/cmd-interpreter/cmd-interpreter.go:14-30 | A negative index errors; the i-th positional argument is returned trimmed; too few positional arguments is an error. |
| CmdInterpreter.PositionalSound | internal/cmd-interpreter/cmd-interpreter.go:20-21 | Every positional argument comes after the program name and does not start with `-`. |
| CmdInterpreter.PositionalComplete | internal/cmd-interpreter/cmd-interpreter.go:20-21 | Every argument after the program name that does not start with `-` is positional. |
| CmdInterpreter.ArgTrimmedMayStartWithDash | internal/cmd-interpreter/cmd-interpreter.go:21-23 | The dash test comes before trimming, so ` -x` is positional and comes back as `-x`. |
| CmdInterpreter.Flag | internal/cmd-interpreter/cmd-interpreter.go:37-49 | Succeeds iff some argument after the program name matches `-name` before its first `=`, ignoring case. The first match wins and gives the text after the first `=`; otherwise it errors. |
| CmdInterpreter.HasFlag | internal/cmd-interpreter/cmd-interpreter.go:32-35 | True exactly when some argument matches the flag, that is, when `Flag` succeeds. |
| CmdInterpreter.FlagIgnoresCase | internal/cmd-interpreter/cmd-interpreter.go:38-42 | Looking up a name or its lower-case form gives the same outcome and value. |
| CmdInterpreter.FlagValueAfterFirstEquals | internal/cmd-interpreter/cmd-interpreter.go:41-43 | `-name=value` gives everything after the first `=`, so the value may contain `=`. |
| CmdInterpreter.BareFlagHasEmptyValue | internal/cmd-interpreter/cmd-interpreter.go:41-43 | A bare `-name` is present with the empty value. |
| DotEnv.ParseLine | internal/env/dotenv.go:31-41 | Skips a line iff it starts with `#` before trimming, is blank or has no `=`. Otherwise the line is cut at its first `=` and both sides are trimmed. |
| DotEnv.LoadEnv | internal/env/dotenv.go:21-47 | The environment after loading is the lines applied in file order. |
| DotEnv.LastAssignmentWins | internal/env/dotenv.go:29-44 | A key's value is the one from the last line that sets it. |
| DotEnv.UnsetKeyUnchanged | internal/env/dotenv.go:29-44 | A key no line sets keeps its earlier value, or stays unset. |
| DotEnv.ValueMayContainEquals | internal/env/dotenv.go:35-41 | Only the first `=` separates; the value keeps later ones. |
| DotEnv.IndentedHashIsAssignment | internal/env/dotenv.go:31-40 | An indented `#` line with `=` is an assignment whose key starts with `#`. |
| DotEnv.ShouldProcessFile | internal/env/dotenv.go:50-63 | True when no extension is configured; otherwise true iff the name ends with `.` plus some extension. |
| DotEnv.ContextLines | internal/env/dotenv.go:66-78 | 5 when the value is unset, empty or not an integer; otherwise the parsed 64-bit integer. |
| DotEnv.ContextLinesOfInteger | internal/env/dotenv.go:72-77 | Any 64-bit integer written in decimal is taken as is, zero and negatives included. |
| ReportCommon.WithSlash | internal/report/html.go:79-87 | Appends `/` only when missing; the result always ends with `/`. |
| ReportCommon.ReportRoot | internal/report/html.go:78-90 | The report root starts with the output path, always ends with `/`, and adds at most one slash per part. |
| ReportCommon.ReportRootNormalised | internal/report/saveresponse.go:45-57 | Adding the slashes first changes nothing: no slash is ever doubled. |
| ReportCommon.HtmlRelPath | internal/report/html.go:98-100 | Ends with `.html`; removing it gives the file name back. |
| ReportCommon.MdRelPath | internal/report/saveresponse.go:65-67 | Ends with `.md`; removing it gives the file name back. |
| ReportCommon.FullPath | internal/report/html.go:92-96 | The full path is the report root followed by exactly the relative path. |
| ReportCommon.Disk.Write | internal/report/html.go:144-148 | A write to an unwritable path fails and changes nothing; otherwise the file is stored. |
| ReportCommon.BuildItems | internal/report/html.go:117-124 | One item per link, in order, titled by the link without the suffix. |
| ReportCommon.ItemTitlesStripSuffix | internal/parentsummary/parentsummary.go:109-115 | When every link ends with the suffix, each item links its entry and its title plus the suffix is the entry. |
| HtmlReport.HtmlReporter.constructor | internal/report/html.go:23-29 | A new reporter has no processed files. |
| HtmlReport.HtmlReporter.Report | internal/report/html.go:53-76 | A conversion or save error leaves `processedFiles` and the disk unchanged. Otherwise the page is written and exactly `fileName.html` is appended. |
| HtmlReport.HtmlReporter.Summary | internal/report/html.go:103-136 | Writes the index page with one item per processed file, in order, or fails without writing. Each item links its page and is titled by the page path without `.html`. |
| HtmlReport.ReportedTitlesAreFileNames | internal/report/html.go:117-124 | The page recorded for f is linked as `f.html` and titled f. |
| SaveReport.NewSaveReporter | internal/report/saveresponse.go:18-24 | A new reporter keeps path and name and has no processed files. |
| SaveReport.Report | internal/report/saveresponse.go:27-82 | Writes the Markdown to the `.md` full path, or returns a save error naming that path and writes nothing. |
| SaveReport.Summary | internal/report/saveresponse.go:70-73 | Always succeeds. |
| SaveReport.SavedPathRoundTrip | internal/report/saveresponse.go:59-67 | Removing the root and `.md` from a saved path gives the file name back. |
| ApiReport.StatusError | internal/report/api.go:69-78 | No error exactly when the POST returns status 200. |
| ApiReport.ApiReporter.constructor | internal/report/api.go:20-26 | A new reporter has no processed files. |
| ApiReport.ApiReporter.Report | internal/report/api.go:41-84 | A conversion error or an empty endpoint errors before any POST. The payload is `fileName.html`, the HTML and the title, and `fileName.html` is recorded only on status 200. |
| ApiReport.ApiReporter.Summary | internal/report/api.go:87-129 | An empty endpoint errors before any POST. Otherwise it posts the index HTML of the processed files and leaves them unchanged. |
| ApiReport.SummaryAfterReport | internal/report/api.go:95-101 | Each recorded page adds one `<li>` line linking `f.html`, titled f, before `</ul>`. |
| ApiReport.EmptySummary | internal/report/api.go:96-101 | With nothing recorded the index is the header and `</ul>`. |
| ParentSummary.Dir | internal/parentsummary/parentsummary.go:41 | A path without `/` has parent `.`; a relative parent is shorter and stays relative; an absolute one stays absolute. |
| ParentSummary.FindIndex | internal/parentsummary/parentsummary.go:62-70 | True iff the directory is not the report directory and directly holds an `index.html` file. |
| ParentSummary.Walk | internal/parentsummary/parentsummary.go:56-87 | Appends the walk's links for the directory and reports whether it failed. |
| ParentSummary.WalkSubdirs | internal/parentsummary/parentsummary.go:77-84 | Walks the subdirectories in entry order and stops at the first failure. |
| ParentSummary.GetHtmlFiles | internal/parentsummary/parentsummary.go:52-94 | The links found under the report directory, or a failure with none. |
| ParentSummary.WalkOfSound | internal/parentsummary/parentsummary.go:57-94 | Each link of the report directory's walk is `rel/index.html`, where `rel` is a relative path of entry names and the directory `rel` below the report directory holds an index. The report directory's own index is never linked. |
| ParentSummary.RelLinkOfJoin | internal/parentsummary/parentsummary.go:64-66 | Trimming the report directory's prefix from the directory `rel` below it gives back exactly `rel`, even when the report directory is `.`. |
| ParentSummary.JoinBelow | internal/parentsummary/parentsummary.go:77-79 | Descending into an entry of the directory `rel` reaches the directory `rel/name`, again a relative path. |
| ParentSummary.WalkOfClosedSucceeds | internal/parentsummary/parentsummary.go:57-84 | When every listed subdirectory is readable, the walk does not fail. |
| ParentSummary.IndexTitleIsRelativeDir | internal/parentsummary/parentsummary.go:65-113 | An item's title is the linked directory's path relative to the report directory. |
| ParentSummary.FileTree.Save | internal/parentsummary/parentsummary.go:96-127 | Writes the index with one item per link, or fails and changes nothing. |
| ParentSummary.GenerateOf | internal/parentsummary/parentsummary.go:25-50 | Generation keeps the tree well-formed. |
| ParentSummary.FileTree.Generate | internal/parentsummary/parentsummary.go:25-50 | The new tree and the error are those of the upward generation from the report path, which tells a missing path from one that exists but cannot be listed. |
| ParentSummary.MissingReportPathWritesNothing | internal/parentsummary/parentsummary.go:27-29 | A path that does not exist gives success and no writes. |
| ParentSummary.UnlistableFails | internal/parentsummary/parentsummary.go:27-59 | A path that exists but cannot be listed passes the existence test and then fails at ReadDir, with nothing written. |
| ParentSummary.ParentExistenceDecides | internal/parentsummary/parentsummary.go:27-59 | From `a/b`, a missing `a` ends the climb with success, while an `a` that cannot be listed makes generation fail. |
| ParentSummary.RelativeClimbEnds | internal/parentsummary/parentsummary.go:41-47 | Each parent of a relative path is `.` or shorter, so the climb ends. |
| ParentSummary.AbsoluteClimbNeverEnds | internal/parentsummary/parentsummary.go:41-47 | An absolute path's parents stay absolute and never reach `.`. |
| ParentSummary.WalkChildrenFinds | internal/parentsummary/parentsummary.go:63-84 | A walk that does not fail records the link of every indexed subdirectory it lists. |
| ParentSummary.ChildIndexVisibleToParent | internal/parentsummary/parentsummary.go:36-84 | After `p`'s index is saved, the walk of the directory above `p`, which lists `p`, records `p`'s link unless it fails. |
| ParentSummary.GenerateParentLinksChild | internal/parentsummary/parentsummary.go:36-115 | After a successful generation, the page of the directory above `p` has the item `name/index.html` titled `name`, for `p`'s entry name. |
| ParentSummary.AncestorsContain | internal/parentsummary/parentsummary.go:41-47 | Every directory the climb visits is the start or a directory containing it. |
| ParentSummary.GenerateWritesOnlyUpward | internal/parentsummary/parentsummary.go:36-47 | Existing pages are never removed. Each page written or changed is `a/index.html` for a directory `a` of the climb: the start or one of its parents. |
| ParentSummary.GenerateWritesOwnIndex | internal/parentsummary/parentsummary.go:31-39 | On success the report directory's index lists exactly the walk's links. |

## Left out

- Reading files, running the AI backends, HTTP, JSON marshalling, goldmark
  Markdown conversion and HTML template rendering are not modelled. A
  conversion result, an endpoint value and a POST outcome are parameters,
  and a page is stored as the data handed to its template.
- The `fmt.Println`/`fmt.Printf` progress output in `GetMap` and
  `commentOnPRIfNecessary` is not modelled.
- `bufio.Scanner`'s token-size limit is not modelled: a line of any length
  is one token.
- `TrimSpace`, `ToLower`, `(?i)` and `\s` are ASCII only; Unicode
  whitespace and case folding are not modelled.
- DiffMapper.DiffMapper.GetMap: the `newLineNum` counter is an unbounded
  integer, so 64-bit wrap-around past 2^63-1 is not modelled.
- DiffMapper.DiffMapper.GetMap: a hunk header whose space split has fewer
  than three fields makes the Go code panic (`parts[2]`). The model
  requires such headers to be absent.
- ContextExtractor.ContextExtractor.ExtractContext: the Go function's error
  result is always nil and is left out.
- Go map iteration order (`changedLineNumbers`, `parsedReview.Lines`) is a
  parameter that lists every key exactly once, so properties hold for
  every order. The randomisation itself is not modelled.
- GitPr.GetPRInfo: `url.Parse` is not modelled. For accepted URLs the model
  requires no `?`, `#`, `%` or control character, so the path is the text
  after the host. The `panic` on a parse error is therefore not modelled,
  and neither is the percent-decoding of paths.
- CmdInterpreter.Arg: the source can return an argument that starts with
  `-` after trimming, as `CmdInterpreter.ArgTrimmedMayStartWithDash`
  shows. So `Arg` does not promise that no `-`-prefixed value is returned.
- Review.CommentOnPRIfNecessary: the flag read cannot fail once `HasFlag`
  holds, so that error path is unreachable and is not modelled.
- Review.CommentOnPRIfNecessary: the PR commenter is built once in `New`
  (`prcomment.New`). That construction is not modelled; only whether a
  commenter exists is a parameter.
- Review.SelectClient: the backend constructors it dispatches to (Amazon Q,
  Bedrock, Ollama, mock) are not part of this model; only the choice is.
- DotEnv.LoadEnv: the process environment is a map, and `os.Setenv`'s
  refusal of an empty or NUL-containing name or value is modelled as
  leaving the map unchanged. Errors from opening `.env` or from the scanner
  are not modelled.
- The extension list `FileExtensions` is not part of this model;
  `DotEnv.ShouldProcessFile` takes it as a parameter.
- HtmlReport.HtmlReporter.Report and SaveReport.Report: `os.MkdirAll`
  failing ends the process with `log.Fatal` in the source. This is not
  modelled; only a failing write (an unwritable path) is.
- ParentSummary.FileTree.Generate: paths are assumed clean, and
  `filepath.Join`/`Dir` are modelled on clean paths only.
- ParentSummary.FileTree.Generate: an absolute report path climbs forever
  (`/` never becomes `.`), so the model requires a relative path. The
  climb itself is stated by `ParentSummary.AbsoluteClimbNeverEnds`.
- ParentSummary.FileTree.Generate: the unused `rootPath` argument is left
  out.
- The HTML reporter's disk and the parent summary's directory tree are two
  separate abstractions; no property connects them.

=== FILE: ansistrip.dfy ===
/** Removal of terminal colour and formatting codes from the AI tool's
    output: one regular-expression replace-all pass per pattern, each pass
    deleting every non-overlapping match from left to right. */
module AnsiStrip {
  import opened Text

  const Esc: char := 27 as char

  /** The patterns deleted, in the order they are applied:
      ESC `[` `[0-9;]*` letter; `[0m[0m+`; `[38;5;\d+m`; then literals. */
  datatype Pattern = EscapeSequence | DoubleReset | Color256 | Literal(text: string)

  predicate IsAsciiLetter(c: char) {
    'a' <= c <= 'z' || 'A' <= c <= 'Z'
  }

  predicate IsParamChar(c: char) {
    IsDigit(c) || c == ';'
  }

  /** The first position at or after `i` that does not satisfy the class. */
  function SkipParams(s: string, i: nat): (j: nat)
    requires i <= |s|
    ensures i <= j <= |s|
    ensures forall k | i <= k < j :: IsParamChar(s[k])
    ensures j < |s| ==> !IsParamChar(s[j])
    decreases |s| - i
  {
    if i < |s| && IsParamChar(s[i]) then SkipParams(s, i + 1) else i
  }

  function SkipMs(s: string, i: nat): (j: nat)
    requires i <= |s|
    ensures i <= j <= |s|
    ensures forall k | i <= k < j :: s[k] == 'm'
    ensures j < |s| ==> s[j] != 'm'
    decreases |s| - i
  {
    if i < |s| && s[i] == 'm' then SkipMs(s, i + 1) else i
  }

  /** The character every match of the pattern starts with. */
  function Lead(pat: Pattern): char {
    if pat.EscapeSequence? then Esc else '['
  }

  predicate WellFormed(pat: Pattern) {
    pat.Literal? ==> |pat.text| > 0 && pat.text[0] == '['
  }

  /** The length of the match of `pat` at the start of `s`, if any. The
      repetitions are greedy; since what follows each repeated class cannot
      belong to it, the greedy match is the only one. */
  function MatchLen(s: string, pat: Pattern): (r: Option<nat>)
    requires WellFormed(pat)
    ensures r.Some? ==> 0 < r.value <= |s| && s[0] == Lead(pat)
  {
    match pat
    case EscapeSequence =>
      if |s| >= 2 && s[0] == Esc && s[1] == '[' then
        var j := SkipParams(s, 2);
        if j < |s| && IsAsciiLetter(s[j]) then Some(j + 1) else None
      else None
    case DoubleReset =>
      if HasPrefix(s, "[0m[0m") then Some(SkipMs(s, 6)) else None
    case Color256 =>
      if HasPrefix(s, "[38;5;") then
        var j := SkipDigits(s, 6);
        if j > 6 && j < |s| && s[j] == 'm' then Some(j + 1) else None
      else None
    case Literal(t) =>
      if HasPrefix(s, t) then Some(|t|) else None
  }

  /** regexp.ReplaceAllString(s, ""): scanning from the left, each match is
      dropped and the scan resumes after it; other characters are kept. */
  function DeleteAll(s: string, pat: Pattern): (r: string)
    requires WellFormed(pat)
    ensures |r| <= |s|
    decreases |s|
  {
    if s == [] then []
    else
      match MatchLen(s, pat)
      case Some(n) => DeleteAll(s[n..], pat)
      case None => [s[0]] + DeleteAll(s[1..], pat)
  }

  const Passes: seq<Pattern> := [
    EscapeSequence, DoubleReset, Color256,
    Literal("[39m"), Literal("[90m"), Literal("[92m"), Literal("[1m"), Literal("[22m")
  ]

  predicate AllWellFormed(ps: seq<Pattern>) {
    forall k | 0 <= k < |ps| :: WellFormed(ps[k])
  }

  /** The passes applied one after the other, first pattern first. */
  function DeleteEach(s: string, ps: seq<Pattern>): string
    requires AllWellFormed(ps)
    decreases |ps|
  {
    if ps == [] then s else DeleteEach(DeleteAll(s, ps[0]), ps[1..])
  }

  /** stripAnsiCodes */
  function StripAnsiCodes(s: string): string {
    DeleteEach(s, Passes)
  }

  // -----------------------------------------------------------------------
  // Properties

  /** Only deletions happen: every character of the result comes from the
      input, so the result is never longer. */
  lemma {:induction false} DeleteAllOnlyDeletes(s: string, pat: Pattern)
    requires WellFormed(pat)
    ensures multiset(DeleteAll(s, pat)) <= multiset(s)
    decreases |s|
  {
    if s != [] {
      var m := MatchLen(s, pat);
      if m.Some? {
        DeleteAllOnlyDeletes(s[m.value..], pat);
        DroppedPrefix(s, m.value, DeleteAll(s[m.value..], pat));
      } else {
        DeleteAllOnlyDeletes(s[1..], pat);
        KeptFirst(s, DeleteAll(s[1..], pat));
      }
    }
  }

  lemma DroppedPrefix(s: string, n: nat, r: string)
    requires n <= |s| && multiset(r) <= multiset(s[n..])
    ensures multiset(r) <= multiset(s)
  {
    assert s == s[..n] + s[n..];
  }

  lemma KeptFirst(s: string, r: string)
    requires |s| > 0 && multiset(r) <= multiset(s[1..])
    ensures multiset([s[0]] + r) <= multiset(s)
  {
    assert s == [s[0]] + s[1..];
  }

  lemma {:induction false} DeleteEachOnlyDeletes(s: string, ps: seq<Pattern>)
    requires AllWellFormed(ps)
    ensures multiset(DeleteEach(s, ps)) <= multiset(s)
    ensures |DeleteEach(s, ps)| <= |s|
    decreases |ps|
  {
    if ps != [] {
      DeleteAllOnlyDeletes(s, ps[0]);
      DeleteEachOnlyDeletes(DeleteAll(s, ps[0]), ps[1..]);
    }
  }

  /** The result of stripAnsiCodes is made of characters of the input and
      is never longer than it. */
  lemma StripOnlyDeletes(s: string)
    ensures multiset(StripAnsiCodes(s)) <= multiset(s)
    ensures |StripAnsiCodes(s)| <= |s|
  {
    PassesWellFormed();
    DeleteEachOnlyDeletes(s, Passes);
  }

  /** A pass keeps a stretch that holds no character a match could start
      with. */
  lemma {:induction false} DeleteAllKeeps(t: string, rest: string, pat: Pattern)
    requires WellFormed(pat)
    requires Lead(pat) !in t
    ensures DeleteAll(t + rest, pat) == t + DeleteAll(rest, pat)
  {
    if t != [] {
      var s := t + rest;
      assert s[0] == t[0] && t[0] != Lead(pat);
      assert MatchLen(s, pat).None?;
      assert s[1..] == t[1..] + rest;
      assert Lead(pat) !in t[1..];
      DeleteAllKeeps(t[1..], rest, pat);
      var r := DeleteAll(rest, pat);
      assert DeleteAll(s, pat) == [t[0]] + (t[1..] + r);
      assert t == [t[0]] + t[1..];
      AppendAssoc([t[0]], t[1..], r);
    } else {
      assert t + rest == rest;
    }
  }

  /** Every pass is a pattern of the expected form; only the first starts
      with ESC. */
  lemma PassesWellFormed()
    ensures AllWellFormed(Passes) && AllWellFormed(Passes[1..])
    ensures Passes[0] == EscapeSequence
    ensures forall k | 1 <= k < |Passes| :: Lead(Passes[k]) == '['
  {
  }

  lemma {:induction false} DeleteEachKeeps(t: string, ps: seq<Pattern>)
    requires AllWellFormed(ps)
    requires forall k | 0 <= k < |ps| :: Lead(ps[k]) !in t
    ensures DeleteEach(t, ps) == t
    decreases |ps|
  {
    if ps != [] {
      DeleteAllKeeps(t, [], ps[0]);
      assert t + [] == t;
      DeleteEachKeeps(t, ps[1..]);
    }
  }

  /** A string with no `[` at all comes back unchanged: without `[` not even
      an ESC can start a match. */
  lemma NoBracketAtAllUnchanged(s: string)
    requires '[' !in s
    ensures StripAnsiCodes(s) == s
  {
    PassesWellFormed();
    NoEscapeMatch(s);
    DeleteEachKeeps(s, Passes[1..]);
    assert DeleteEach(s, Passes) == DeleteEach(DeleteAll(s, EscapeSequence), Passes[1..]);
  }

  lemma {:induction false} NoEscapeMatch(s: string)
    requires '[' !in s
    ensures DeleteAll(s, EscapeSequence) == s
    decreases |s|
  {
    if s != [] {
      assert MatchLen(s, EscapeSequence).None? by {
        if |s| >= 2 {
          assert s[1] in s;
        }
      }
      assert forall c | c in s[1..] :: c in s;
      NoEscapeMatch(s[1..]);
      assert s == [s[0]] + s[1..];
    }
  }

  function AllParams(d: string): bool {
    forall k | 0 <= k < |d| :: IsParamChar(d[k])
  }

  /** A coloured stretch of text, ESC `[` params `m` text ESC `[0m`, comes
      back as the text alone. */
  lemma ColouredTextStripped(d: string, t: string)
    requires AllParams(d)
    requires Esc !in t && '[' !in t
    ensures StripAnsiCodes([Esc] + "[" + d + "m" + t + [Esc] + "[0m") == t
  {
    PassesWellFormed();
    EscapeStageStripsColour(d, t);
    DeleteEachKeeps(t, Passes[1..]);
  }

  lemma EscapeStageStripsColour(d: string, t: string)
    requires AllParams(d)
    requires Esc !in t
    ensures DeleteAll([Esc] + "[" + d + "m" + t + [Esc] + "[0m", EscapeSequence) == t
  {
    var reset := [Esc] + "[0m";
    assert [Esc] + "[" + d + "m" + t + [Esc] + "[0m" == [Esc, '['] + d + ['m'] + (t + reset);
    EscapeCodeDeleted(d, t + reset);
    DeleteAllKeeps(t, reset, EscapeSequence);
    ResetDeleted();
    assert t + [] == t;
  }

  /** An escape code at the front is dropped whole. */
  lemma EscapeCodeDeleted(d: string, rest: string)
    requires AllParams(d)
    ensures DeleteAll([Esc, '['] + d + ['m'] + rest, EscapeSequence) == DeleteAll(rest, EscapeSequence)
  {
    var s := [Esc, '['] + d + ['m'] + rest;
    assert s == [Esc, '['] + d + (['m'] + rest);
    SkipParamsOver(d, ['m'] + rest);
    assert s[|d| + 2] == 'm';
    assert MatchLen(s, EscapeSequence) == Some(|d| + 3);
    assert s[|d| + 3..] == rest;
  }

  lemma ResetDeleted()
    ensures DeleteAll([Esc] + "[0m", EscapeSequence) == []
  {
    var reset := [Esc] + "[0m";
    SkipParamsFrom(reset, 2, 3);
    assert MatchLen(reset, EscapeSequence) == Some(4);
    assert reset[4..] == [];
  }

  lemma SkipParamsOver(d: string, rest: string)
    requires AllParams(d)
    requires |rest| > 0 && !IsParamChar(rest[0])
    ensures SkipParams([Esc, '['] + d + rest, 2) == |d| + 2
  {
    var s := [Esc, '['] + d + rest;
    SkipParamsFrom(s, 2, |d| + 2);
  }

  lemma {:induction false} SkipParamsFrom(s: string, i: nat, j: nat)
    requires i <= j < |s|
    requires forall k | i <= k < j :: IsParamChar(s[k])
    requires !IsParamChar(s[j])
    ensures SkipParams(s, i) == j
    decreases j - i
  {
    if i < j {
      SkipParamsFrom(s, i + 1, j);
    }
  }

  /** `"\x1b[31mred\x1b[0m"` becomes `"red"`. */
  lemma RedExample()
    ensures StripAnsiCodes([Esc] + "[31mred" + [Esc] + "[0m") == "red"
  {
    assert [Esc] + "[31mred" + [Esc] + "[0m" == [Esc] + "[" + "31" + "m" + "red" + [Esc] + "[0m";
    ColouredTextStripped("31", "red");
  }

  /** Each pass runs once, so a code split by another code survives:
      deleting `[39m` from `[3[39m9m` leaves `[39m`. */
  lemma OnePassPerPattern()
    ensures DeleteAll("[3[39m9m", Literal("[39m")) == "[39m"
    ensures DeleteAll("[39m", Literal("[39m")) == ""
  {
    var code := "[39m";
    var pat := Literal(code);
    var s := "[3[39m9m";
    SplitCodeParts();
    assert DeleteAll(s, pat) == ['['] + DeleteAll(s[1..], pat) by {
      assert !HasPrefix(s, code) by { assert s[2] != code[2]; }
    }
    assert DeleteAll(s[1..], pat) == "3" + "9m" by {
      DeleteAllKeeps("3", code + "9m", pat);
      LiteralDeleted(code, "9m");
      DeleteAllKeeps("9m", [], pat);
    }
    LiteralDeleted(code, []);
  }

  /** The pieces of the example: the outer `[3` ... `9m` around `[39m`. */
  lemma SplitCodeParts()
    ensures "[3[39m9m" == ['['] + ("3" + ("[39m" + "9m"))
    ensures "[3[39m9m"[1..] == "3" + ("[39m" + "9m")
    ensures ['['] + ("3" + "9m") == "[39m"
    ensures "9m" + [] == "9m" && "[39m" + [] == "[39m"
  {
  }

  /** A literal pattern at the front is dropped. */
  lemma LiteralDeleted(t: string, rest: string)
    requires |t| > 0 && t[0] == '['
    ensures DeleteAll(t + rest, Literal(t)) == DeleteAll(rest, Literal(t))
  {
    var s := t + rest;
    assert s[..|t|] == t;
    assert s[|t|..] == rest;
  }

}

=== FILE: cmdinterpreter.dfy ===
/** Command-line access: positional arguments and `-name[=value]` flags read
    from the process arguments, where `args[0]` is the program name. */
module CmdInterpreter {
  import opened Text

  const FlagGithubPR := "githubpr"
  const FlagComment := "comment"

  datatype ArgError =
    | NegativeIndex
    | MissingArgument(index: int)
    | MissingFlag(name: string)

  predicate IsFlagLike(arg: string) {
    HasPrefix(arg, "-")
  }

  /** The arguments of `args` that do not start with `-`, in order. */
  function NonFlagArgs(args: seq<string>): seq<string> {
    if args == [] then []
    else
      var last := args[|args| - 1];
      NonFlagArgs(args[..|args| - 1]) + (if IsFlagLike(last) then [] else [last])
  }

  /** The positional arguments: those after the program name that do not
      start with `-`. */
  function Positional(args: seq<string>): seq<string> {
    if args == [] then [] else NonFlagArgs(args[1..])
  }

  /** Arg: the index-th positional argument (0-based), trimmed. */
  method Arg(args: seq<string>, index: int) returns (r: Result<string, ArgError>)
    ensures index < 0 ==> r == Err(NegativeIndex)
    ensures 0 <= index < |Positional(args)| ==> r == Ok(TrimSpace(Positional(args)[index]))
    ensures index >= |Positional(args)| ==> r == Err(MissingArgument(index))
  {
    if index < 0 {
      return Err(NegativeIndex);
    }
    if |args| == 0 {
      return Err(MissingArgument(index));
    }
    var i2 := 0;
    var i := 1;
    assert args[1..1] == [];
    while i < |args|
      invariant 1 <= i <= |args|
      invariant i2 == |NonFlagArgs(args[1..i])| && i2 <= index
    {
      assert args[1..i + 1][..i - 1] == args[1..i];
      if !IsFlagLike(args[i]) {
        if i2 == index {
          NonFlagArgsSplit(args[1..], i);
          assert args[1..][..i] == args[1..i + 1];
          return Ok(TrimSpace(args[i]));
        }
        i2 := i2 + 1;
      }
      i := i + 1;
    }
    assert args[1..i] == args[1..];
    return Err(MissingArgument(index));
  }

  /** Splitting the list at `n`: the non-flag arguments of the whole are
      those of the first `n` followed by those of the rest. */
  lemma {:induction false} NonFlagArgsSplit(s: seq<string>, n: nat)
    requires n <= |s|
    ensures NonFlagArgs(s) == NonFlagArgs(s[..n]) + NonFlagArgs(s[n..])
    decreases |s| - n
  {
    if n == |s| {
      assert s[..n] == s;
      assert s[n..] == [];
    } else {
      var init := s[..|s| - 1];
      NonFlagArgsSplitInit(s, n);
    }
  }

  lemma {:induction false} NonFlagArgsSplitInit(s: seq<string>, n: nat)
    requires n < |s|
    ensures NonFlagArgs(s) == NonFlagArgs(s[..n]) + NonFlagArgs(s[n..])
    decreases |s|
  {
    var init := s[..|s| - 1];
    if n < |init| {
      NonFlagArgsSplitInit(init, n);
      assert init[..n] == s[..n];
      assert s[n..][..|s[n..]| - 1] == init[n..];
    } else {
      assert init == s[..n];
      assert s[n..] == [s[|s| - 1]];
      assert s[n..][..0] == [];
    }
  }

  /** Every positional argument is one of the arguments after the program
      name, and none of them starts with `-`. */
  lemma {:induction false} PositionalSound(args: seq<string>)
    ensures forall k | 0 <= k < |Positional(args)| ::
      !IsFlagLike(Positional(args)[k]) && Positional(args)[k] in args[1..]
  {
    if args != [] {
      NonFlagArgsSound(args[1..]);
    }
  }

  lemma {:induction false} NonFlagArgsSound(s: seq<string>)
    ensures forall k | 0 <= k < |NonFlagArgs(s)| :: !IsFlagLike(NonFlagArgs(s)[k]) && NonFlagArgs(s)[k] in s
  {
    if s != [] {
      var init := s[..|s| - 1];
      NonFlagArgsSound(init);
      assert forall x | x in init :: x in s;
    }
  }

  /** Every argument after the program name that does not start with `-`
      is a positional argument. */
  lemma {:induction false} PositionalComplete(args: seq<string>)
    ensures forall i | 1 <= i < |args| && !IsFlagLike(args[i]) :: args[i] in Positional(args)
  {
    if args != [] {
      NonFlagArgsComplete(args[1..]);
    }
  }

  lemma {:induction false} NonFlagArgsComplete(s: seq<string>)
    ensures forall i | 0 <= i < |s| && !IsFlagLike(s[i]) :: s[i] in NonFlagArgs(s)
  {
    if s != [] {
      var init := s[..|s| - 1];
      NonFlagArgsComplete(init);
      forall i | 0 <= i < |s| && !IsFlagLike(s[i])
        ensures s[i] in NonFlagArgs(s)
      {
        if i < |init| {
          assert init[i] == s[i];
        }
      }
    }
  }

  /** The dash test comes before trimming, so an argument with a leading
      space and a dash is returned dash-first. */
  lemma ArgTrimmedMayStartWithDash()
    ensures Positional(["qreview", " -x"]) == [" -x"]
    ensures TrimSpace(" -x") == "-x"
  {
    var args := ["qreview", " -x"];
    assert args[1..] == [" -x"];
    assert [" -x"][..0] == [];
    assert " -x"[..1] == " ";
    assert !IsFlagLike(" -x");
    assert TrimLeftSpace(" -x") == TrimLeftSpace(" -x"[1..]);
    assert " -x"[1..] == "-x";
  }

  // -----------------------------------------------------------------------
  // Flags

  /** `arg` is `-name`, or `-name=value`, ignoring case. */
  predicate FlagMatches(arg: string, name: string) {
    IsFlagLike(arg) && ToLower(Cut(arg, '=').before) == "-" + ToLower(name)
  }

  /** The first argument at or after position `i` that is the flag. */
  function FlagFrom(args: seq<string>, i: nat, name: string): (r: Result<string, ArgError>)
    ensures r.Ok? <==> exists j | i <= j < |args| :: FlagMatches(args[j], name)
    ensures r.Ok? ==> exists j | i <= j < |args| ::
      && FlagMatches(args[j], name)
      && (forall k | i <= k < j :: !FlagMatches(args[k], name))
      && r.value == Cut(args[j], '=').after
    ensures r.Err? ==> r.error == MissingFlag(name)
    decreases |args| - i
  {
    if i >= |args| then Err(MissingFlag(name))
    else if FlagMatches(args[i], name) then Ok(Cut(args[i], '=').after)
    else FlagFrom(args, i + 1, name)
  }

  /** Flag: the value of the first `-name[=value]` argument after the
      program name (empty when there is no `=`), or an error. */
  function Flag(args: seq<string>, name: string): (r: Result<string, ArgError>)
    ensures r.Ok? <==> exists j | 1 <= j < |args| :: FlagMatches(args[j], name)
    ensures r.Ok? ==> exists j | 1 <= j < |args| ::
      && FlagMatches(args[j], name)
      && (forall k | 1 <= k < j :: !FlagMatches(args[k], name))
      && r.value == Cut(args[j], '=').after
    ensures r.Err? ==> r.error == MissingFlag(name)
  {
    FlagFrom(args, 1, name)
  }

  /** HasFlag: whether some argument after the program name is the flag. */
  function HasFlag(args: seq<string>, name: string): (b: bool)
    ensures b <==> exists j | 1 <= j < |args| :: FlagMatches(args[j], name)
  {
    Flag(args, name).Ok?
  }

  lemma ToLowerIdempotent(s: string)
    ensures ToLower(ToLower(s)) == ToLower(s)
  {
  }

  /** The flag name is compared without regard to case. */
  lemma FlagIgnoresCase(args: seq<string>, name: string)
    ensures Flag(args, name).Ok? == Flag(args, ToLower(name)).Ok?
    ensures Flag(args, name).Ok? ==> Flag(args, name).value == Flag(args, ToLower(name)).value
  {
    ToLowerIdempotent(name);
    assert forall a :: FlagMatches(a, name) == FlagMatches(a, ToLower(name));
    FlagFromIgnoresCase(args, 1, name);
  }

  lemma {:induction false} FlagFromIgnoresCase(args: seq<string>, i: nat, name: string)
    requires forall a :: FlagMatches(a, name) == FlagMatches(a, ToLower(name))
    ensures FlagFrom(args, i, name).Ok? == FlagFrom(args, i, ToLower(name)).Ok?
    ensures FlagFrom(args, i, name).Ok? ==>
      FlagFrom(args, i, name).value == FlagFrom(args, i, ToLower(name)).value
    decreases |args| - i
  {
    if i < |args| && !FlagMatches(args[i], name) {
      FlagFromIgnoresCase(args, i + 1, name);
    }
  }

  /** `-name=value` yields everything after the first `=`, so the value may
      itself contain `=`. */
  lemma FlagValueAfterFirstEquals(prog: string, name: string, value: string)
    requires '=' !in name
    ensures Flag([prog, "-" + name + "=" + value], name) == Ok(value)
  {
    var arg := "-" + name + "=" + value;
    assert arg == ("-" + name) + ['='] + value;
    assert '=' !in "-" + name;
    IndexOfAppend("-" + name, '=', value);
    assert arg[..|name| + 1] == "-" + name;
    assert arg[|name| + 2..] == value;
    assert ToLower("-" + name) == "-" + ToLower(name);
    assert HasPrefix(arg, "-");
    assert FlagMatches([prog, arg][1], name);
  }

  /** A bare `-name` is present with the empty value. */
  lemma BareFlagHasEmptyValue(prog: string, name: string)
    requires '=' !in name
    ensures Flag([prog, "-" + name], name) == Ok("")
  {
    var arg := "-" + name;
    assert '=' !in arg;
    assert ToLower(arg) == "-" + ToLower(name);
    assert HasPrefix(arg, "-");
    assert FlagMatches([prog, arg][1], name);
  }
}

=== FILE: contextextractor.dfy ===
/** Builds a partial view of a file: a window of context lines around each
    changed line, the windows sorted and merged, serialised with markers. */
module ContextExtractor {
  import opened Text
  import opened DiffMapper

  /** Lines startLine..endLine (1-based, inclusive) and the text taken for
      them when the block was created. */
  datatype Block = Block(startLine: int, endLine: int, content: string)

  function Min(a: int, b: int): (r: int)
    ensures r <= a && r <= b && (r == a || r == b)
  {
    if a < b then a else b
  }

  function Max(a: int, b: int): (r: int)
    ensures r >= a && r >= b && (r == a || r == b)
  {
    if a > b then a else b
  }

  // -----------------------------------------------------------------------
  // Initial blocks

  /** The text the block-building loop collects for 0-based indices
      s0..e0: each existing line followed by "\n". */
  function WindowContent(lines: seq<string>, s0: nat, e0: int): string
    decreases e0 - s0
  {
    if e0 < s0 then ""
    else WindowContent(lines, s0, e0 - 1) + (if e0 < |lines| then lines[e0] + "\n" else "")
  }

  /** The block createContextBlocks builds for changed line `n`. */
  function InitialBlock(lines: seq<string>, n: int, contextLines: int): Block {
    var s0 := Max(0, n - contextLines - 1);
    var e0 := Min(|lines| - 1, n + contextLines - 1);
    Block(s0 + 1, e0 + 1, WindowContent(lines, s0, e0))
  }

  function InitialBlocks(lines: seq<string>, order: seq<int>, contextLines: int): (bs: seq<Block>)
    ensures |bs| == |order|
  {
    seq(|order|, k requires 0 <= k < |order| => InitialBlock(lines, order[k], contextLines))
  }

  lemma {:induction false} WindowContentIsJoin(lines: seq<string>, s0: nat, e0: int)
    requires s0 <= e0 + 1 && e0 < |lines|
    ensures WindowContent(lines, s0, e0) == JoinLines(lines[s0..e0 + 1])
    decreases e0 - s0
  {
    if e0 >= s0 {
      WindowContentIsJoin(lines, s0, e0 - 1);
      assert lines[s0..e0 + 1] == lines[s0..e0] + [lines[e0]];
      JoinLinesAppend(lines[s0..e0], lines[e0]);
    }
  }

  /** For a changed line inside the file the block spans
      max(1, n-C)..min(lineCount, n+C), contains n, and its content is
      exactly those original lines, each followed by "\n". */
  lemma InitialBlockWindow(lines: seq<string>, n: int, contextLines: int)
    requires 1 <= n <= |lines| && contextLines >= 0
    ensures var b := InitialBlock(lines, n, contextLines);
      && b.startLine == Max(1, n - contextLines)
      && b.endLine == Min(|lines|, n + contextLines)
      && 1 <= b.startLine <= n <= b.endLine <= |lines|
      && b.content == JoinLines(lines[b.startLine - 1..b.endLine])
  {
    var s0 := Max(0, n - contextLines - 1);
    var e0 := Min(|lines| - 1, n + contextLines - 1);
    WindowContentIsJoin(lines, s0, e0);
  }

  /** A changed line more than C lines past the end of the file gets an
      empty block whose start lies after its end. */
  lemma {:induction false} InitialBlockPastEnd(lines: seq<string>, n: int, contextLines: int)
    requires n > |lines| + contextLines && contextLines >= 0
    ensures var b := InitialBlock(lines, n, contextLines);
      b.content == "" && b.startLine > b.endLine
  {
  }

  /** Twenty lines, line 15 changed, three lines of context: one block for
      lines 12..18 holding those seven lines. */
  lemma TwentyLineExample(lines: seq<string>)
    requires |lines| == 20
    ensures var b := InitialBlock(lines, 15, 3);
      b.startLine == 12 && b.endLine == 18 && b.content == JoinLines(lines[11..18])
      && |lines[11..18]| == 7
  {
    InitialBlockWindow(lines, 15, 3);
  }

  // -----------------------------------------------------------------------
  // Sorting

  predicate SortedByStart(s: seq<Block>) {
    forall p, q | 0 <= p < q < |s| :: s[p].startLine <= s[q].startLine
  }

  /** Every position before `i` already holds a start no larger than any
      later start. */
  predicate PlacedBefore(s: seq<Block>, i: int) {
    forall p, q | 0 <= p < q < |s| && p < i :: s[p].startLine <= s[q].startLine
  }

  /** Position `i` holds a start no larger than those at i+1..j-1. */
  predicate SmallestUpTo(s: seq<Block>, i: int, j: int)
    requires 0 <= i < |s|
  {
    forall q | i < q < j && q < |s| :: s[i].startLine <= s[q].startLine
  }

  /** The array after exchanging the blocks at positions i and j. */
  function Swap(s: seq<Block>, i: int, j: int): (t: seq<Block>)
    requires 0 <= i < |s| && 0 <= j < |s|
    ensures |t| == |s| && t[i] == s[j] && t[j] == s[i]
    ensures forall k | 0 <= k < |s| && k != i && k != j :: t[k] == s[k]
  {
    s[i := s[j]][j := s[i]]
  }

  lemma SwapStep(s: seq<Block>, i: int, j: int)
    requires 0 <= i < j < |s|
    requires PlacedBefore(s, i) && SmallestUpTo(s, i, j)
    requires s[i].startLine > s[j].startLine
    ensures var t := Swap(s, i, j);
      PlacedBefore(t, i) && SmallestUpTo(t, i, j + 1) && multiset(t) == multiset(s)
  {
    var t := Swap(s, i, j);
    assert t == s[i := s[j]][j := s[i]];
    forall p, q | 0 <= p < q < |t| && p < i
      ensures t[p].startLine <= t[q].startLine
    {
      assert t[p] == s[p];
      if q == i {
        assert s[p].startLine <= s[j].startLine;
      } else if q == j {
        assert s[p].startLine <= s[i].startLine;
      } else {
        assert t[q] == s[q];
      }
    }
  }

  lemma PlacedNext(s: seq<Block>, i: int)
    requires 0 <= i < |s|
    requires PlacedBefore(s, i) && SmallestUpTo(s, i, |s|)
    ensures PlacedBefore(s, i + 1)
  {
  }

  /** One iteration of the inner loop: the block at `j` is exchanged with
      the one at `i` when it starts earlier. */
  function ExchangeStep(s: seq<Block>, i: int, j: int): (t: seq<Block>)
    requires 0 <= i < |s| && 0 <= j < |s|
    ensures |t| == |s|
  {
    if s[i].startLine > s[j].startLine then Swap(s, i, j) else s
  }

  /** The inner loop of sortBlocks for position `i`, from `j` on: every
      later block that starts before the one now at `i` is exchanged
      with it. */
  function ExchangePass(s: seq<Block>, i: int, j: int): (t: seq<Block>)
    requires 0 <= i < j <= |s|
    ensures |t| == |s|
    decreases |s| - j
  {
    if j == |s| then s else ExchangePass(ExchangeStep(s, i, j), i, j + 1)
  }

  /** One iteration keeps the earlier positions settled, extends the range
      over which position `i` is smallest, and permutes the blocks. */
  lemma ExchangeStepKeeps(s: seq<Block>, i: int, j: int)
    requires 0 <= i < j < |s|
    requires PlacedBefore(s, i) && SmallestUpTo(s, i, j)
    ensures var u := ExchangeStep(s, i, j);
      PlacedBefore(u, i) && SmallestUpTo(u, i, j + 1) && multiset(u) == multiset(s)
  {
    if s[i].startLine > s[j].startLine {
      SwapStep(s, i, j);
    }
  }

  /** The outer loop of sortBlocks from position `i` on. */
  function ExchangeSortFrom(s: seq<Block>, i: int): (t: seq<Block>)
    requires 0 <= i <= |s|
    ensures |t| == |s|
    decreases |s| - i
  {
    if i == |s| then s else ExchangeSortFrom(ExchangePass(s, i, i + 1), i + 1)
  }

  /** The order sortBlocks leaves behind, including the relative order of
      blocks that share a start line. */
  function ExchangeSort(s: seq<Block>): (t: seq<Block>)
    ensures |t| == |s|
  {
    ExchangeSortFrom(s, 0)
  }

  /** One inner pass settles position `i` and permutes the blocks. */
  lemma {:induction false} ExchangePassPlaces(s: seq<Block>, i: int, j: int)
    requires 0 <= i < j <= |s|
    requires PlacedBefore(s, i) && SmallestUpTo(s, i, j)
    ensures PlacedBefore(ExchangePass(s, i, j), i + 1)
    ensures multiset(ExchangePass(s, i, j)) == multiset(s)
    decreases |s| - j
  {
    if j == |s| {
      PlacedNext(s, i);
    } else {
      ExchangeStepKeeps(s, i, j);
      ExchangePassPlaces(ExchangeStep(s, i, j), i, j + 1);
    }
  }

  /** On an ordered sequence an inner pass swaps nothing. */
  lemma {:induction false} ExchangePassOrdered(s: seq<Block>, i: int, j: int)
    requires 0 <= i < j <= |s| && SortedByStart(s)
    ensures ExchangePass(s, i, j) == s
    decreases |s| - j
  {
    if j < |s| {
      assert ExchangeStep(s, i, j) == s;
      ExchangePassOrdered(s, i, j + 1);
    }
  }

  /** The remaining outer passes, once the first `i` positions are settled,
      leave an ordered permutation. */
  lemma {:induction false} ExchangeSortFromSorts(s: seq<Block>, i: int)
    requires 0 <= i <= |s| && PlacedBefore(s, i)
    ensures SortedByStart(ExchangeSortFrom(s, i))
    ensures multiset(ExchangeSortFrom(s, i)) == multiset(s)
    decreases |s| - i
  {
    if i < |s| {
      var u := ExchangePass(s, i, i + 1);
      ExchangePassPlaces(s, i, i + 1);
      ExchangeSortFromSorts(u, i + 1);
    }
  }

  /** On an ordered sequence the remaining outer passes change nothing. */
  lemma {:induction false} ExchangeSortFromOrdered(s: seq<Block>, i: int)
    requires 0 <= i <= |s| && SortedByStart(s)
    ensures ExchangeSortFrom(s, i) == s
    decreases |s| - i
  {
    if i < |s| {
      ExchangePassOrdered(s, i, i + 1);
      ExchangeSortFromOrdered(s, i + 1);
    }
  }

  /** The exchange sort orders the blocks by start line, is a permutation of
      its input, and leaves an ordered sequence as it is. */
  lemma ExchangeSortSorts(s: seq<Block>)
    ensures SortedByStart(ExchangeSort(s))
    ensures multiset(ExchangeSort(s)) == multiset(s)
    ensures SortedByStart(s) ==> ExchangeSort(s) == s
  {
    ExchangeSortFromSorts(s, 0);
    if SortedByStart(s) {
      ExchangeSortFromOrdered(s, 0);
    }
  }

  /** Blocks sharing a start line keep no fixed order: here the two blocks
      starting at line 2 come out swapped. */
  lemma ExchangeSortReordersTies()
    ensures ExchangeSort([Block(2, 3, "x\n"), Block(2, 4, "y\n"), Block(1, 1, "z\n")])
      == [Block(1, 1, "z\n"), Block(2, 4, "y\n"), Block(2, 3, "x\n")]
  {
    var s := [Block(2, 3, "x\n"), Block(2, 4, "y\n"), Block(1, 1, "z\n")];
    var s1 := [Block(1, 1, "z\n"), Block(2, 4, "y\n"), Block(2, 3, "x\n")];
    assert ExchangePass(s, 0, 1) == s1;
    assert ExchangePass(s1, 1, 2) == s1;
    assert ExchangeSortFrom(s1, 2) == s1;
  }

  /** Which of two blocks with the same start comes first decides the text
      of the merged block: blocks for lines 5..6, 1..3 and 1..4, in that
      order, merge into one block for lines 1..6 holding the 1..3 text. */
  lemma ExchangeSortDecidesMergedText()
    ensures Merge(ExchangeSort([Block(5, 6, "c\n"), Block(1, 3, "a\n"), Block(1, 4, "b\n")]))
      == [Block(1, 6, "a\n")]
  {
    var a, b, c := Block(1, 3, "a\n"), Block(1, 4, "b\n"), Block(5, 6, "c\n");
    assert Swap([c, a, b], 0, 1) == [a, c, b];
    assert ExchangePass([a, c, b], 0, 2) == [a, c, b];
    assert ExchangePass([c, a, b], 0, 1) == [a, c, b];
    assert Swap([a, c, b], 1, 2) == [a, b, c];
    assert ExchangePass([a, c, b], 1, 2) == [a, b, c];
    assert ExchangeSortFrom([a, b, c], 2) == [a, b, c];
    assert ExchangeSortFrom([a, c, b], 1) == [a, b, c];
    assert MergeUpTo([a, b, c], 1) == MergeState([], a);
    assert MergeUpTo([a, b, c], 2) == MergeState([], Block(1, 4, "a\n"));
    assert MergeUpTo([a, b, c], 3) == MergeState([], Block(1, 6, "a\n"));
  }

  /** sortBlocks: an exchange sort on startLine, in place. */
  method SortBlocks(a: array<Block>)
    modifies a
    ensures a[..] == ExchangeSort(old(a[..]))
    ensures SortedByStart(a[..])
    ensures multiset(a[..]) == multiset(old(a[..]))
    ensures SortedByStart(old(a[..])) ==> a[..] == old(a[..])
  {
    ghost var s0 := a[..];
    var i := 0;
    while i < a.Length
      invariant 0 <= i <= a.Length
      invariant ExchangeSortFrom(a[..], i) == ExchangeSort(s0)
    {
      PlaceSmallest(a, i);
      i := i + 1;
    }
    ExchangeSortSorts(s0);
  }

  /** The inner loop of sortBlocks: swaps into position `i` every later
      block that starts earlier. */
  method PlaceSmallest(a: array<Block>, i: int)
    requires 0 <= i < a.Length
    modifies a
    ensures a[..] == ExchangePass(old(a[..]), i, i + 1)
  {
    var j := i + 1;
    while j < a.Length
      invariant i + 1 <= j <= a.Length
      invariant ExchangePass(a[..], i, j) == ExchangePass(old(a[..]), i, i + 1)
    {
      ghost var before := a[..];
      if a[i].startLine > a[j].startLine {
        a[i], a[j] := a[j], a[i];
        assert a[..] == Swap(before, i, j);
      }
      j := j + 1;
    }
  }

  // -----------------------------------------------------------------------
  // Merging

  /** The variables of the merge loop: blocks already emitted and the block
      being extended. */
  datatype MergeState = MergeState(done: seq<Block>, current: Block)

  /** One iteration: a block starting at most one line after the current
      end extends it (only its end; the content stays); otherwise the current
      block is emitted and the new one becomes current. */
  function MergeStep(st: MergeState, b: Block): MergeState {
    if b.startLine <= st.current.endLine + 1 then
      if b.endLine > st.current.endLine then MergeState(st.done, st.current.(endLine := b.endLine))
      else st
    else MergeState(st.done + [st.current], b)
  }

  function MergeUpTo(s: seq<Block>, i: nat): MergeState
    requires 1 <= i <= |s|
  {
    if i == 1 then MergeState([], s[0]) else MergeStep(MergeUpTo(s, i - 1), s[i - 1])
  }

  /** What mergeBlocks returns for an already sorted list. */
  function Merge(s: seq<Block>): seq<Block> {
    if |s| <= 1 then s
    else
      var st := MergeUpTo(s, |s|);
      st.done + [st.current]
  }

  /** Consecutive blocks are separated by at least one omitted line. */
  predicate Separated(s: seq<Block>) {
    forall k | 0 <= k < |s| - 1 :: s[k + 1].startLine > s[k].endLine + 1
  }

  lemma {:induction false} MergeUpToSeparated(s: seq<Block>, i: nat)
    requires 1 <= i <= |s|
    ensures var st := MergeUpTo(s, i); Separated(st.done + [st.current])
  {
    if i > 1 {
      MergeUpToSeparated(s, i - 1);
      var st := MergeUpTo(s, i - 1);
      var b := s[i - 1];
      var all := st.done + [st.current];
      if b.startLine <= st.current.endLine + 1 {
        var all' := st.done + [st.current.(endLine := Max(st.current.endLine, b.endLine))];
        forall k | 0 <= k < |all'| - 1
          ensures all'[k + 1].startLine > all'[k].endLine + 1
        {
          assert all'[k] == all[k];
          assert all'[k + 1].startLine == all[k + 1].startLine;
        }
      } else {
        assert (st.done + [st.current]) + [b] == all + [b];
      }
    }
  }

  /** After merging, consecutive blocks are neither overlapping nor touching. */
  lemma MergeSeparated(s: seq<Block>)
    ensures Separated(Merge(s))
  {
    if |s| > 1 {
      MergeUpToSeparated(s, |s|);
    }
  }

  lemma {:induction false} MergeUpToOfSeparated(s: seq<Block>, i: nat)
    requires 1 <= i <= |s| && Separated(s)
    ensures MergeUpTo(s, i) == MergeState(s[..i - 1], s[i - 1])
  {
    if i > 1 {
      MergeUpToOfSeparated(s, i - 1);
      assert s[..i - 2] + [s[i - 2]] == s[..i - 1];
    }
  }

  /** A separated list is left as it is, so merging is idempotent. */
  lemma MergeIdempotent(s: seq<Block>)
    ensures Separated(s) ==> Merge(s) == s
    ensures Merge(Merge(s)) == Merge(s)
  {
    if Separated(s) && |s| > 1 {
      MergeUpToOfSeparated(s, |s|);
      assert s[..|s| - 1] + [s[|s| - 1]] == s;
    }
    MergeSeparated(s);
    if |Merge(s)| > 1 {
      MergeUpToOfSeparated(Merge(s), |Merge(s)|);
      assert Merge(s)[..|Merge(s)| - 1] + [Merge(s)[|Merge(s)| - 1]] == Merge(s);
    }
  }

  lemma {:induction false} MergeUpToSorted(s: seq<Block>, i: nat)
    requires 1 <= i <= |s| && SortedByStart(s)
    ensures var st := MergeUpTo(s, i);
      SortedByStart(st.done + [st.current]) && st.current.startLine <= s[i - 1].startLine
  {
    if i > 1 {
      MergeUpToSorted(s, i - 1);
      var st := MergeUpTo(s, i - 1);
      var all := st.done + [st.current];
      assert s[i - 2].startLine <= s[i - 1].startLine;
      if s[i - 1].startLine > st.current.endLine + 1 {
        assert forall k | 0 <= k < |all| :: all[k].startLine <= all[|all| - 1].startLine;
        assert st.done + [st.current] + [s[i - 1]] == all + [s[i - 1]];
      } else {
        var all' := st.done + [st.current.(endLine := Max(st.current.endLine, s[i - 1].endLine))];
        assert forall k | 0 <= k < |all'| :: all'[k].startLine == all[k].startLine;
      }
    }
  }

  /** Merging a start-sorted list gives a start-sorted list, so the sort
      in a second mergeBlocks leaves it as it is and, by MergeIdempotent,
      the second merge changes nothing. */
  lemma MergeSortedIdempotent(s: seq<Block>)
    requires SortedByStart(s)
    ensures SortedByStart(Merge(s))
    ensures Merge(Merge(s)) == Merge(s)
  {
    if |s| > 1 {
      MergeUpToSorted(s, |s|);
    }
    MergeIdempotent(s);
  }

  predicate Covers(o: Block, b: Block) {
    o.startLine <= b.startLine && b.endLine <= o.endLine
  }

  predicate CoveredBy(b: Block, os: seq<Block>) {
    exists o | o in os :: Covers(o, b)
  }

  /** Coverage carries over from one list to a list covering each of its
      blocks. */
  lemma CoveredStep(s: seq<Block>, i: nat, pre: seq<Block>, post: seq<Block>, last: Block)
    requires 1 <= i <= |s|
    requires forall k | 0 <= k < i - 1 :: CoveredBy(s[k], pre)
    requires forall o | o in pre :: CoveredBy(o, post)
    requires last in post && Covers(last, s[i - 1])
    ensures forall k | 0 <= k < i :: CoveredBy(s[k], post)
  {
    forall k | 0 <= k < i
      ensures CoveredBy(s[k], post)
    {
      if k < i - 1 {
        var o :| o in pre && Covers(o, s[k]);
        var p :| p in post && Covers(p, o);
        assert Covers(p, s[k]);
      }
    }
  }

  lemma {:induction false} MergeUpToCovers(s: seq<Block>, i: nat)
    requires 1 <= i <= |s| && SortedByStart(s)
    ensures var st := MergeUpTo(s, i);
      && (forall k | 0 <= k < i :: CoveredBy(s[k], st.done + [st.current]))
      && (exists m | 0 <= m < i :: st.current.startLine == s[m].startLine)
  {
    var st := MergeUpTo(s, i);
    if i == 1 {
      assert Covers(st.current, s[0]);
    } else {
      MergeUpToCovers(s, i - 1);
      var pre := MergeUpTo(s, i - 1);
      var b := s[i - 1];
      var before, after := pre.done + [pre.current], st.done + [st.current];
      var m :| 0 <= m < i - 1 && pre.current.startLine == s[m].startLine;
      if b.startLine <= pre.current.endLine + 1 {
        assert st.current.startLine == pre.current.startLine;
        assert st.done == pre.done;
        assert st.current.endLine >= pre.current.endLine;
        forall o | o in before
          ensures CoveredBy(o, after)
        {
          if o == pre.current {
            assert Covers(st.current, o);
          } else {
            assert o in st.done && Covers(o, o);
          }
        }
      } else {
        assert st == MergeState(before, b);
        forall o | o in before
          ensures CoveredBy(o, after)
        {
          assert o in after && Covers(o, o);
        }
      }
      assert st.current in after && Covers(st.current, b);
      CoveredStep(s, i, before, after, st.current);
    }
  }

  /** On sorted input every block's range lies inside some merged block. */
  lemma MergeCovers(s: seq<Block>)
    requires SortedByStart(s)
    ensures forall k | 0 <= k < |s| :: CoveredBy(s[k], Merge(s))
  {
    if |s| > 1 {
      MergeUpToCovers(s, |s|);
    } else if |s| == 1 {
      assert Covers(s[0], s[0]);
    }
  }

  /** Where a merged block's fields come from. */
  predicate FromInputs(o: Block, s: seq<Block>) {
    && (exists b | b in s :: b.startLine == o.startLine && b.content == o.content)
    && (exists b | b in s :: b.endLine == o.endLine)
  }

  lemma {:induction false} MergeUpToFromInputs(s: seq<Block>, i: nat)
    requires 1 <= i <= |s|
    ensures var st := MergeUpTo(s, i);
      forall o | o in st.done + [st.current] :: FromInputs(o, s)
  {
    var st := MergeUpTo(s, i);
    if i == 1 {
      assert s[0] in s;
      assert forall o | o in st.done + [st.current] :: o == s[0];
    } else {
      MergeUpToFromInputs(s, i - 1);
      var pre := MergeUpTo(s, i - 1);
      var b := s[i - 1];
      assert b in s;
      assert pre.current in pre.done + [pre.current];
      forall o | o in st.done + [st.current]
        ensures FromInputs(o, s)
      {
        if o in pre.done || o == pre.current {
        } else if o == st.current && b.startLine <= pre.current.endLine + 1 {
          assert o == pre.current.(endLine := b.endLine);
          assert FromInputs(pre.current, s);
        } else {
          assert o == b;
        }
      }
    }
  }

  /** Merging never regenerates text: every merged block keeps the start and
      the content of one input block and takes its end from one input block,
      so a block that grew still holds only its first member's lines. */
  lemma MergeKeepsFirstContent(s: seq<Block>)
    ensures forall o | o in Merge(s) :: FromInputs(o, s)
  {
    if |s| > 1 {
      MergeUpToFromInputs(s, |s|);
    } else {
      assert forall o | o in s :: o in s;
    }
  }

  /** Two touching windows merge into one whose header will announce lines
      1..5 while its content holds only lines 1..3. */
  lemma StaleContentExample()
    ensures Merge([Block(1, 3, "a\nb\nc\n"), Block(3, 5, "c\nd\ne\n")]) == [Block(1, 5, "a\nb\nc\n")]
  {
    var s := [Block(1, 3, "a\nb\nc\n"), Block(3, 5, "c\nd\ne\n")];
    assert MergeUpTo(s, 1) == MergeState([], s[0]);
    assert MergeUpTo(s, 2) == MergeState([], Block(1, 5, "a\nb\nc\n"));
  }

  // -----------------------------------------------------------------------
  // Serialising

  const ContextHeader: string := "// CONTEXT: This is a partial view of the file showing only changed code and its context\n\n"
  const OmissionMarker: string := "\n// ...\n\n"

  function BlockText(b: Block): string {
    "// Lines " + IntToString(b.startLine) + "-" + IntToString(b.endLine) + "\n" + b.content
  }

  /** The block texts as the serialising loop appends them. */
  function RenderBody(bs: seq<Block>): string {
    if bs == [] then ""
    else RenderBody(bs[..|bs| - 1]) + (if |bs| > 1 then OmissionMarker else "") + BlockText(bs[|bs| - 1])
  }

  function Render(bs: seq<Block>): string {
    ContextHeader + RenderBody(bs)
  }

  /** The usual separator join, defined from the front. */
  function JoinWith(parts: seq<string>, sep: string): string {
    if parts == [] then ""
    else if |parts| == 1 then parts[0]
    else parts[0] + sep + JoinWith(parts[1..], sep)
  }

  function BlockTexts(bs: seq<Block>): (r: seq<string>)
    ensures |r| == |bs|
  {
    if bs == [] then [] else BlockTexts(bs[..|bs| - 1]) + [BlockText(bs[|bs| - 1])]
  }

  lemma {:induction false} JoinWithAppend(parts: seq<string>, sep: string, x: string)
    requires parts != []
    ensures JoinWith(parts + [x], sep) == JoinWith(parts, sep) + sep + x
    decreases |parts|
  {
    if |parts| == 1 {
      assert parts + [x] == [parts[0], x];
    } else {
      JoinWithAppend(parts[1..], sep, x);
      assert (parts + [x])[1..] == parts[1..] + [x];
    }
  }

  /** The serialised view is the header followed by the block texts
      ("// Lines s-e" and the content), joined by the omission marker. */
  lemma {:induction false} RenderIsJoin(bs: seq<Block>)
    ensures RenderBody(bs) == JoinWith(BlockTexts(bs), OmissionMarker)
    decreases |bs|
  {
    if |bs| > 1 {
      var init := bs[..|bs| - 1];
      RenderIsJoin(init);
      JoinWithAppend(BlockTexts(init), OmissionMarker, BlockText(bs[|bs| - 1]));
    } else if |bs| == 1 {
      assert bs[..0] == [];
      assert RenderBody(bs) == BlockText(bs[0]);
      assert BlockTexts(bs) == [BlockText(bs[0])];
      assert JoinWith(BlockTexts(bs), OmissionMarker) == BlockText(bs[0]);
    }
  }

  // -----------------------------------------------------------------------
  // The extractor

  function LineNumbers(changes: seq<ChangedLine>): set<int> {
    set k | 0 <= k < |changes| :: changes[k].lineNum
  }

  /** The set of changed line numbers, built by the loop at the start of
      ExtractContext. */
  method CollectLineNumbers(changes: seq<ChangedLine>) returns (nums: set<int>)
    ensures nums == LineNumbers(changes)
  {
    nums := {};
    for k := 0 to |changes|
      invariant nums == set m | 0 <= m < k :: changes[m].lineNum
    {
      nums := nums + {changes[k].lineNum};
    }
  }

  /** The output loop of ExtractContext: the header, then each block's text,
      with the omission marker between consecutive blocks. */
  method RenderBlocks(bs: seq<Block>) returns (out: string)
    ensures out == Render(bs)
  {
    out := ContextHeader;
    for i := 0 to |bs|
      invariant out == ContextHeader + RenderBody(bs[..i])
    {
      ghost var before := out;
      if i > 0 {
        out := out + OmissionMarker;
      }
      out := out + BlockText(bs[i]);
      RenderStep(bs, i, before);
    }
    assert bs[..|bs|] == bs;
  }

  /** One iteration of the output loop extends the rendering by one block. */
  lemma RenderStep(bs: seq<Block>, i: int, before: string)
    requires 0 <= i < |bs| && before == ContextHeader + RenderBody(bs[..i])
    ensures (if i > 0 then before + OmissionMarker else before) + BlockText(bs[i])
      == ContextHeader + RenderBody(bs[..i + 1])
  {
    var body := RenderBody(bs[..i]);
    var sep := if i > 0 then OmissionMarker else "";
    assert bs[..i + 1][..i] == bs[..i];
    assert RenderBody(bs[..i + 1]) == body + sep + BlockText(bs[i]);
    AppendAssoc(ContextHeader, body, sep);
    AppendAssoc(ContextHeader, body + sep, BlockText(bs[i]));
  }

  class ContextExtractor {
    const contextLines: int

    /** NewContextExtractor: a non-positive width becomes the default 5. */
    constructor (contextLines: int)
      ensures this.contextLines == if contextLines <= 0 then 5 else contextLines
      ensures this.contextLines > 0
    {
      this.contextLines := if contextLines <= 0 then 5 else contextLines;
    }

    /** createContextBlocks: one block per changed line number, in the order
        the map iteration delivers them. */
    method CreateContextBlocks(lines: seq<string>, order: seq<int>) returns (blocks: seq<Block>)
      ensures blocks == InitialBlocks(lines, order, contextLines)
    {
      blocks := [];
      var k := 0;
      while k < |order|
        invariant 0 <= k <= |order|
        invariant blocks == InitialBlocks(lines, order[..k], contextLines)
      {
        var lineNum := order[k];
        var startLine := Max(0, lineNum - contextLines - 1);
        var endLine := Min(|lines| - 1, lineNum + contextLines - 1);
        var blockContent := "";
        var i := startLine;
        while i <= endLine
          invariant startLine <= i <= Max(startLine, endLine + 1)
          invariant blockContent == WindowContent(lines, startLine, i - 1)
        {
          if i < |lines| {
            blockContent := blockContent + lines[i] + "\n";
          }
          i := i + 1;
        }
        assert blockContent == WindowContent(lines, startLine, endLine);
        blocks := blocks + [Block(startLine + 1, endLine + 1, blockContent)];
        assert order[..k + 1] == order[..k] + [order[k]];
        k := k + 1;
      }
      assert order[..|order|] == order;
    }

    /** mergeBlocks: lists of at most one block are returned as they are;
        longer ones are sorted in place and then merged left to right. */
    method MergeBlocks(blocks: array<Block>) returns (merged: seq<Block>)
      modifies blocks
      ensures blocks[..] == ExchangeSort(old(blocks[..]))
      ensures multiset(blocks[..]) == multiset(old(blocks[..]))
      ensures SortedByStart(blocks[..])
      ensures blocks.Length <= 1 ==> blocks[..] == old(blocks[..])
      ensures merged == Merge(blocks[..])
    {
      if blocks.Length <= 1 {
        ExchangeSortSorts(blocks[..]);
        return blocks[..];
      }
      SortBlocks(blocks);
      merged := [];
      var current := blocks[0];
      var i := 1;
      while i < blocks.Length
        invariant 1 <= i <= blocks.Length
        invariant MergeUpTo(blocks[..], i) == MergeState(merged, current)
      {
        if blocks[i].startLine <= current.endLine + 1 {
          if blocks[i].endLine > current.endLine {
            current := current.(endLine := blocks[i].endLine);
          }
        } else {
          merged := merged + [current];
          current := blocks[i];
        }
        i := i + 1;
      }
      merged := merged + [current];
    }

    /** ExtractContext: with no added lines the file is returned as it is;
        otherwise the merged windows around the changed lines, serialised.
        The Go error result is always nil and is left out. */
    method ExtractContext(dm: DiffMapper, fileContent: string, diffContent: string, order: seq<int>)
      returns (out: string)
      requires DiffIndexable(diffContent)
      requires Enumerates(order, LineNumbers(ChangedLines(diffContent)))
      modifies dm
      ensures dm.latestChanges == ChangedLines(diffContent)
      ensures ChangedLines(diffContent) == [] ==> out == fileContent
      ensures ChangedLines(diffContent) != [] ==>
        out == Render(Merge(ExchangeSort(InitialBlocks(Lines(fileContent), order, contextLines))))
      ensures ChangedLines(diffContent) != [] && |order| == 1 ==> out == Render([InitialBlock(Lines(fileContent), order[0], contextLines)])
    {
      var changedLines := dm.GetMap(diffContent);
      if |changedLines| == 0 {
        return fileContent;
      }

      var changedLineNumbers := CollectLineNumbers(changedLines);
      var lines := Lines(fileContent);
      var blocks := CreateContextBlocks(lines, order);
      var arr := new Block[|blocks|](i requires 0 <= i < |blocks| => blocks[i]);
      assert arr[..] == blocks;
      var mergedBlocks := MergeBlocks(arr);
      out := RenderBlocks(mergedBlocks);
    }
  }
}

=== FILE: diffmapper.dfy ===
/** Parsing of unified-diff hunks into the added lines of the new file, and
    the "closest changed line at or before n" query over the last parse. */
module DiffMapper {
  import opened Text

  /** An added line: its number in the new file and its text without '+'. */
  datatype ChangedLine = ChangedLine(lineNum: int, content: string)

  predicate IsHunkHeader(line: string) {
    HasPrefix(line, "@@")
  }

  /** A header the Go code can index: `parts[2]` exists after splitting at
      single spaces. Anything shorter makes the original panic. */
  predicate HeaderIndexable(line: string) {
    |Split(line, ' ')| >= 3
  }

  predicate LinesIndexable(lines: seq<string>) {
    forall k | 0 <= k < |lines| :: IsHunkHeader(lines[k]) ==> HeaderIndexable(lines[k])
  }

  predicate DiffIndexable(diff: string) {
    LinesIndexable(Lines(diff))
  }

  /** The new-file start `c` of `@@ -a,b +c,d @@`: third space-separated
      field, one '+' removed, cut at ','; Atoi's value (0 when not a number). */
  function HunkStart(line: string): int
    requires HeaderIndexable(line)
  {
    var newHunk := Split(line, ' ')[2];
    Atoi(Split(TrimPrefix(newHunk, "+"), ',')[0]).value
  }

  /** The variables of the scanning loop in GetMap. */
  datatype ScanState = ScanState(hunkStarted: bool, newLineNum: int, changes: seq<ChangedLine>)

  const InitialScan := ScanState(false, 0, [])

  /** One iteration of the scanning loop. */
  function Step(st: ScanState, line: string): ScanState
    requires IsHunkHeader(line) ==> HeaderIndexable(line)
  {
    if IsHunkHeader(line) then ScanState(true, HunkStart(line), st.changes)
    else if !st.hunkStarted then st
    else if HasPrefix(line, "+") then
      ScanState(true, st.newLineNum + 1, st.changes + [ChangedLine(st.newLineNum, line[1..])])
    else if HasPrefix(line, "-") then st
    else if HasPrefix(line, " ") then ScanState(true, st.newLineNum + 1, st.changes)
    else st
  }

  /** The loop state after the first `n` lines. */
  function ScanPrefix(lines: seq<string>, n: nat): ScanState
    requires n <= |lines| && LinesIndexable(lines)
  {
    if n == 0 then InitialScan else Step(ScanPrefix(lines, n - 1), lines[n - 1])
  }

  /** What GetMap returns for `diff`. */
  function ChangedLines(diff: string): seq<ChangedLine>
    requires DiffIndexable(diff)
  {
    var lines := Lines(diff);
    ScanPrefix(lines, |lines|).changes
  }

  /** The value GetClosestPrOffset finds: scanning from the end, the first
      recorded line number at most `n`, or 1 when there is none. */
  function Closest(changes: seq<ChangedLine>, n: int): int {
    if changes == [] then 1
    else if changes[|changes| - 1].lineNum <= n then changes[|changes| - 1].lineNum
    else Closest(changes[..|changes| - 1], n)
  }

  datatype MapError = NotInitialized

  /** Holds the package-level `latestChanges`; Go's nil slice is the empty
      sequence here, since GetMap stores nil exactly when nothing was added. */
  class DiffMapper {
    var latestChanges: seq<ChangedLine>

    constructor ()
      ensures latestChanges == []
    {
      latestChanges := [];
    }

    /** GetMap: scans the diff line by line and remembers the result. */
    method GetMap(diff: string) returns (changes: seq<ChangedLine>)
      requires DiffIndexable(diff)
      modifies this
      ensures changes == ChangedLines(diff)
      ensures latestChanges == changes
    {
      var lines := Lines(diff);
      var hunkStarted := false;
      var newLineNum := 0;
      changes := [];
      var i := 0;
      while i < |lines|
        invariant 0 <= i <= |lines|
        invariant ScanPrefix(lines, i) == ScanState(hunkStarted, newLineNum, changes)
      {
        var line := lines[i];
        assert IsHunkHeader(line) ==> HeaderIndexable(line);
        ghost var next := Step(ScanState(hunkStarted, newLineNum, changes), line);
        assert ScanPrefix(lines, i + 1) == next;
        if HasPrefix(line, "@@") {
          hunkStarted := true;
          var parts := Split(line, ' ');
          var newHunk := parts[2];
          var hunkStart := Split(TrimPrefix(newHunk, "+"), ',');
          newLineNum := Atoi(hunkStart[0]).value;
        } else if hunkStarted {
          if HasPrefix(line, "+") {
            changes := changes + [ChangedLine(newLineNum, line[1..])];
            newLineNum := newLineNum + 1;
          } else if HasPrefix(line, "-") {
          } else if HasPrefix(line, " ") {
            newLineNum := newLineNum + 1;
          }
        }
        assert ScanState(hunkStarted, newLineNum, changes) == next;
        i := i + 1;
      }
      latestChanges := changes;
    }

    /** GetClosestPrOffset: fails before any added line was recorded,
        otherwise searches backwards for a line number at most `prLineNr`. */
    method GetClosestPrOffset(prLineNr: int) returns (r: Result<int, MapError>)
      ensures latestChanges == [] ==> r == Err(NotInitialized)
      ensures latestChanges != [] ==> r == Ok(Closest(latestChanges, prLineNr))
    {
      if latestChanges == [] {
        return Err(NotInitialized);
      }
      var i := |latestChanges| - 1;
      assert latestChanges[..i + 1] == latestChanges;
      while i >= 0
        invariant -1 <= i < |latestChanges|
        invariant Closest(latestChanges, prLineNr) == Closest(latestChanges[..i + 1], prLineNr)
      {
        if latestChanges[i].lineNum <= prLineNr {
          assert latestChanges[..i + 1][..i] == latestChanges[..i];
          return Ok(latestChanges[i].lineNum);
        }
        assert latestChanges[..i + 1][..i] == latestChanges[..i];
        i := i - 1;
      }
      return Ok(1);
    }
  }

  // -----------------------------------------------------------------------
  // Properties of the scan

  predicate HeaderBefore(lines: seq<string>, n: nat)
    requires n <= |lines|
  {
    exists j | 0 <= j < n :: IsHunkHeader(lines[j])
  }

  /** Lines before the first hunk header leave the scan in its initial
      state: nothing is emitted and the counter is untouched. */
  lemma {:induction false} NothingBeforeFirstHeader(lines: seq<string>, n: nat)
    requires n <= |lines| && LinesIndexable(lines)
    requires !HeaderBefore(lines, n)
    ensures ScanPrefix(lines, n) == InitialScan
  {
    if n > 0 {
      NothingBeforeFirstHeader(lines, n - 1);
    }
  }

  /** The contents of the added lines seen so far, defined independently of
      the counter: every '+' line after some header, '+' removed. */
  function AddedContents(lines: seq<string>, n: nat): seq<string>
    requires n <= |lines|
  {
    if n == 0 then []
    else
      var l := lines[n - 1];
      AddedContents(lines, n - 1)
        + (if HeaderBefore(lines, n - 1) && !IsHunkHeader(l) && HasPrefix(l, "+") then [l[1..]] else [])
  }

  function Contents(changes: seq<ChangedLine>): (r: seq<string>)
    ensures |r| == |changes|
  {
    seq(|changes|, k requires 0 <= k < |changes| => changes[k].content)
  }

  /** Each '+' line after the first header yields exactly one record, in
      order, carrying the line's text without the '+'. In particular the
      number of records is the number of such lines. */
  lemma {:induction false} ScanEmitsAddedLines(lines: seq<string>, n: nat)
    requires n <= |lines| && LinesIndexable(lines)
    ensures ScanPrefix(lines, n).hunkStarted == HeaderBefore(lines, n)
    ensures Contents(ScanPrefix(lines, n).changes) == AddedContents(lines, n)
  {
    if n > 0 {
      ScanEmitsAddedLines(lines, n - 1);
      var st := ScanPrefix(lines, n - 1);
      var l := lines[n - 1];
      assert HeaderBefore(lines, n) == (HeaderBefore(lines, n - 1) || IsHunkHeader(l)) by {
        if IsHunkHeader(l) {
          assert IsHunkHeader(lines[n - 1]);
        }
        if HeaderBefore(lines, n) && !IsHunkHeader(l) {
          var j :| 0 <= j < n && IsHunkHeader(lines[j]);
          assert j < n - 1;
        }
      }
      if !IsHunkHeader(l) && st.hunkStarted && HasPrefix(l, "+") {
        var c := st.changes + [ChangedLine(st.newLineNum, l[1..])];
        assert Contents(c) == Contents(st.changes) + [l[1..]];
      }
    }
  }

  /** Inside one hunk (no header among lines a..b-1) the records emitted are
      kept after the earlier ones, their line numbers strictly increase, and
      they lie between the counter at a and the counter at b. */
  lemma {:induction false} WithinHunkIncreasing(lines: seq<string>, a: nat, b: nat)
    requires a <= b <= |lines| && LinesIndexable(lines)
    requires forall k | a <= k < b :: !IsHunkHeader(lines[k])
    ensures var s0, s1 := ScanPrefix(lines, a), ScanPrefix(lines, b);
      && |s0.changes| <= |s1.changes|
      && s1.changes[..|s0.changes|] == s0.changes
      && s0.newLineNum <= s1.newLineNum
      && (forall i, j | |s0.changes| <= i < j < |s1.changes| :: s1.changes[i].lineNum < s1.changes[j].lineNum)
      && (forall i | |s0.changes| <= i < |s1.changes| :: s0.newLineNum <= s1.changes[i].lineNum < s1.newLineNum)
  {
    if a < b {
      WithinHunkIncreasing(lines, a, b - 1);
      var s0, sm := ScanPrefix(lines, a), ScanPrefix(lines, b - 1);
      var s1 := ScanPrefix(lines, b);
      assert s1 == Step(sm, lines[b - 1]);
      if s1.changes != sm.changes {
        assert s1.changes == sm.changes + [ChangedLine(sm.newLineNum, lines[b - 1][1..])];
        assert s1.changes[..|sm.changes|] == sm.changes;
        assert s1.changes[..|s0.changes|] == sm.changes[..|s0.changes|];
      }
    }
  }

  /** "x,y" with both numbers in decimal. */
  function NumberPair(x: nat, y: nat): string {
    NatToString(x) + "," + NatToString(y)
  }

  /** The header `@@ -a,b +c,d @@` as git prints it. */
  function StandardHeader(a: nat, b: nat, c: nat, d: nat): string {
    "@@" + [' '] + (("-" + NumberPair(a, b)) + [' '] + (("+" + NumberPair(c, d)) + [' '] + "@@"))
  }

  lemma NumberHasNo(n: nat, ch: char)
    requires !IsDigit(ch)
    ensures ch !in NatToString(n)
  {
    NatToStringDigits(n);
    var s := NatToString(n);
    assert forall k | 0 <= k < |s| :: s[k] != ch;
  }

  lemma SignedPairHasNoSpace(sign: char, x: nat, y: nat)
    requires sign != ' '
    ensures ' ' !in [sign] + NumberPair(x, y)
  {
    NumberHasNo(x, ' ');
    NumberHasNo(y, ' ');
    var s := [sign] + NumberPair(x, y);
    assert s == [sign] + NatToString(x) + [','] + NatToString(y);
  }

  lemma SplitStandardHeader(a: nat, b: nat, c: nat, d: nat)
    ensures var p := Split(StandardHeader(a, b, c, d), ' ');
      && |p| == 4 && p[0] == "@@" && p[1] == "-" + NumberPair(a, b)
      && p[2] == "+" + NumberPair(c, d) && p[3] == "@@"
  {
    SignedPairHasNoSpace('-', a, b);
    SignedPairHasNoSpace('+', c, d);
    assert ' ' !in "@@";
    SplitFour("@@", "-" + NumberPair(a, b), "+" + NumberPair(c, d), "@@", ' ');
  }

  /** A standard header `@@ -a,b +c,d @@` sets the counter to c. */
  lemma StandardHeaderStart(a: nat, b: nat, c: nat, d: nat)
    requires c <= MaxInt64
    ensures var h := StandardHeader(a, b, c, d);
      IsHunkHeader(h) && HeaderIndexable(h) && HunkStart(h) == c
  {
    var h := StandardHeader(a, b, c, d);
    SplitStandardHeader(a, b, c, d);
    assert h[..2] == "@@";
    var cs := NatToString(c);
    TrimPrefixPrepended("+", NumberPair(c, d));
    NumberHasNo(c, ',');
    assert NumberPair(c, d) == cs + [','] + NatToString(d);
    SplitAppend(cs, ',', NatToString(d));
    AtoiOfIntToString(c);
  }

  // -----------------------------------------------------------------------
  // Properties of the closest-offset query

  /** Closest's result is the line number of the last-listed record at most
      n, and no later record qualifies; or 1 when no record qualifies. */
  lemma {:induction false} ClosestIsLastAtMost(changes: seq<ChangedLine>, n: int)
    ensures var r := Closest(changes, n);
      || (exists k | 0 <= k < |changes| :: changes[k].lineNum <= n && r == changes[k].lineNum
            && forall j | k < j < |changes| :: changes[j].lineNum > n)
      || (r == 1 && forall j | 0 <= j < |changes| :: changes[j].lineNum > n)
  {
    if changes != [] {
      var last := |changes| - 1;
      if changes[last].lineNum > n {
        var init := changes[..last];
        ClosestIsLastAtMost(init, n);
        assert forall j | 0 <= j < last :: init[j] == changes[j];
      }
    }
  }

  predicate AllPositive(changes: seq<ChangedLine>) {
    forall k | 0 <= k < |changes| :: changes[k].lineNum >= 1
  }

  predicate Ascending(changes: seq<ChangedLine>) {
    forall i, j | 0 <= i < j < |changes| :: changes[i].lineNum <= changes[j].lineNum
  }

  lemma {:induction false} ClosestBound(changes: seq<ChangedLine>, n: int)
    requires AllPositive(changes)
    ensures Closest(changes, n) <= n || Closest(changes, n) == 1
  {
    if changes != [] && changes[|changes| - 1].lineNum > n {
      ClosestBound(changes[..|changes| - 1], n);
    }
  }

  /** With all line numbers at least 1, the query is monotone in n. */
  lemma {:induction false} ClosestMonotone(changes: seq<ChangedLine>, n1: int, n2: int)
    requires AllPositive(changes) && n1 <= n2
    ensures Closest(changes, n1) <= Closest(changes, n2)
  {
    if changes != [] {
      var init := changes[..|changes| - 1];
      var x := changes[|changes| - 1].lineNum;
      if x > n2 {
        ClosestMonotone(init, n1, n2);
      } else if x > n1 {
        ClosestBound(init, n1);
      }
    }
  }

  /** With ascending line numbers the query returns the greatest recorded
      number at most n (or 1 when there is none). */
  lemma ClosestIsGreatest(changes: seq<ChangedLine>, n: int)
    requires Ascending(changes)
    ensures var r := Closest(changes, n);
      || (exists k | 0 <= k < |changes| :: changes[k].lineNum == r && r <= n
            && forall j | 0 <= j < |changes| && changes[j].lineNum <= n :: changes[j].lineNum <= r)
      || (r == 1 && forall j | 0 <= j < |changes| :: changes[j].lineNum > n)
  {
    ClosestIsLastAtMost(changes, n);
    var r := Closest(changes, n);
    if exists k | 0 <= k < |changes| :: changes[k].lineNum <= n && r == changes[k].lineNum
            && forall j | k < j < |changes| :: changes[j].lineNum > n {
      var k :| 0 <= k < |changes| && changes[k].lineNum <= n && r == changes[k].lineNum
            && forall j | k < j < |changes| :: changes[j].lineNum > n;
      assert forall j | 0 <= j < |changes| && changes[j].lineNum <= n :: changes[j].lineNum <= r;
    }
  }
}

=== FILE: dotenv.dfy ===
/** The `.env` loader and the environment-backed settings: which files are
    reviewed and how many context lines surround a change. The process
    environment is a map from variable names to values. */
module DotEnv {
  import opened Text

  datatype Assignment = Assignment(key: string, value: string)

  /** One line of `.env`: a line starting with `#` (before any trimming) or
      holding only whitespace is skipped, so is one without `=`; otherwise
      the line is cut at its first `=` and both sides are trimmed. */
  function ParseLine(line: string): (r: Option<Assignment>)
    ensures r.None? <==> HasPrefix(line, "#") || IsBlank(line) || '=' !in line
    ensures r.Some? ==>
      && line == Cut(line, '=').before + ['='] + Cut(line, '=').after
      && r.value.key == TrimSpace(Cut(line, '=').before)
      && r.value.value == TrimSpace(Cut(line, '=').after)
  {
    if HasPrefix(line, "#") || IsBlank(line) then None
    else
      var parts := Cut(line, '=');
      if !parts.found then None
      else Some(Assignment(TrimSpace(parts.before), TrimSpace(parts.after)))
  }

  /** os.Setenv refuses an empty name and a NUL in the name or the value;
      the loader ignores the refusal. */
  predicate SetenvAccepts(a: Assignment) {
    a.key != "" && '\0' !in a.key && '\0' !in a.value
  }

  function ApplyLine(env: map<string, string>, line: string): map<string, string> {
    match ParseLine(line)
    case None => env
    case Some(a) => if SetenvAccepts(a) then env[a.key := a.value] else env
  }

  /** The environment after applying the lines in file order. */
  function EnvAfter(env: map<string, string>, ls: seq<string>): map<string, string> {
    if ls == [] then env else ApplyLine(EnvAfter(env, ls[..|ls| - 1]), ls[|ls| - 1])
  }

  /** loadEnv: scans `.env` line by line and sets each assignment. */
  method LoadEnv(env0: map<string, string>, content: string) returns (env: map<string, string>)
    ensures env == EnvAfter(env0, Lines(content))
  {
    var ls := Lines(content);
    env := env0;
    var i := 0;
    while i < |ls|
      invariant 0 <= i <= |ls|
      invariant env == EnvAfter(env0, ls[..i])
    {
      assert ls[..i + 1][..i] == ls[..i];
      ghost var next := ApplyLine(env, ls[i]);
      assert EnvAfter(env0, ls[..i + 1]) == next;
      var line := ls[i];
      if HasPrefix(line, "#") || TrimSpace(line) == "" {
        assert ParseLine(line) == None;
        i := i + 1;
        continue;
      }
      var parts := Cut(line, '=');
      if !parts.found {
        assert ParseLine(line) == None;
        i := i + 1;
        continue;
      }
      var key := TrimSpace(parts.before);
      var value := TrimSpace(parts.after);
      assert ParseLine(line) == Some(Assignment(key, value));
      if SetenvAccepts(Assignment(key, value)) {
        env := env[key := value];
      }
      i := i + 1;
    }
    assert ls[..i] == ls;
  }

  /** `line` sets `key` (the parse succeeds and os.Setenv accepts it). */
  predicate Sets(line: string, key: string) {
    ParseLine(line).Some? && SetenvAccepts(ParseLine(line).value) && ParseLine(line).value.key == key
  }

  /** Assignments apply in file order: a key's value is the one from the
      last line that sets it. */
  lemma {:induction false} LastAssignmentWins(env0: map<string, string>, ls: seq<string>, i: nat)
    requires i < |ls| && ParseLine(ls[i]).Some? && SetenvAccepts(ParseLine(ls[i]).value)
    requires forall j | i < j < |ls| :: !Sets(ls[j], ParseLine(ls[i]).value.key)
    ensures var a := ParseLine(ls[i]).value;
      a.key in EnvAfter(env0, ls) && EnvAfter(env0, ls)[a.key] == a.value
    decreases |ls|
  {
    var init := ls[..|ls| - 1];
    if i < |init| {
      assert forall j | i < j < |init| :: init[j] == ls[j];
      LastAssignmentWins(env0, init, i);
    }
  }

  /** A key no line sets keeps its value from before loading (or stays
      unset). */
  lemma {:induction false} UnsetKeyUnchanged(env0: map<string, string>, ls: seq<string>, key: string)
    requires forall j | 0 <= j < |ls| :: !Sets(ls[j], key)
    ensures key in EnvAfter(env0, ls) <==> key in env0
    ensures key in env0 ==> EnvAfter(env0, ls)[key] == env0[key]
    decreases |ls|
  {
    if ls != [] {
      var init := ls[..|ls| - 1];
      assert forall j | 0 <= j < |init| :: init[j] == ls[j];
      UnsetKeyUnchanged(env0, init, key);
    }
  }

  /** Only the first `=` separates; the value keeps any later `=`. */
  lemma ValueMayContainEquals(key: string, value: string)
    requires '=' !in key && !HasPrefix(key, "#")
    ensures ParseLine(key + "=" + value) == Some(Assignment(TrimSpace(key), TrimSpace(value)))
  {
    var line := key + "=" + value;
    assert line == key + ['='] + value;
    IndexOfAppend(key, '=', value);
    assert line[|key|] == '=';
    assert line[..|key|] == key;
    assert line[|key| + 1..] == value;
    BlankIffAllSpace(line);
  }

  lemma {:induction false} TrimRightSpaceIsPrefix(s: string)
    ensures HasPrefix(s, TrimRightSpace(s))
    decreases |s|
  {
    if |s| > 0 && IsSpace(s[|s| - 1]) {
      TrimRightSpaceIsPrefix(s[..|s| - 1]);
    }
  }

  /** The `#` test comes before trimming: an indented `#` line that has
      `=` is an assignment whose key starts with `#`. */
  lemma IndentedHashIsAssignment(key: string, value: string)
    requires '=' !in key
    ensures var r := ParseLine(" #" + key + "=" + value);
      r.Some? && HasPrefix(r.value.key, "#")
  {
    var line := " #" + key + "=" + value;
    assert line == " #" + key + ['='] + value;
    assert '=' !in " #" + key;
    IndexOfAppend(" #" + key, '=', value);
    assert line[..|key| + 2] == " #" + key;
    assert !HasPrefix(line, "#") by {
      assert line[0] == ' ';
    }
    BlankIffAllSpace(line);
    var before := " #" + key;
    assert TrimLeftSpace(before) == TrimLeftSpace(before[1..]);
    assert before[1..] == "#" + key;
    assert TrimLeftSpace("#" + key) == "#" + key;
    TrimRightSpaceIsPrefix("#" + key);
    TrimRightSpaceNonBlank("#" + key);
    assert TrimSpace(before)[0] == '#';
  }

  // -----------------------------------------------------------------------
  // Settings read from the environment

  /** ShouldProcessFile: every file when no extension is configured,
      otherwise the files whose name ends with `.` and one of them. */
  method ShouldProcessFile(extensions: seq<string>, fileName: string) returns (b: bool)
    ensures b <==> |extensions| == 0 || exists k | 0 <= k < |extensions| :: HasSuffix(fileName, "." + extensions[k])
  {
    if |extensions| == 0 {
      return true;
    }
    for k := 0 to |extensions|
      invariant forall j | 0 <= j < k :: !HasSuffix(fileName, "." + extensions[j])
    {
      if HasSuffix(fileName, "." + extensions[k]) {
        return true;
      }
    }
    return false;
  }

  const DefaultContextLines := 5

  /** ContextLines: the CONTEXT_LINES variable as an integer; 5 when it is
      unset, empty or not an integer. */
  function ContextLines(v: Option<string>): (n: int)
    ensures IsInt64(n)
    ensures v.Some? && Atoi(v.value).ok ==> n == Atoi(v.value).value
    ensures !(v.Some? && Atoi(v.value).ok) ==> n == DefaultContextLines
    ensures v == None || v == Some("") ==> n == DefaultContextLines
  {
    match v
    case None => DefaultContextLines
    case Some(s) =>
      if s == "" then DefaultContextLines
      else
        var r := Atoi(s);
        if !r.ok then DefaultContextLines else r.value
  }

  /** Any 64-bit integer written in decimal is taken as is, including zero
      and negative values. */
  lemma ContextLinesOfInteger(n: int)
    requires IsInt64(n)
    ensures ContextLines(Some(IntToString(n))) == n
  {
    AtoiOfIntToString(n);
  }
}

=== FILE: gitpr.dfy ===
/** Recognising GitHub pull-request URLs and taking them apart into owner,
    repository and pull-request number. */
module GitPr {
  import opened Text

  const HttpsHost := "https://github.com/"
  const HttpHost := "http://github.com/"

  /** What follows `http(s)://github.com/`, if the URL starts that way. */
  function AfterHost(u: string): (r: Option<string>)
    ensures r.Some? ==> (u == HttpsHost + r.value || u == HttpHost + r.value)
  {
    if HasPrefix(u, HttpsHost) then Some(u[|HttpsHost|..])
    else if HasPrefix(u, HttpHost) then Some(u[|HttpHost|..])
    else None
  }

  /** `[^/]+` */
  predicate IsSegment(x: string) {
    |x| > 0 && '/' !in x
  }

  /** `\d+` */
  predicate IsNumber(x: string) {
    |x| > 0 && AllDigits(x)
  }

  /** IsValidGitHubPRURL: the whole string matches
      `^https?://github\.com/[^/]+/[^/]+/pull/\d+$`. */
  predicate IsValidGitHubPRURL(u: string) {
    match AfterHost(u)
    case None => false
    case Some(rest) =>
      var parts := Split(rest, '/');
      |parts| == 4 && IsSegment(parts[0]) && IsSegment(parts[1]) && parts[2] == Pull && IsNumber(parts[3])
  }

  const Pull := "pull"

  /** `owner/repo/pull/number` */
  function PRPath(owner: string, repo: string, number: string): string {
    owner + ['/'] + (repo + ['/'] + (Pull + ['/'] + number))
  }

  /** The URL the pattern describes, from its pieces. */
  function PRURL(https: bool, owner: string, repo: string, number: string): string {
    (if https then HttpsHost else HttpHost) + PRPath(owner, repo, number)
  }

  // -----------------------------------------------------------------------
  // The validator accepts exactly the URLs of that shape

  function JoinSlash(parts: seq<string>): string
    requires |parts| >= 1
  {
    if |parts| == 1 then parts[0] else parts[0] + ['/'] + JoinSlash(parts[1..])
  }

  lemma {:induction false} JoinSplit(s: string)
    ensures JoinSlash(Split(s, '/')) == s
    decreases |s|
  {
    var i := IndexOf(s, '/');
    if i < |s| {
      var parts := Split(s, '/');
      var rest := Split(s[i + 1..], '/');
      assert parts == [s[..i]] + rest;
      assert parts[0] == s[..i] && parts[1..] == rest;
      JoinSplit(s[i + 1..]);
      assert JoinSlash(parts) == s[..i] + ['/'] + s[i + 1..];
      assert s == s[..i] + ['/'] + s[i + 1..];
    }
  }

  lemma SplitPath(owner: string, repo: string, number: string)
    requires '/' !in owner && '/' !in repo && '/' !in number
    ensures var p := Split(PRPath(owner, repo, number), '/');
      |p| == 4 && p[0] == owner && p[1] == repo && p[2] == Pull && p[3] == number
  {
    assert '/' !in Pull by {
      assert Pull == ['p', 'u', 'l', 'l'];
    }
    SplitFour(owner, repo, Pull, number, '/');
  }

  lemma DigitsHaveNoSlash(number: string)
    requires AllDigits(number)
    ensures '/' !in number
  {
    forall k | 0 <= k < |number| ensures number[k] != '/' {
      assert IsDigit(number[k]);
    }
  }

  lemma AfterHostOf(https: bool, rest: string)
    ensures AfterHost((if https then HttpsHost else HttpHost) + rest) == Some(rest)
  {
    var host := if https then HttpsHost else HttpHost;
    TrimPrefixPrepended(host, rest);
    if !https {
      assert !HasPrefix(host + rest, HttpsHost) by {
        assert (host + rest)[4] == ':';
      }
    }
  }

  /** Every URL of the described shape is accepted. */
  lemma PRURLIsValid(https: bool, owner: string, repo: string, number: string)
    requires IsSegment(owner) && IsSegment(repo) && IsNumber(number)
    ensures IsValidGitHubPRURL(PRURL(https, owner, repo, number))
  {
    DigitsHaveNoSlash(number);
    AfterHostOf(https, PRPath(owner, repo, number));
    SplitPath(owner, repo, number);
  }

  /** Every accepted URL has the described shape. */
  lemma ValidIsPRURL(u: string)
    requires IsValidGitHubPRURL(u)
    ensures var parts := Split(AfterHost(u).value, '/');
      && IsSegment(parts[0]) && IsSegment(parts[1]) && IsNumber(parts[3])
      && AfterHost(u).value == PRPath(parts[0], parts[1], parts[3])
      && u == PRURL(HasPrefix(u, HttpsHost), parts[0], parts[1], parts[3])
  {
    var rest := AfterHost(u).value;
    var parts := Split(rest, '/');
    JoinSplit(rest);
    JoinFour(parts);
    if !HasPrefix(u, HttpsHost) {
      assert u == HttpHost + rest;
    }
  }

  lemma JoinFour(parts: seq<string>)
    requires |parts| == 4
    ensures JoinSlash(parts) == parts[0] + ['/'] + (parts[1] + ['/'] + (parts[2] + ['/'] + parts[3]))
  {
    var p1, p2, p3 := parts[1..], parts[2..], parts[3..];
    assert p1[1..] == p2 && p2[1..] == p3 && p3 == [parts[3]];
    assert JoinSlash(p2) == parts[2] + ['/'] + parts[3];
    assert JoinSlash(p1) == parts[1] + ['/'] + (parts[2] + ['/'] + parts[3]);
  }

  // -----------------------------------------------------------------------
  // GetPRInfo

  datatype PRInfo = PRInfo(owner: string, repo: string, number: int)

  datatype PRError = InvalidURL | NotAPullRequestPath | InvalidNumber

  /** Characters that url.Parse passes through unchanged into the path:
      no query, fragment or escape marker, no control character. */
  predicate PlainChar(c: char) {
    c != '?' && c != '#' && c != '%' && 0x20 <= c as int && c as int != 0x7f
  }

  predicate PlainURL(u: string) {
    forall c | c in u :: PlainChar(c)
  }

  function TrimLeftSlashes(s: string): string
    decreases |s|
  {
    if |s| > 0 && s[0] == '/' then TrimLeftSlashes(s[1..]) else s
  }

  function TrimRightSlashes(s: string): string
    decreases |s|
  {
    if |s| > 0 && s[|s| - 1] == '/' then TrimRightSlashes(s[..|s| - 1]) else s
  }

  /** strings.Trim(s, "/") */
  function TrimSlashes(s: string): string {
    TrimRightSlashes(TrimLeftSlashes(s))
  }

  /** The path url.Parse finds in an accepted, plain URL: the slash after
      the host and everything after it. */
  function URLPath(u: string): string
    requires AfterHost(u).Some?
  {
    "/" + AfterHost(u).value
  }

  /** GetPRInfo: validates the URL, splits the trimmed path and parses the
      number. */
  function GetPRInfo(u: string): (r: Result<PRInfo, PRError>)
    requires IsValidGitHubPRURL(u) ==> PlainURL(u)
    ensures !IsValidGitHubPRURL(u) ==> r == Err(InvalidURL)
    ensures r.Ok? ==> r.value.number >= 0
  {
    if !IsValidGitHubPRURL(u) then Err(InvalidURL)
    else
      var parts := Split(TrimSlashes(URLPath(u)), '/');
      if |parts| < 4 || parts[2] != Pull then Err(NotAPullRequestPath)
      else
        var n := Atoi(parts[3]);
        if !n.ok then Err(InvalidNumber)
        else
          ValidIsPRURL(u);
          PathOfValid(u);
          AtoiOfDigits(parts[3]);
          Ok(PRInfo(parts[0], parts[1], n.value))
  }

  lemma TrimAroundRest(rest: string)
    requires |rest| > 0 && rest[0] != '/' && rest[|rest| - 1] != '/'
    ensures TrimSlashes("/" + rest) == rest
  {
    assert ("/" + rest)[1..] == rest;
    assert TrimLeftSlashes("/" + rest) == TrimLeftSlashes(rest) == rest;
    assert TrimRightSlashes(rest) == rest;
  }

  /** For an accepted URL the trimmed path splits into the same four
      pieces the validator saw. */
  lemma PathOfValid(u: string)
    requires IsValidGitHubPRURL(u)
    ensures Split(TrimSlashes(URLPath(u)), '/') == Split(AfterHost(u).value, '/')
  {
    var rest := AfterHost(u).value;
    var parts := Split(rest, '/');
    ValidIsPRURL(u);
    PRPathEnds(parts[0], parts[1], parts[3]);
    TrimAroundRest(rest);
  }

  /** A path built from a non-empty owner and a number neither starts nor
      ends with a slash. */
  lemma PRPathEnds(owner: string, repo: string, number: string)
    requires IsSegment(owner) && IsNumber(number)
    ensures var p := PRPath(owner, repo, number);
      |p| > 0 && p[0] != '/' && p[|p| - 1] != '/'
  {
    var tail := ['/'] + (repo + ['/'] + (Pull + ['/'] + number));
    assert PRPath(owner, repo, number) == owner + tail;
    assert owner[0] in owner;
    var last := |number| - 1;
    assert IsDigit(number[last]);
    var init := owner + ['/'] + (repo + ['/'] + (Pull + ['/']));
    assert PRPath(owner, repo, number) == init + number;
  }

  /** An accepted URL always gets past the path check: the result is the
      owner, the repository and the number, or an error because the number
      does not fit a 64-bit int. */
  lemma GetPRInfoOfValid(u: string)
    requires IsValidGitHubPRURL(u) && PlainURL(u)
    ensures var parts := Split(AfterHost(u).value, '/');
      && GetPRInfo(u) != Err(NotAPullRequestPath)
      && (DigitsValue(parts[3]) <= MaxInt64 ==> GetPRInfo(u) == Ok(PRInfo(parts[0], parts[1], DigitsValue(parts[3]))))
      && (DigitsValue(parts[3]) > MaxInt64 ==> GetPRInfo(u) == Err(InvalidNumber))
  {
    PathOfValid(u);
    AtoiOfDigits(Split(AfterHost(u).value, '/')[3]);
  }

  lemma PlainConcat(a: string, b: string)
    requires PlainURL(a) && PlainURL(b)
    ensures PlainURL(a + b)
  {
    forall c | c in a + b ensures PlainChar(c) {
      assert c in a || c in b;
    }
  }

  lemma DigitsPlain(number: string)
    requires AllDigits(number)
    ensures PlainURL(number)
  {
    forall c | c in number ensures PlainChar(c) {
      var k :| 0 <= k < |number| && number[k] == c;
      assert IsDigit(number[k]);
    }
  }

  lemma FixedPartsPlain()
    ensures PlainURL(HttpsHost) && PlainURL(HttpHost) && PlainURL(Pull) && PlainURL(['/'])
  {
  }

  lemma PlainPRURL(https: bool, owner: string, repo: string, number: string)
    requires PlainURL(owner) && PlainURL(repo) && AllDigits(number)
    ensures PlainURL(PRURL(https, owner, repo, number))
  {
    DigitsPlain(number);
    FixedPartsPlain();
    var host := if https then HttpsHost else HttpHost;
    var slash: string := ['/'];
    PlainConcat(Pull, slash);
    PlainConcat(Pull + slash, number);
    PlainConcat(repo, slash);
    PlainConcat(repo + slash, Pull + slash + number);
    PlainConcat(owner, slash);
    PlainConcat(owner + slash, repo + slash + (Pull + slash + number));
    PlainConcat(host, PRPath(owner, repo, number));
  }

  /** Round trip: building the URL for owner, repository and a 64-bit
      non-negative number, then taking it apart, gives them back. */
  lemma GetPRInfoRoundTrip(https: bool, owner: string, repo: string, n: int)
    requires IsSegment(owner) && IsSegment(repo) && PlainURL(owner) && PlainURL(repo)
    requires 0 <= n <= MaxInt64
    ensures var u := PRURL(https, owner, repo, IntToString(n));
      PlainURL(u) && GetPRInfo(u) == Ok(PRInfo(owner, repo, n))
  {
    var number := IntToString(n);
    NatToStringDigits(n);
    var u := PRURL(https, owner, repo, number);
    PRURLIsValid(https, owner, repo, number);
    PlainPRURL(https, owner, repo, number);
    DigitsHaveNoSlash(number);
    AfterHostOf(https, PRPath(owner, repo, number));
    SplitPath(owner, repo, number);
    GetPRInfoOfValid(u);
  }

  /** A number too large for a 64-bit int is reported as an error, not
      wrapped or clamped. */
  lemma TooLargeNumberRejected(https: bool, owner: string, repo: string, number: string)
    requires IsSegment(owner) && IsSegment(repo) && PlainURL(owner) && PlainURL(repo)
    requires IsNumber(number) && DigitsValue(number) > MaxInt64
    ensures var u := PRURL(https, owner, repo, number);
      PlainURL(u) && GetPRInfo(u) == Err(InvalidNumber)
  {
    var u := PRURL(https, owner, repo, number);
    PRURLIsValid(https, owner, repo, number);
    PlainPRURL(https, owner, repo, number);
    DigitsHaveNoSlash(number);
    AfterHostOf(https, PRPath(owner, repo, number));
    SplitPath(owner, repo, number);
    GetPRInfoOfValid(u);
  }
}

=== FILE: helpers.dfy ===
/** Removing blank lines from a source file while remembering where each
    kept line came from. */
module Helpers {
  import opened Text

  /** The 1-based original numbers of the non-blank lines, in order. */
  function KeptLines(ls: seq<string>): seq<int> {
    if ls == [] then []
    else KeptLines(ls[..|ls| - 1]) + (if IsBlank(ls[|ls| - 1]) then [] else [|ls|])
  }

  /** The non-blank lines, in order. */
  function Compact(ls: seq<string>): seq<string> {
    if ls == [] then []
    else Compact(ls[..|ls| - 1]) + (if IsBlank(ls[|ls| - 1]) then [] else [ls[|ls| - 1]])
  }

  /** The map from 0-based position to element that a dense Go map[int]int
      built by appending holds. */
  function IndexMap(s: seq<int>): (m: map<int, int>)
    ensures forall i :: i in m <==> 0 <= i < |s|
  {
    map i | 0 <= i < |s| :: s[i]
  }

  lemma IndexMapAppend(s: seq<int>, x: int)
    ensures IndexMap(s + [x]) == IndexMap(s)[|s| := x]
  {
    var l := IndexMap(s + [x]);
    var r := IndexMap(s)[|s| := x];
    assert l.Keys == r.Keys;
    forall i | i in l
      ensures l[i] == r[i]
    {
    }
  }

  /** SourceCodeLineRemap: the file without its blank lines, and for each
      kept line's 0-based new position its 1-based original line number. */
  method SourceCodeLineRemap(content: string) returns (newContent: string, remap: map<int, int>)
    ensures newContent == JoinLines(Compact(Lines(content)))
    ensures remap == IndexMap(KeptLines(Lines(content)))
  {
    var lines := Lines(content);
    newContent := "";
    remap := map[];
    var originalLine := 0;
    var remappedLine := 0;
    while originalLine < |lines|
      invariant 0 <= originalLine <= |lines|
      invariant remappedLine == |KeptLines(lines[..originalLine])|
      invariant remap == IndexMap(KeptLines(lines[..originalLine]))
      invariant newContent == JoinLines(Compact(lines[..originalLine]))
    {
      var line := lines[originalLine];
      ghost var prev := lines[..originalLine];
      assert lines[..originalLine + 1] == prev + [line];
      assert (prev + [line])[..|prev|] == prev;
      originalLine := originalLine + 1;
      if IsBlank(line) {
        assert Compact(lines[..originalLine]) == Compact(prev);
        continue;
      }
      assert Compact(lines[..originalLine]) == Compact(prev) + [line];
      IndexMapAppend(KeptLines(lines[..originalLine - 1]), originalLine);
      JoinLinesAppend(Compact(lines[..originalLine - 1]), line);
      remap := remap[remappedLine := originalLine];
      remappedLine := remappedLine + 1;
      newContent := newContent + line + "\n";
    }
    assert lines[..|lines|] == lines;
  }

  // -----------------------------------------------------------------------
  // Properties

  /** The kept numbers are strictly increasing, lie in 1..|ls|, name
      non-blank lines only, and the i-th kept line is the i-th line of the
      compacted text. */
  lemma {:induction false} KeptLinesSound(ls: seq<string>)
    ensures |KeptLines(ls)| == |Compact(ls)|
    ensures forall i, j | 0 <= i < j < |KeptLines(ls)| :: KeptLines(ls)[i] < KeptLines(ls)[j]
    ensures forall i | 0 <= i < |KeptLines(ls)| ::
      1 <= KeptLines(ls)[i] <= |ls| && !IsBlank(ls[KeptLines(ls)[i] - 1])
      && Compact(ls)[i] == ls[KeptLines(ls)[i] - 1]
  {
    if ls != [] {
      var init := ls[..|ls| - 1];
      KeptLinesSound(init);
      forall i | 0 <= i < |KeptLines(init)|
        ensures ls[KeptLines(init)[i] - 1] == init[KeptLines(init)[i] - 1]
      {
      }
    }
  }

  /** Every non-blank line is kept: no line of code is lost. */
  lemma {:induction false} KeptLinesComplete(ls: seq<string>)
    ensures forall n | 1 <= n <= |ls| && !IsBlank(ls[n - 1]) :: n in KeptLines(ls)
  {
    if ls != [] {
      var init := ls[..|ls| - 1];
      KeptLinesComplete(init);
      forall n | 1 <= n <= |ls| && !IsBlank(ls[n - 1])
        ensures n in KeptLines(ls)
      {
        if n < |ls| {
          assert init[n - 1] == ls[n - 1];
          assert n in KeptLines(init);
        }
      }
    }
  }

  /** A file made of blank lines only compacts to nothing. */
  lemma {:induction false} AllBlankCompactsToNothing(ls: seq<string>)
    requires forall k | 0 <= k < |ls| :: IsBlank(ls[k])
    ensures KeptLines(ls) == [] && Compact(ls) == []
  {
    if ls != [] {
      AllBlankCompactsToNothing(ls[..|ls| - 1]);
    }
  }

  lemma {:induction false} LinesAvoid(s: string, c: char)
    requires c !in s
    ensures forall k | 0 <= k < |Lines(s)| :: c !in Lines(s)[k]
    decreases |s|
  {
    if s != [] {
      var i := IndexOf(s, '\n');
      if i < |s| {
        LinesAvoid(s[i + 1..], c);
        assert forall x | x in s[..i] :: x in s;
        assert forall x | x in s[i + 1..] :: x in s;
        assert Lines(s) == [DropCR(s[..i])] + Lines(s[i + 1..]);
      }
    }
  }

  lemma {:induction false} CompactAvoids(ls: seq<string>, c: char)
    requires forall k | 0 <= k < |ls| :: c !in ls[k]
    ensures forall k | 0 <= k < |Compact(ls)| :: c !in Compact(ls)[k]
  {
    if ls != [] {
      CompactAvoids(ls[..|ls| - 1], c);
    }
  }

  /** Line i of the compacted text is original line remap[i], for a file
      without carriage returns: the remap points each new line back to its
      source. */
  lemma RemapPointsBack(content: string)
    requires '\r' !in content
    ensures var ls := Lines(content);
      var newLines := Lines(JoinLines(Compact(ls)));
      var remap := IndexMap(KeptLines(ls));
      && (forall i :: i in remap <==> 0 <= i < |newLines|)
      && forall i | 0 <= i < |newLines| :: 1 <= remap[i] <= |ls| && newLines[i] == ls[remap[i] - 1]
  {
    var ls := Lines(content);
    LinesAvoid(content, '\r');
    CompactAvoids(ls, '\r');
    CompactAvoids(ls, '\n');
    LinesOfJoinLines(Compact(ls));
    KeptLinesSound(ls);
  }

}

=== FILE: parentsummary.dfy ===
/** Index pages for the directories above a report: each directory's index
    links the nearest index pages below it, and generation climbs from the
    report directory towards the working directory. The file system is a
    tree of directories, each listing its entries in order. */
module ParentSummary {
  import opened Text
  import opened ReportCommon

  const IndexFile := "index.html"
  const IndexSuffix := "/index.html"

  datatype Entry = Entry(name: string, isDir: bool)

  /** A name os.ReadDir can return. */
  predicate NameOk(n: string) {
    n != "" && '/' !in n && n != "." && n != ".."
  }

  /** The directories of the tree and what os.ReadDir lists for each; a
      path that is not a key cannot be read. */
  type Dirs = map<string, seq<Entry>>

  predicate ValidDirs(dirs: Dirs) {
    forall d | d in dirs :: forall k | 0 <= k < |dirs[d]| :: NameOk(dirs[d][k].name)
  }

  /** Every directory entry of a directory is itself readable. */
  predicate Closed(dirs: Dirs) {
    forall d | d in dirs :: forall k | 0 <= k < |dirs[d]| :: dirs[d][k].isDir ==> Join(d, dirs[d][k].name) in dirs
  }

  /** filepath.Join of a clean directory and an entry name. */
  function Join(dir: string, name: string): string {
    if dir == "." then name else dir + "/" + name
  }

  function LastSlash(p: string): (r: Option<nat>)
    ensures r.Some? ==> r.value < |p| && p[r.value] == '/'
    ensures r.None? ==> '/' !in p
    decreases |p|
  {
    if p == [] then None
    else if p[|p| - 1] == '/' then Some(|p| - 1)
    else LastSlash(p[..|p| - 1])
  }

  /** filepath.Dir of a clean path: what precedes the last slash, `.` when
      there is none, `/` when that slash is the first character. */
  function Dir(p: string): (r: string)
    ensures '/' !in p ==> r == "."
    ensures !HasPrefix(p, "/") && '/' in p ==> 0 < |r| < |p| && !HasPrefix(r, "/")
    ensures HasPrefix(p, "/") ==> HasPrefix(r, "/")
    ensures !HasPrefix(p, "/") && '/' in p ==> HasPrefix(p, r + "/")
  {
    match LastSlash(p)
    case None => "."
    case Some(i) =>
      if i == 0 then "/"
      else
        assert p[..i + 1] == p[..i] + "/";
        p[..i]
  }

  // -----------------------------------------------------------------------
  // The walk (getHtmlFiles)

  predicate IsIndexEntry(e: Entry) {
    !e.isDir && e.name == IndexFile
  }

  predicate HasIndexFile(es: seq<Entry>) {
    exists k | 0 <= k < |es| :: IsIndexEntry(es[k])
  }

  /** The link recorded for a directory holding an index: its path relative
      to the report directory, followed by `/index.html`. */
  function RelLink(root: string, dir: string): string {
    TrimPrefix(dir, root + "/") + IndexSuffix
  }

  datatype WalkOutcome = WalkOutcome(links: seq<string>, failed: bool)

  ghost function MaxLen(ks: set<string>): (m: nat)
    ensures forall q | q in ks :: |q| <= m
  {
    if ks == {} then 0
    else
      var q :| q in ks;
      var rest := MaxLen(ks - {q});
      if |q| > rest then |q| else rest
  }

  /** Walk measure: paths grow as the walk descends, and only finitely many
      are readable. */
  ghost function Rank(dirs: Dirs, p: string): nat {
    if p in dirs then 2 * (MaxLen(dirs.Keys) - |p|) + (if p == "." then 2 else 1) else 0
  }

  lemma RankDecreases(dirs: Dirs, p: string, name: string)
    requires p in dirs && NameOk(name)
    ensures Rank(dirs, Join(p, name)) < Rank(dirs, p)
  {
    var c := Join(p, name);
    if c in dirs {
      if p != "." {
        assert |c| == |p| + 1 + |name|;
        assert c != "." by {
          assert |c| >= 2;
        }
      }
    }
  }

  /** What walking `path` records and whether it fails: an unreadable
      directory fails; a directory other than the report directory that
      holds `index.html` is recorded and not descended into; otherwise its
      subdirectories are walked in order and the first failure stops. */
  function WalkOf(dirs: Dirs, root: string, path: string): WalkOutcome
    requires ValidDirs(dirs)
    decreases Rank(dirs, path), 1, 0
  {
    if path !in dirs then WalkOutcome([], true)
    else if path != root && HasIndexFile(dirs[path]) then WalkOutcome([RelLink(root, path)], false)
    else WalkChildren(dirs, root, path, 0)
  }

  function WalkChildren(dirs: Dirs, root: string, path: string, i: nat): WalkOutcome
    requires ValidDirs(dirs) && path in dirs && i <= |dirs[path]|
    decreases Rank(dirs, path), 0, |dirs[path]| - i
  {
    if i == |dirs[path]| then WalkOutcome([], false)
    else
      var e := dirs[path][i];
      if !e.isDir then WalkChildren(dirs, root, path, i + 1)
      else
        RankDecreases(dirs, path, e.name);
        var sub := WalkOf(dirs, root, Join(path, e.name));
        if sub.failed then sub
        else
          var rest := WalkChildren(dirs, root, path, i + 1);
          WalkOutcome(sub.links + rest.links, rest.failed)
  }

  /** The first loop of walk: whether `path`, if it is not the report
      directory, directly holds an `index.html` file. */
  method FindIndex(entries: seq<Entry>, path: string, root: string) returns (found: bool)
    ensures found <==> path != root && HasIndexFile(entries)
  {
    found := false;
    var i := 0;
    while i < |entries|
      invariant 0 <= i <= |entries| && !found
      invariant forall k | 0 <= k < i :: !(IsIndexEntry(entries[k]) && path != root)
    {
      if !entries[i].isDir && entries[i].name == IndexFile && path != root {
        found := true;
        break;
      }
      i := i + 1;
    }
  }

  /** walk: appends what `path` contributes to the links gathered so far. */
  method Walk(dirs: Dirs, root: string, path: string, acc: seq<string>) returns (links: seq<string>, failed: bool)
    requires ValidDirs(dirs)
    ensures links == acc + WalkOf(dirs, root, path).links
    ensures failed == WalkOf(dirs, root, path).failed
    decreases Rank(dirs, path), 1
  {
    if path !in dirs {
      return acc, true;
    }
    var foundIndex := FindIndex(dirs[path], path, root);
    if foundIndex {
      return acc + [RelLink(root, path)], false;
    }
    links, failed := WalkSubdirs(dirs, root, path, acc);
  }

  /** The second loop of walk: the subdirectories in order, stopping at the
      first failure. */
  method WalkSubdirs(dirs: Dirs, root: string, path: string, acc: seq<string>) returns (links: seq<string>, failed: bool)
    requires ValidDirs(dirs) && path in dirs
    ensures links == acc + WalkChildren(dirs, root, path, 0).links
    ensures failed == WalkChildren(dirs, root, path, 0).failed
    decreases Rank(dirs, path), 0
  {
    var entries := dirs[path];
    links := acc;
    for j := 0 to |entries|
      invariant acc + WalkChildren(dirs, root, path, 0).links == links + WalkChildren(dirs, root, path, j).links
      invariant WalkChildren(dirs, root, path, 0).failed == WalkChildren(dirs, root, path, j).failed
    {
      if entries[j].isDir {
        RankDecreases(dirs, path, entries[j].name);
        var before := links;
        var subFailed;
        links, subFailed := Walk(dirs, root, Join(path, entries[j].name), links);
        if subFailed {
          return links, true;
        }
        ghost var sub := WalkOf(dirs, root, Join(path, entries[j].name));
        ghost var rest := WalkChildren(dirs, root, path, j + 1);
        AppendAssoc(before, sub.links, rest.links);
      }
    }
    return links, false;
  }

  /** getHtmlFiles: the links under the report directory, or a failure. */
  method GetHtmlFiles(dirs: Dirs, reportPath: string) returns (files: seq<string>, failed: bool)
    requires ValidDirs(dirs)
    ensures failed == WalkOf(dirs, reportPath, reportPath).failed
    ensures failed ==> files == []
    ensures !failed ==> files == WalkOf(dirs, reportPath, reportPath).links
  {
    var links;
    links, failed := Walk(dirs, reportPath, reportPath, []);
    if failed {
      return [], true;
    }
    assert [] + WalkOf(dirs, reportPath, reportPath).links == links;
    files := links;
  }

  /** A directory with an index, reached from the report directory. */
  predicate IndexedBelow(dirs: Dirs, root: string, d: string) {
    d in dirs && d != root && HasIndexFile(dirs[d])
  }

  /** A path relative to a directory: one or more entry names joined by
      `/`. */
  predicate RelPath(rel: string)
    decreases |rel|
  {
    NameOk(rel) ||
    match LastSlash(rel)
    case None => false
    case Some(i) => RelPath(rel[..i]) && NameOk(rel[i + 1..])
  }

  lemma {:induction false} LastSlashOfJoined(a: string, name: string)
    requires '/' !in name
    ensures LastSlash(a + "/" + name) == Some(|a|)
    decreases |name|
  {
    var s := a + "/" + name;
    if name != [] {
      assert s[..|s| - 1] == a + "/" + name[..|name| - 1];
      assert s[|s| - 1] == name[|name| - 1];
      LastSlashOfJoined(a, name[..|name| - 1]);
    }
  }

  /** One more name below a relative path is a relative path. */
  lemma RelPathExtend(rel: string, name: string)
    requires RelPath(rel) && NameOk(name)
    ensures RelPath(rel + "/" + name)
  {
    var s := rel + "/" + name;
    LastSlashOfJoined(rel, name);
    assert s[..|rel|] == rel;
    assert s[|rel| + 1..] == name;
  }

  /** A relative path is neither empty nor `.`, and does not start with
      `./`. */
  lemma {:induction false} RelPathShape(rel: string)
    requires RelPath(rel)
    ensures rel != "" && rel != "." && !HasPrefix(rel, "./")
    decreases |rel|
  {
    if NameOk(rel) {
      if |rel| >= 2 {
        assert rel[1] in rel;
        assert rel[..2][1] == rel[1];
      }
    } else {
      var i := LastSlash(rel).value;
      RelPathShape(rel[..i]);
      if i >= 2 {
        assert rel[..2] == rel[..i][..2];
      } else {
        assert rel[..i] == [rel[0]];
        assert rel[..2][0] == rel[0];
      }
    }
  }

  /** The link the walk records for the directory `rel` below the report
      directory is `rel/index.html`: the report directory's prefix is
      trimmed exactly. */
  lemma RelLinkOfJoin(root: string, rel: string)
    requires RelPath(rel)
    ensures RelLink(root, Join(root, rel)) == rel + IndexSuffix
  {
    RelPathShape(rel);
    if root != "." {
      TrimPrefixPrepended(root + "/", rel);
    }
  }

  /** Descending into entry `name` of the directory `rel` below the report
      directory reaches the directory `rel/name` below it. */
  lemma JoinBelow(root: string, rel: string, name: string)
    requires RelPath(rel) && NameOk(name)
    ensures RelPath(rel + "/" + name)
    ensures Join(Join(root, rel), name) == Join(root, rel + "/" + name)
  {
    RelPathExtend(rel, name);
    RelPathShape(rel);
    if root != "." {
      assert |Join(root, rel)| >= 2;
    }
  }

  /** Every link of the report directory's walk is `rel/index.html` for a
      relative path `rel` naming a directory below the report directory
      that holds an index page; in particular the report directory's own
      index is never linked. */
  lemma WalkOfSound(dirs: Dirs, root: string)
    requires ValidDirs(dirs)
    ensures forall l | l in WalkOf(dirs, root, root).links ::
      exists rel | RelPath(rel) :: IndexedBelow(dirs, root, Join(root, rel)) && l == rel + IndexSuffix
  {
    WalkFromSound(dirs, root, root, "");
  }

  /** The walk of the report directory itself, or of the directory `rel`
      below it. */
  lemma {:induction false} WalkFromSound(dirs: Dirs, root: string, path: string, rel: string)
    requires ValidDirs(dirs)
    requires path == root || (RelPath(rel) && path == Join(root, rel))
    ensures forall l | l in WalkOf(dirs, root, path).links ::
      exists rel' | RelPath(rel') :: IndexedBelow(dirs, root, Join(root, rel')) && l == rel' + IndexSuffix
    decreases Rank(dirs, path), 1, 0
  {
    if path in dirs && !(path != root && HasIndexFile(dirs[path])) {
      WalkChildrenSound(dirs, root, path, rel, 0);
    } else if path in dirs {
      RelLinkOfJoin(root, rel);
      assert IndexedBelow(dirs, root, Join(root, rel)) && RelLink(root, path) == rel + IndexSuffix;
    }
  }

  lemma {:induction false} WalkChildrenSound(dirs: Dirs, root: string, path: string, rel: string, i: nat)
    requires ValidDirs(dirs) && path in dirs && i <= |dirs[path]|
    requires path == root || (RelPath(rel) && path == Join(root, rel))
    ensures forall l | l in WalkChildren(dirs, root, path, i).links ::
      exists rel' | RelPath(rel') :: IndexedBelow(dirs, root, Join(root, rel')) && l == rel' + IndexSuffix
    decreases Rank(dirs, path), 0, |dirs[path]| - i
  {
    if i < |dirs[path]| {
      var e := dirs[path][i];
      if !e.isDir {
        WalkChildrenSound(dirs, root, path, rel, i + 1);
      } else {
        RankDecreases(dirs, path, e.name);
        if path == root {
          assert RelPath(e.name);
          WalkFromSound(dirs, root, Join(path, e.name), e.name);
        } else {
          JoinBelow(root, rel, e.name);
          WalkFromSound(dirs, root, Join(path, e.name), rel + "/" + e.name);
        }
        if !WalkOf(dirs, root, Join(path, e.name)).failed {
          WalkChildrenSound(dirs, root, path, rel, i + 1);
        }
      }
    }
  }

  /** In a tree where every listed subdirectory is readable, the walk of a
      readable directory does not fail. */
  lemma {:induction false} WalkOfClosedSucceeds(dirs: Dirs, root: string, path: string)
    requires ValidDirs(dirs) && Closed(dirs) && path in dirs
    ensures !WalkOf(dirs, root, path).failed
    decreases Rank(dirs, path), 1, 0
  {
    if !(path != root && HasIndexFile(dirs[path])) {
      WalkChildrenClosedSucceeds(dirs, root, path, 0);
    }
  }

  lemma {:induction false} WalkChildrenClosedSucceeds(dirs: Dirs, root: string, path: string, i: nat)
    requires ValidDirs(dirs) && Closed(dirs) && path in dirs && i <= |dirs[path]|
    ensures !WalkChildren(dirs, root, path, i).failed
    decreases Rank(dirs, path), 0, |dirs[path]| - i
  {
    if i < |dirs[path]| {
      var e := dirs[path][i];
      if e.isDir {
        RankDecreases(dirs, path, e.name);
        WalkOfClosedSucceeds(dirs, root, Join(path, e.name));
      }
      WalkChildrenClosedSucceeds(dirs, root, path, i + 1);
    }
  }

  /** An index item's title is the linked directory's path relative to the
      report directory. */
  lemma IndexTitleIsRelativeDir(root: string, d: string)
    ensures TrimSuffix(RelLink(root, d), IndexSuffix) == TrimPrefix(d, root + "/")
  {
    TrimSuffixAppended(TrimPrefix(d, root + "/"), IndexSuffix);
  }

  // -----------------------------------------------------------------------
  // Saving and climbing (save, Generate)

  /** The listing after `index.html` is written into the directory. */
  function AddIndex(es: seq<Entry>): (r: seq<Entry>)
    ensures HasIndexFile(r)
    ensures |es| <= |r| && forall k | 0 <= k < |es| :: r[k] == es[k]
  {
    if HasIndexFile(es) then es
    else
      var r := es + [Entry(IndexFile, false)];
      assert IsIndexEntry(r[|es|]);
      r
  }

  datatype Tree = Tree(dirs: Dirs, pages: map<string, seq<Item>>)

  datatype GenerateOutcome = GenerateOutcome(tree: Tree, failed: bool)

  /** The tree after saving the index of `dir` with the given links. */
  function Saved(t: Tree, dir: string, links: seq<string>): Tree
    requires dir in t.dirs
  {
    Tree(t.dirs[dir := AddIndex(t.dirs[dir])], t.pages[dir + IndexSuffix := ItemsOf(links, IndexSuffix)])
  }

  /** Generate over the tree: nothing when the path does not exist (it is
      neither a readable directory nor in `unlistable`); otherwise walk it,
      which fails for a path that cannot be listed, save its index and
      continue with its parent until the parent is `.`. The first failure
      stops. */
  function GenerateOf(t: Tree, unwritable: set<string>, unlistable: set<string>, p: string): (r: GenerateOutcome)
    requires ValidDirs(t.dirs) && unlistable !! t.dirs.Keys && !HasPrefix(p, "/")
    ensures ValidDirs(r.tree.dirs) && r.tree.dirs.Keys == t.dirs.Keys
    decreases |p|
  {
    if p !in t.dirs && p !in unlistable then GenerateOutcome(t, false)
    else
      var w := WalkOf(t.dirs, p, p);
      if w.failed then GenerateOutcome(t, true)
      else if p + IndexSuffix in unwritable then GenerateOutcome(t, true)
      else
        var t' := Saved(t, p, w.links);
        var parent := Dir(p);
        if parent == "." then GenerateOutcome(t', false)
        else GenerateOf(t', unwritable, unlistable, parent)
  }

  /** The directory tree and the index pages written into it. */
  class FileTree {
    var dirs: Dirs
    var pages: map<string, seq<Item>>
    /** Index paths that cannot be created. */
    const unwritable: set<string>
    /** Paths that exist but cannot be listed: unreadable directories and
        regular files. */
    const unlistable: set<string>

    /** The listing of every directory is well formed, and no directory
        is also recorded as unlistable. */
    predicate Valid()
      reads this
    {
      ValidDirs(dirs) && unlistable !! dirs.Keys
    }

    constructor(dirs: Dirs, pages: map<string, seq<Item>>, unwritable: set<string>, unlistable: set<string>)
      requires ValidDirs(dirs) && unlistable !! dirs.Keys
      ensures Valid() && this.dirs == dirs && this.pages == pages
      ensures this.unwritable == unwritable && this.unlistable == unlistable
    {
      this.dirs := dirs;
      this.pages := pages;
      this.unwritable := unwritable;
      this.unlistable := unlistable;
    }

    /** save: builds the items and writes the index page of `dir`. */
    method Save(dir: string, links: seq<string>) returns (ok: bool)
      requires Valid() && dir in dirs
      modifies this
      ensures Valid()
      ensures ok <==> dir + IndexSuffix !in unwritable
      ensures Tree(dirs, pages) == if ok then Saved(Tree(old(dirs), old(pages)), dir, links) else Tree(old(dirs), old(pages))
    {
      var fileName := dir + IndexSuffix;
      if fileName in unwritable {
        return false;
      }
      var items := BuildItems(links, IndexSuffix);
      pages := pages[fileName := items];
      dirs := dirs[dir := AddIndex(dirs[dir])];
      return true;
    }

    /** Generate for a relative report path. */
    method Generate(reportPath: string) returns (failed: bool)
      requires Valid() && !HasPrefix(reportPath, "/")
      modifies this
      ensures Valid()
      ensures GenerateOutcome(Tree(dirs, pages), failed) == GenerateOf(Tree(old(dirs), old(pages)), unwritable, unlistable, reportPath)
      decreases |reportPath|
    {
      if reportPath !in dirs && reportPath !in unlistable {
        return false;
      }
      var files, walkFailed := GetHtmlFiles(dirs, reportPath);
      if walkFailed {
        return true;
      }
      var ok := Save(reportPath, files);
      if !ok {
        return true;
      }
      var parent := Dir(reportPath);
      if parent != "." {
        failed := Generate(parent);
        return;
      }
      return false;
    }
  }

  /** The walk from `root` records the link of every indexed directory that
      `path` lists as a subdirectory at or after entry `i`, unless it fails. */
  lemma {:induction false} WalkChildrenFinds(dirs: Dirs, root: string, path: string, i: nat, k: nat)
    requires ValidDirs(dirs) && path in dirs && i <= k < |dirs[path]| && dirs[path][k].isDir
    requires IndexedBelow(dirs, root, Join(path, dirs[path][k].name))
    requires !WalkChildren(dirs, root, path, i).failed
    ensures RelLink(root, Join(path, dirs[path][k].name)) in WalkChildren(dirs, root, path, i).links
    decreases k - i
  {
    var e := dirs[path][i];
    if i < k {
      if e.isDir {
        RankDecreases(dirs, path, e.name);
      }
      WalkChildrenFinds(dirs, root, path, i + 1, k);
    }
  }

  /** Once the index of `p` is saved, the walk of the directory above it,
      which lists `p` as its `k`-th entry, records `p`'s link (unless the
      walk fails). */
  lemma ChildIndexVisibleToParent(t: Tree, p: string, links: seq<string>, k: nat)
    requires ValidDirs(t.dirs) && p in t.dirs && Dir(p) in t.dirs && p != Dir(p)
    requires k < |t.dirs[Dir(p)]| && t.dirs[Dir(p)][k].isDir && Join(Dir(p), t.dirs[Dir(p)][k].name) == p
    ensures ValidDirs(Saved(t, p, links).dirs)
    ensures var w := WalkOf(Saved(t, p, links).dirs, Dir(p), Dir(p));
      !w.failed ==> RelLink(Dir(p), p) in w.links
  {
    var dirs := Saved(t, p, links).dirs;
    assert NameOk(IndexFile);
    assert dirs[Dir(p)] == t.dirs[Dir(p)];
    assert IndexedBelow(dirs, Dir(p), p);
    if !WalkOf(dirs, Dir(p), Dir(p)).failed {
      WalkChildrenFinds(dirs, Dir(p), Dir(p), 0, k);
    }
  }

  /** Climbing from a relative path ends: each parent is strictly shorter
      and still relative, and a path without a slash has `.` as parent. */
  lemma RelativeClimbEnds(p: string)
    requires !HasPrefix(p, "/")
    ensures Dir(p) == "." || (|Dir(p)| < |p| && !HasPrefix(Dir(p), "/"))
  {
  }

  /** An absolute path never climbs to `.`: its parents stay absolute. */
  lemma AbsoluteClimbNeverEnds(p: string)
    requires HasPrefix(p, "/")
    ensures Dir(p) != "." && HasPrefix(Dir(p), "/")
  {
    assert Dir(p)[0] == '/';
  }

  /** Generation writes nothing and succeeds when the report directory does
      not exist. */
  lemma MissingReportPathWritesNothing(t: Tree, unwritable: set<string>, unlistable: set<string>, p: string)
    requires ValidDirs(t.dirs) && unlistable !! t.dirs.Keys && !HasPrefix(p, "/") && p !in t.dirs && p !in unlistable
    ensures GenerateOf(t, unwritable, unlistable, p) == GenerateOutcome(t, false)
  {
  }

  /** A path that exists but cannot be listed (os.Stat finds it, os.ReadDir
      fails) makes generation fail with nothing written. */
  lemma UnlistableFails(t: Tree, unwritable: set<string>, unlistable: set<string>, p: string)
    requires ValidDirs(t.dirs) && unlistable !! t.dirs.Keys && !HasPrefix(p, "/") && p in unlistable
    ensures GenerateOf(t, unwritable, unlistable, p) == GenerateOutcome(t, true)
  {
  }

  /** The climb tells a missing parent from one that cannot be listed:
      after saving `a/b/index.html`, a missing `a` ends generation with
      success, and an unlistable `a` makes it fail. */
  lemma ParentExistenceDecides()
    ensures !HasPrefix("a/b", "/") && ValidDirs(map["a/b" := []]) && "a" != "a/b"
    ensures !GenerateOf(Tree(map["a/b" := []], map[]), {}, {}, "a/b").failed
    ensures GenerateOf(Tree(map["a/b" := []], map[]), {}, {"a"}, "a/b").failed
  {
    var p := "a/b";
    assert p[0] == 'a';
    assert LastSlash(p[..2]) == Some(1);
    assert Dir(p) == "a";
  }

  /** The directories Generate visits from a relative `p`: `p` itself and
      then each parent, up to but not including `.`. */
  function Ancestors(p: string): (r: set<string>)
    requires !HasPrefix(p, "/")
    ensures p in r
    decreases |p|
  {
    if Dir(p) == "." then {p} else {p} + Ancestors(Dir(p))
  }

  lemma PrefixOfParent(p: string, parent: string, a: string)
    requires HasPrefix(p, parent + "/") && HasPrefix(parent, a + "/")
    ensures HasPrefix(p, a + "/")
  {
    assert p[..|a| + 1] == (parent + "/")[..|a| + 1];
  }

  /** Every directory of the climb is `p` itself or a directory that
      contains `p`. */
  lemma {:induction false} AncestorsContain(p: string)
    requires !HasPrefix(p, "/")
    ensures forall a | a in Ancestors(p) :: a == p || HasPrefix(p, a + "/")
    decreases |p|
  {
    var parent := Dir(p);
    if parent != "." {
      AncestorsContain(parent);
      forall a | a in Ancestors(parent)
        ensures HasPrefix(p, a + "/")
      {
        if a != parent {
          PrefixOfParent(p, parent, a);
        }
      }
    }
  }

  /** Generation keeps every existing page and only writes the index pages
      of the starting directory and the directories above it. */
  lemma {:induction false} GenerateWritesOnlyUpward(t: Tree, unwritable: set<string>, unlistable: set<string>, p: string)
    requires ValidDirs(t.dirs) && unlistable !! t.dirs.Keys && !HasPrefix(p, "/")
    ensures t.pages.Keys <= GenerateOf(t, unwritable, unlistable, p).tree.pages.Keys
    ensures var r := GenerateOf(t, unwritable, unlistable, p).tree;
      forall key | key in r.pages && (key !in t.pages || r.pages[key] != t.pages[key]) ::
        exists a | a in Ancestors(p) :: key == a + IndexSuffix
    decreases |p|
  {
    var r := GenerateOf(t, unwritable, unlistable, p).tree;
    if p in t.dirs && !WalkOf(t.dirs, p, p).failed && p + IndexSuffix !in unwritable {
      var t' := Saved(t, p, WalkOf(t.dirs, p, p).links);
      if Dir(p) != "." {
        GenerateWritesOnlyUpward(t', unwritable, unlistable, Dir(p));
      }
      forall key | key in r.pages && (key !in t.pages || r.pages[key] != t.pages[key])
        ensures exists a | a in Ancestors(p) :: key == a + IndexSuffix
      {
        if key != p + IndexSuffix {
          assert key in t.pages ==> key in t'.pages && t'.pages[key] == t.pages[key];
          assert Dir(p) != ".";
          var a :| a in Ancestors(Dir(p)) && key == a + IndexSuffix;
          assert a in Ancestors(p);
        }
      }
    }
  }

  /** When generation succeeds, the report directory's own index lists the
      walk's links, titled by their directories. */
  lemma GenerateWritesOwnIndex(t: Tree, unwritable: set<string>, unlistable: set<string>, p: string)
    requires ValidDirs(t.dirs) && unlistable !! t.dirs.Keys && !HasPrefix(p, "/") && p in t.dirs
    requires !GenerateOf(t, unwritable, unlistable, p).failed
    ensures var key := p + IndexSuffix;
      var r := GenerateOf(t, unwritable, unlistable, p).tree;
      key in r.pages && r.pages[key] == ItemsOf(WalkOf(t.dirs, p, p).links, IndexSuffix)
  {
    var t' := Saved(t, p, WalkOf(t.dirs, p, p).links);
    var key := p + IndexSuffix;
    assert key in t'.pages && t'.pages[key] == ItemsOf(WalkOf(t.dirs, p, p).links, IndexSuffix);
    if Dir(p) != "." {
      assert GenerateOf(t, unwritable, unlistable, p) == GenerateOf(t', unwritable, unlistable, Dir(p));
      GenerateWritesOnlyUpward(t', unwritable, unlistable, Dir(p));
      AncestorsContain(Dir(p));
      assert forall a | a in Ancestors(Dir(p)) :: |a| < |p|;
    }
  }

  /** After a successful generation from `p`, the index page of the
      directory above `p` links `p`'s index, titled by `p`'s entry name. */
  lemma GenerateParentLinksChild(t: Tree, unwritable: set<string>, unlistable: set<string>, p: string, k: nat)
    requires ValidDirs(t.dirs) && unlistable !! t.dirs.Keys && !HasPrefix(p, "/") && p in t.dirs && Dir(p) != "." && Dir(p) in t.dirs
    requires k < |t.dirs[Dir(p)]| && t.dirs[Dir(p)][k].isDir && Join(Dir(p), t.dirs[Dir(p)][k].name) == p
    requires !GenerateOf(t, unwritable, unlistable, p).failed
    ensures var r := GenerateOf(t, unwritable, unlistable, p).tree;
      var name := t.dirs[Dir(p)][k].name;
      var key := Dir(p) + IndexSuffix;
      key in r.pages && Item(name + IndexSuffix, name) in r.pages[key]
  {
    var name := t.dirs[Dir(p)][k].name;
    var w := WalkOf(t.dirs, p, p);
    var t' := Saved(t, p, w.links);
    ChildIndexVisibleToParent(t, p, w.links, k);
    assert GenerateOf(t, unwritable, unlistable, p) == GenerateOf(t', unwritable, unlistable, Dir(p));
    GenerateWritesOwnIndex(t', unwritable, unlistable, Dir(p));
    var pw := WalkOf(t'.dirs, Dir(p), Dir(p));
    var i :| 0 <= i < |pw.links| && pw.links[i] == RelLink(Dir(p), p);
    assert p == (Dir(p) + "/") + name;
    TrimPrefixPrepended(Dir(p) + "/", name);
    TrimSuffixAppended(name, IndexSuffix);
    assert ItemsOf(pw.links, IndexSuffix)[i] == Item(name + IndexSuffix, name);
  }
}

=== FILE: reportcommon.dfy ===
/** What the report writers share: the report directory layout, the page
    items of an index, the errors they return and the disk they write to. */
module ReportCommon {
  import opened Text

  const HtmlExt := ".html"
  const MdExt := ".md"

  /** The page title the HTML reporter and the parent summary give their
      pages. */
  const PageTitle := "Code review Report"

  /** `s` with a `/` appended unless it already ends with one. */
  function WithSlash(s: string): (r: string)
    ensures HasPrefix(r, s) && HasSuffix(r, "/")
    ensures |r| <= |s| + 1
    ensures HasSuffix(s, "/") ==> r == s
  {
    if HasSuffix(s, "/") then s else s + "/"
  }

  /** getRootReportPath: the report directory under the output path, always
      ending in `/`; a slash is added to each part only where missing. */
  function ReportRoot(path: string, reportName: string): (r: string)
    ensures HasSuffix(r, "/") && HasPrefix(r, path)
    ensures |path| + |reportName| <= |r| <= |path| + |reportName| + 2
  {
    var p, n := WithSlash(path), WithSlash(reportName);
    assert (p + n)[..|path|] == p[..|path|];
    assert (p + n)[|p + n| - 1..] == n[|n| - 1..];
    p + n
  }

  lemma WithSlashIdempotent(s: string)
    ensures WithSlash(WithSlash(s)) == WithSlash(s)
  {
  }

  /** Normalising either part first changes nothing: no slash is ever
      doubled. */
  lemma ReportRootNormalised(path: string, reportName: string)
    ensures ReportRoot(WithSlash(path), WithSlash(reportName)) == ReportRoot(path, reportName)
  {
    WithSlashIdempotent(path);
    WithSlashIdempotent(reportName);
  }

  /** getRelPath of the HTML and API reporters. */
  function HtmlRelPath(fileName: string): (r: string)
    ensures HasSuffix(r, HtmlExt) && TrimSuffix(r, HtmlExt) == fileName
  {
    TrimSuffixAppended(fileName, HtmlExt);
    fileName + HtmlExt
  }

  /** getRelPath of the save reporter. */
  function MdRelPath(fileName: string): (r: string)
    ensures HasSuffix(r, MdExt) && TrimSuffix(r, MdExt) == fileName
  {
    TrimSuffixAppended(fileName, MdExt);
    fileName + MdExt
  }

  /** getFullPath: the relative report path placed under the report root. */
  function FullPath(path: string, reportName: string, relPath: string): (r: string)
    ensures HasPrefix(r, ReportRoot(path, reportName)) && HasSuffix(r, relPath)
    ensures TrimPrefix(r, ReportRoot(path, reportName)) == relPath
  {
    TrimPrefixPrepended(ReportRoot(path, reportName), relPath);
    assert (ReportRoot(path, reportName) + relPath)[|ReportRoot(path, reportName)|..] == relPath;
    ReportRoot(path, reportName) + relPath
  }

  // -----------------------------------------------------------------------
  // Pages and the disk

  datatype Item = Item(href: string, title: string)

  /** What a writer puts in a file. Template rendering is not modelled: a
      page is stored as the data handed to its template. */
  datatype Document =
    | MarkdownFile(text: string)
    | ReportPage(title: string, content: string)
    | IndexPage(title: string, items: seq<Item>)

  datatype ReportError =
    | ConvertFailed(cause: string)
    | CreateFailed(fileName: string)
    | SaveFailed(fileName: string)
    | EndpointNotSet
    | PostFailed(cause: string)
    | BadStatus(code: int)

  /** The files the writers produce. Writing to a path in `unwritable`
      fails and changes nothing. */
  class Disk {
    var files: map<string, Document>
    const unwritable: set<string>

    constructor(files: map<string, Document>, unwritable: set<string>)
      ensures this.files == files && this.unwritable == unwritable
    {
      this.files := files;
      this.unwritable := unwritable;
    }

    method Write(path: string, doc: Document) returns (ok: bool)
      modifies this
      ensures ok <==> path !in unwritable
      ensures files == if ok then old(files)[path := doc] else old(files)
    {
      ok := path !in unwritable;
      if ok {
        files := files[path := doc];
      }
    }
  }

  /** The items of an index page: one per link, in order, titled by the
      link without `suffix`. */
  function ItemsOf(links: seq<string>, suffix: string): seq<Item> {
    seq(|links|, i requires 0 <= i < |links| => Item(links[i], TrimSuffix(links[i], suffix)))
  }

  /** Fills the item slice by index, as the summary writers do. */
  method BuildItems(links: seq<string>, suffix: string) returns (items: seq<Item>)
    ensures items == ItemsOf(links, suffix)
  {
    var a := new Item[|links|];
    for i := 0 to |links|
      invariant forall k | 0 <= k < i :: a[k] == Item(links[k], TrimSuffix(links[k], suffix))
    {
      a[i] := Item(links[i], TrimSuffix(links[i], suffix));
    }
    items := a[..];
  }

  /** When every link ends with `suffix`, each item's title is its link
      without it and nothing else. */
  lemma ItemTitlesStripSuffix(links: seq<string>, suffix: string)
    requires forall k | 0 <= k < |links| :: HasSuffix(links[k], suffix)
    ensures |ItemsOf(links, suffix)| == |links|
    ensures forall k | 0 <= k < |links| ::
      ItemsOf(links, suffix)[k].href == links[k] && ItemsOf(links, suffix)[k].title + suffix == links[k]
  {
  }
}

=== FILE: reporters.dfy ===
/** The HTML reporter: one page per reviewed file under the report root,
    and an index page linking the pages written so far. */
module HtmlReport {
  import opened Text
  import opened ReportCommon

  class HtmlReporter {
    const path: string
    const reportName: string
    /** The relative page paths written so far, in order. */
    var processedFiles: seq<string>

    /** Every recorded page is an `.html` path. */
    predicate Valid()
      reads this
    {
      forall k | 0 <= k < |processedFiles| :: HasSuffix(processedFiles[k], HtmlExt)
    }

    constructor(path: string, reportName: string)
      ensures this.path == path && this.reportName == reportName
      ensures processedFiles == [] && Valid()
    {
      this.path := path;
      this.reportName := reportName;
      processedFiles := [];
    }

    /** Report: `converted` is the Markdown-to-HTML conversion of the review
        (or its error). The page goes to the full path of the file; only a
        successful save records it. */
    method Report(disk: Disk, fileName: string, converted: Result<string, string>) returns (err: Option<ReportError>)
      requires Valid()
      modifies this, disk
      ensures Valid()
      ensures converted.Err? ==>
        && err == Some(ConvertFailed(converted.error))
        && processedFiles == old(processedFiles) && disk.files == old(disk.files)
      ensures converted.Ok? ==>
        var full := FullPath(path, reportName, HtmlRelPath(fileName));
        && (full in disk.unwritable ==>
              err == Some(CreateFailed(full)) && processedFiles == old(processedFiles) && disk.files == old(disk.files))
        && (full !in disk.unwritable ==>
              && err == None
              && processedFiles == old(processedFiles) + [HtmlRelPath(fileName)]
              && disk.files == old(disk.files)[full := ReportPage(PageTitle, converted.value)])
    {
      var reportFileName := FullPath(path, reportName, HtmlRelPath(fileName));
      if converted.Err? {
        return Some(ConvertFailed(converted.error));
      }
      var ok := disk.Write(reportFileName, ReportPage(PageTitle, converted.value));
      if !ok {
        return Some(CreateFailed(reportFileName));
      }
      processedFiles := processedFiles + [HtmlRelPath(fileName)];
      return None;
    }

    /** Summary: writes the index page, one item per recorded page, each
        titled by its page path without `.html`. */
    method Summary(disk: Disk, fileName: string) returns (err: Option<ReportError>)
      requires Valid()
      modifies disk
      ensures var full := FullPath(path, reportName, HtmlRelPath(fileName));
        && (err == None <==> full !in disk.unwritable)
        && (err != None ==> err == Some(CreateFailed(full)) && disk.files == old(disk.files))
        && (err == None ==> disk.files == old(disk.files)[full := IndexPage(PageTitle, ItemsOf(processedFiles, HtmlExt))])
      ensures forall k | 0 <= k < |processedFiles| ::
        ItemsOf(processedFiles, HtmlExt)[k].href == processedFiles[k]
        && ItemsOf(processedFiles, HtmlExt)[k].title + HtmlExt == processedFiles[k]
    {
      ItemTitlesStripSuffix(processedFiles, HtmlExt);
      var indexFileName := FullPath(path, reportName, HtmlRelPath(fileName));
      var items := BuildItems(processedFiles, HtmlExt);
      var ok := disk.Write(indexFileName, IndexPage(PageTitle, items));
      if !ok {
        return Some(CreateFailed(indexFileName));
      }
      return None;
    }
  }

  /** The pages recorded by the reports: a report for `f` links `f.html`
      titled `f`. */
  lemma ReportedTitlesAreFileNames(names: seq<string>)
    ensures var files := seq(|names|, i requires 0 <= i < |names| => HtmlRelPath(names[i]));
      forall k | 0 <= k < |names| :: ItemsOf(files, HtmlExt)[k] == Item(names[k] + HtmlExt, names[k])
  {
  }
}

/** The save reporter: writes the raw Markdown review under the report root
    and keeps no record. */
module SaveReport {
  import opened Text
  import opened ReportCommon

  datatype SaveReporter = SaveReporter(path: string, reportName: string, processedFiles: seq<string>)

  /** newSaveResponse */
  function NewSaveReporter(path: string, reportName: string): (r: SaveReporter)
    ensures r.path == path && r.reportName == reportName && r.processedFiles == []
  {
    SaveReporter(path, reportName, [])
  }

  /** Report and save: the Markdown goes to the `.md` full path; a failed
      write comes back wrapped with that path. */
  method Report(r: SaveReporter, disk: Disk, fileName: string, mdContent: string) returns (err: Option<ReportError>)
    modifies disk
    ensures var full := FullPath(r.path, r.reportName, MdRelPath(fileName));
      && (full in disk.unwritable ==> err == Some(SaveFailed(full)) && disk.files == old(disk.files))
      && (full !in disk.unwritable ==> err == None && disk.files == old(disk.files)[full := MarkdownFile(mdContent)])
  {
    var reportFileName := FullPath(r.path, r.reportName, MdRelPath(fileName));
    var ok := disk.Write(reportFileName, MarkdownFile(mdContent));
    if !ok {
      return Some(SaveFailed(reportFileName));
    }
    return None;
  }

  /** Summary does nothing for this reporter. */
  function Summary(r: SaveReporter, fileName: string): (err: Option<ReportError>)
    ensures err == None
  {
    None
  }

  /** The full path of a saved review, relative to the report root, is the
      file name with `.md`; stripping both gives the file name back. */
  lemma SavedPathRoundTrip(r: SaveReporter, fileName: string)
    ensures TrimSuffix(TrimPrefix(FullPath(r.path, r.reportName, MdRelPath(fileName)), ReportRoot(r.path, r.reportName)), MdExt) == fileName
  {
  }
}

/** The API reporter: posts each converted review, and then an HTML index of
    them, to the endpoint named by QREVIEW_API_ENDPOINT. */
module ApiReport {
  import opened Text
  import opened ReportCommon

  const EndpointVar := "QREVIEW_API_ENDPOINT"
  const ApiReportTitle := "Code review Report"
  const ApiSummaryTitle := "Code Review Summary"
  const StatusOK := 200

  datatype Payload = Payload(fileName: string, content: string, title: string)

  const SummaryHeader := "<h1>Code Review Report</h1>\n<ul>\n"
  const SummaryFooter := "</ul>"

  const LiOpen := "  <li><a href=\""
  const LiMid := "\">"
  const LiClose := "</a></li>\n"

  /** One list line of the index: `  <li><a href="f">title</a></li>` */
  function ItemLine(file: string): string {
    LiOpen + file + LiMid + TrimSuffix(file, HtmlExt) + LiClose
  }

  function ItemLines(files: seq<string>): string {
    if files == [] then "" else ItemLines(files[..|files| - 1]) + ItemLine(files[|files| - 1])
  }

  /** The index HTML for the given pages. */
  function SummaryHtml(files: seq<string>): string {
    SummaryHeader + ItemLines(files) + SummaryFooter
  }

  /** The error for a POST outcome: a transport error, or any status but
      200. */
  function StatusError(response: Result<int, string>): (e: Option<ReportError>)
    ensures e == None <==> response == Ok(StatusOK)
  {
    match response
    case Err(cause) => Some(PostFailed(cause))
    case Ok(code) => if code != StatusOK then Some(BadStatus(code)) else None
  }

  class ApiReporter {
    const path: string
    const reportName: string
    var processedFiles: seq<string>

    predicate Valid()
      reads this
    {
      forall k | 0 <= k < |processedFiles| :: HasSuffix(processedFiles[k], HtmlExt)
    }

    constructor(path: string, reportName: string)
      ensures this.path == path && this.reportName == reportName
      ensures processedFiles == [] && Valid()
    {
      this.path := path;
      this.reportName := reportName;
      processedFiles := [];
    }

    /** Report: `converted` is the HTML conversion, `endpoint` the value of
        QREVIEW_API_ENDPOINT and `response` the outcome of the POST. The page
        is recorded only when the endpoint answers 200. */
    method Report(fileName: string, converted: Result<string, string>, endpoint: string, response: Result<int, string>)
      returns (err: Option<ReportError>, posted: Option<Payload>)
      requires Valid()
      modifies this
      ensures Valid()
      ensures converted.Err? ==>
        err == Some(ConvertFailed(converted.error)) && posted == None && processedFiles == old(processedFiles)
      ensures converted.Ok? && endpoint == "" ==>
        err == Some(EndpointNotSet) && posted == None && processedFiles == old(processedFiles)
      ensures converted.Ok? && endpoint != "" ==>
        && posted == Some(Payload(HtmlRelPath(fileName), converted.value, ApiReportTitle))
        && err == StatusError(response)
        && processedFiles == (if err == None then old(processedFiles) + [HtmlRelPath(fileName)] else old(processedFiles))
    {
      if converted.Err? {
        return Some(ConvertFailed(converted.error)), None;
      }
      if endpoint == "" {
        return Some(EndpointNotSet), None;
      }
      var payload := Payload(HtmlRelPath(fileName), converted.value, ApiReportTitle);
      posted := Some(payload);
      if response.Err? {
        return Some(PostFailed(response.error)), posted;
      }
      if response.value != StatusOK {
        return Some(BadStatus(response.value)), posted;
      }
      processedFiles := processedFiles + [HtmlRelPath(fileName)];
      err := None;
    }

    /** Summary: builds the index HTML of the recorded pages and posts it.
        The record is left as it is. */
    method Summary(fileName: string, endpoint: string, response: Result<int, string>)
      returns (err: Option<ReportError>, posted: Option<Payload>)
      ensures endpoint == "" ==> err == Some(EndpointNotSet) && posted == None
      ensures endpoint != "" ==>
        && posted == Some(Payload(HtmlRelPath(fileName), SummaryHtml(processedFiles), ApiSummaryTitle))
        && err == StatusError(response)
    {
      if endpoint == "" {
        return Some(EndpointNotSet), None;
      }
      var content := SummaryHeader;
      for i := 0 to |processedFiles|
        invariant content == SummaryHeader + ItemLines(processedFiles[..i])
      {
        assert processedFiles[..i + 1][..i] == processedFiles[..i];
        content := content + ItemLine(processedFiles[i]);
      }
      assert processedFiles[..|processedFiles|] == processedFiles;
      content := content + SummaryFooter;
      posted := Some(Payload(HtmlRelPath(fileName), content, ApiSummaryTitle));
      err := StatusError(response);
    }
  }

  /** Recording one more page appends its line to the list. */
  lemma ItemLinesSnoc(files: seq<string>, f: string)
    ensures ItemLines(files + [f]) == ItemLines(files) + ItemLine(f)
  {
    assert (files + [f])[..|files|] == files;
  }

  /** Each recorded page adds one line to the index, linking the page and
      titled by the reviewed file's name. */
  lemma SummaryAfterReport(files: seq<string>, fileName: string)
    ensures SummaryHtml(files + [HtmlRelPath(fileName)]) ==
      SummaryHeader + ItemLines(files)
      + (LiOpen + (fileName + HtmlExt) + LiMid + fileName + LiClose)
      + SummaryFooter
  {
    var f := HtmlRelPath(fileName);
    ItemLinesSnoc(files, f);
  }

  /** With nothing recorded the index is an empty list. */
  lemma EmptySummary()
    ensures SummaryHtml([]) == SummaryHeader + SummaryFooter
  {
  }
}

=== FILE: review.dfy ===
/** The review client's orchestration: picking the AI backend, driving the
    reporters, and posting the parsed review as pull-request comments. The
    outside world (reporters, the PR commenter) is seen only through the
    calls made to it, each of which may fail. */
module Review {
  import opened Text
  import opened DiffMapper
  import opened ReviewParser
  import opened CmdInterpreter
  import opened Helpers

  // -----------------------------------------------------------------------
  // Choosing the backend

  const ClientQ := "amazon_q"
  const ClientBedrock := "bedrock"
  const ClientOllama := "ollama"
  const ClientMock := "mock"

  datatype ClientKind = AmazonQ | Bedrock | Ollama | Mock

  function ClientName(k: ClientKind): string {
    match k
    case AmazonQ => ClientQ
    case Bedrock => ClientBedrock
    case Ollama => ClientOllama
    case Mock => ClientMock
  }

  /** The backend `New` builds for the configured client name. */
  function SelectClient(name: string): (k: ClientKind)
    ensures k != AmazonQ ==> name == ClientName(k)
    ensures k == AmazonQ <==> name != ClientBedrock && name != ClientOllama && name != ClientMock
  {
    if name == ClientBedrock then Bedrock
    else if name == ClientOllama then Ollama
    else if name == ClientMock then Mock
    else AmazonQ
  }

  /** Every backend is reachable by its own name. */
  lemma SelectClientByName(k: ClientKind)
    ensures SelectClient(ClientName(k)) == k
  {
  }

  // -----------------------------------------------------------------------
  // The outside world

  datatype Call =
    | ReportCall(reporter: nat, fileName: string, mdContent: string)
    | SummaryCall(reporter: nat, fileName: string)
    | CommentCall(prURL: string, filePath: string, text: string, line: int)

  /** Records the calls made to reporters and to the PR commenter. Whether
      a call fails depends on when it is made: the call logged at position
      `k` (counting from 0) returns an error when `k` is in `fails`, so the
      same call made twice may succeed once and fail once. */
  class World {
    var calls: seq<Call>
    const fails: set<nat>

    constructor (fails: set<nat>)
      ensures calls == [] && this.fails == fails
    {
      calls := [];
      this.fails := fails;
    }

    method Perform(c: Call) returns (ok: bool)
      modifies this
      ensures calls == old(calls) + [c]
      ensures ok <==> |old(calls)| !in fails
    {
      ok := |calls| !in fails;
      calls := calls + [c];
    }
  }

  /** The calls made for each element of `s`, in order. */
  function FlatMap<T>(s: seq<T>, f: T -> seq<Call>): seq<Call> {
    if s == [] then [] else f(s[0]) + FlatMap(s[1..], f)
  }

  lemma {:induction false} FlatMapConcat<T>(a: seq<T>, b: seq<T>, f: T -> seq<Call>)
    ensures FlatMap(a + b, f) == FlatMap(a, f) + FlatMap(b, f)
  {
    if a == [] {
      assert a + b == b;
    } else {
      var x, y, z := f(a[0]), FlatMap(a[1..], f), FlatMap(b, f);
      assert FlatMap(a + b, f) == x + FlatMap(a[1..] + b, f) by {
        assert (a + b)[0] == a[0];
        assert (a + b)[1..] == a[1..] + b;
      }
      FlatMapConcat(a[1..], b, f);
      AppendAssoc(x, y, z);
    }
  }

  /** When every element yields exactly one call, there is one call per
      element, in order. */
  lemma {:induction false} FlatMapSingletons<T>(s: seq<T>, f: T -> seq<Call>)
    requires forall i | 0 <= i < |s| :: |f(s[i])| == 1
    ensures |FlatMap(s, f)| == |s|
    ensures forall i | 0 <= i < |s| :: FlatMap(s, f)[i] == f(s[i])[0]
  {
    if s != [] {
      FlatMapSingletons(s[1..], f);
    }
  }

  /** Some call of `cs`, made from log position `at` on, would fail. */
  predicate AnyFails(cs: seq<Call>, fails: set<nat>, at: nat) {
    exists k: nat | at <= k < at + |cs| :: k in fails
  }

  /** The calls actually made when `cs` are made in order from log position
      `at` and the first failing one ends the sequence. */
  function Attempted(cs: seq<Call>, fails: set<nat>, at: nat): seq<Call> {
    if cs == [] then []
    else if at in fails then [cs[0]]
    else [cs[0]] + Attempted(cs[1..], fails, at + 1)
  }

  /** The attempted calls are a prefix of the intended ones; all but the
      last succeed; the last fails exactly when some intended call fails;
      and when none fails, all are made. */
  lemma {:induction false} AttemptedStopsAtFirstFailure(cs: seq<Call>, fails: set<nat>, at: nat)
    ensures |Attempted(cs, fails, at)| <= |cs| && Attempted(cs, fails, at) == cs[..|Attempted(cs, fails, at)|]
    ensures forall k: nat | at <= k < at + |Attempted(cs, fails, at)| - 1 :: k !in fails
    ensures AnyFails(cs, fails, at) <==>
      |Attempted(cs, fails, at)| > 0 && at + |Attempted(cs, fails, at)| - 1 in fails
    ensures !AnyFails(cs, fails, at) ==> Attempted(cs, fails, at) == cs
  {
    if cs != [] && at !in fails {
      AttemptedStopsAtFirstFailure(cs[1..], fails, at + 1);
      assert cs == [cs[0]] + cs[1..];
      assert AnyFails(cs, fails, at) <==> AnyFails(cs[1..], fails, at + 1);
    }
  }

  lemma {:induction false} AttemptedAll(cs: seq<Call>, fails: set<nat>, at: nat)
    requires !AnyFails(cs, fails, at)
    ensures Attempted(cs, fails, at) == cs
  {
    if cs != [] {
      assert at !in fails;
      AttemptedAll(cs[1..], fails, at + 1);
    }
  }

  lemma {:induction false} AttemptedStops(pre: seq<Call>, c: Call, post: seq<Call>, fails: set<nat>, at: nat)
    requires !AnyFails(pre, fails, at) && at + |pre| in fails
    ensures Attempted(pre + [c] + post, fails, at) == pre + [c]
    ensures AnyFails(pre + [c] + post, fails, at)
  {
    var cs := pre + [c] + post;
    assert at + |pre| < at + |cs|;
    if pre != [] {
      assert at !in fails;
      AttemptedStops(pre[1..], c, post, fails, at + 1);
      assert cs[1..] == pre[1..] + [c] + post;
    }
  }

  lemma NoFailureAppended(cs: seq<Call>, c: Call, fails: set<nat>, at: nat)
    requires !AnyFails(cs, fails, at) && at + |cs| !in fails
    ensures !AnyFails(cs + [c], fails, at)
  {
  }

  /** Outcomes belong to attempts, not to what is sent: the same comment
      posted twice can go through the first time and fail the second. */
  lemma RepeatedCallMayFailLater(c: Call)
    ensures Attempted([c, c], {1}, 0) == [c, c] && AnyFails([c, c], {1}, 0)
    ensures !AnyFails([c], {1}, 0) && Attempted([c], {1}, 0) == [c]
  {
    assert [c, c][1..] == [c];
  }

  // -----------------------------------------------------------------------
  // Reporters

  /** The call made to each non-nil reporter (`None` is a nil reporter). */
  function EachReporter(reporters: seq<Option<nat>>, call: nat -> Call): seq<Call> {
    FlatMap(reporters, (r: Option<nat>) => if r.Some? then [call(r.value)] else [])
  }

  /** The reporters that are not nil, in order. */
  function Present(reporters: seq<Option<nat>>): seq<nat> {
    if reporters == [] then []
    else (if reporters[0].Some? then [reporters[0].value] else []) + Present(reporters[1..])
  }

  /** Each non-nil reporter is called once, in order, and nil ones are
      skipped. */
  lemma {:induction false} EachReporterCallsPresent(reporters: seq<Option<nat>>, call: nat -> Call)
    ensures |EachReporter(reporters, call)| == |Present(reporters)|
    ensures forall k | 0 <= k < |Present(reporters)| :: EachReporter(reporters, call)[k] == call(Present(reporters)[k])
  {
    if reporters != [] {
      EachReporterCallsPresent(reporters[1..], call);
    }
  }

  lemma {:induction false} PresentSound(reporters: seq<Option<nat>>)
    ensures forall k | 0 <= k < |Present(reporters)| :: Some(Present(reporters)[k]) in reporters
    ensures forall i | 0 <= i < |reporters| && reporters[i].Some? :: reporters[i].value in Present(reporters)
  {
    if reporters != [] {
      PresentSound(reporters[1..]);
      assert forall x | x in reporters[1..] :: x in reporters;
      forall i | 0 <= i < |reporters| && reporters[i].Some?
        ensures reporters[i].value in Present(reporters)
      {
        if i > 0 {
          assert reporters[1..][i - 1] == reporters[i];
        }
      }
    }
  }

  lemma EachReporterSplit(reporters: seq<Option<nat>>, i: nat, call: nat -> Call)
    requires i < |reporters|
    ensures EachReporter(reporters[..i + 1], call)
      == EachReporter(reporters[..i], call) + (if reporters[i].Some? then [call(reporters[i].value)] else [])
    ensures EachReporter(reporters, call) == EachReporter(reporters[..i + 1], call) + EachReporter(reporters[i + 1..], call)
  {
    var f := (r: Option<nat>) => if r.Some? then [call(r.value)] else [];
    assert reporters[..i + 1] == reporters[..i] + [reporters[i]];
    FlatMapConcat(reporters[..i], [reporters[i]], f);
    assert reporters == reporters[..i + 1] + reporters[i + 1..];
    FlatMapConcat(reporters[..i + 1], reporters[i + 1..], f);
  }

  /** Calls each non-nil reporter in order and stops at the first error. */
  method CallReporters(world: World, reporters: seq<Option<nat>>, call: nat -> Call) returns (ok: bool)
    modifies world
    ensures world.calls == old(world.calls) + Attempted(EachReporter(reporters, call), world.fails, |old(world.calls)|)
    ensures ok <==> !AnyFails(EachReporter(reporters, call), world.fails, |old(world.calls)|)
  {
    var i := 0;
    while i < |reporters|
      invariant 0 <= i <= |reporters|
      invariant world.calls == old(world.calls) + EachReporter(reporters[..i], call)
      invariant !AnyFails(EachReporter(reporters[..i], call), world.fails, |old(world.calls)|)
    {
      EachReporterSplit(reporters, i, call);
      if reporters[i].Some? {
        var c := call(reporters[i].value);
        var okCall := world.Perform(c);
        if !okCall {
          AttemptedStops(EachReporter(reporters[..i], call), c, EachReporter(reporters[i + 1..], call), world.fails, |old(world.calls)|);
          return false;
        }
        NoFailureAppended(EachReporter(reporters[..i], call), c, world.fails, |old(world.calls)|);
      }
      i := i + 1;
    }
    assert reporters[..i] == reporters;
    AttemptedAll(EachReporter(reporters, call), world.fails, |old(world.calls)|);
    return true;
  }

  function ReportOf(fileName: string, mdContent: string): nat -> Call {
    (r: nat) => ReportCall(r, fileName, mdContent)
  }

  function SummaryOf(fileName: string): nat -> Call {
    (r: nat) => SummaryCall(r, fileName)
  }

  /** generateReports: Report on each non-nil reporter until one fails. */
  method GenerateReports(world: World, reporters: seq<Option<nat>>, fileName: string, mdContent: string)
    returns (ok: bool)
    modifies world
    ensures world.calls == old(world.calls) + Attempted(EachReporter(reporters, ReportOf(fileName, mdContent)), world.fails, |old(world.calls)|)
    ensures ok <==> !AnyFails(EachReporter(reporters, ReportOf(fileName, mdContent)), world.fails, |old(world.calls)|)
  {
    ok := CallReporters(world, reporters, ReportOf(fileName, mdContent));
  }

  /** summary: Summary("index") on each non-nil reporter until one fails. */
  method Summary(world: World, reporters: seq<Option<nat>>) returns (ok: bool)
    modifies world
    ensures world.calls == old(world.calls) + Attempted(EachReporter(reporters, SummaryOf("index")), world.fails, |old(world.calls)|)
    ensures ok <==> !AnyFails(EachReporter(reporters, SummaryOf("index")), world.fails, |old(world.calls)|)
  {
    ok := CallReporters(world, reporters, SummaryOf("index"));
  }

  // -----------------------------------------------------------------------
  // Commenting on the pull request

  /** Both command-line flags are given and a commenter could be built. */
  predicate Enabled(args: seq<string>, hasCommenter: bool) {
    HasFlag(args, FlagGithubPR) && HasFlag(args, FlagComment) && hasCommenter
  }

  /** Go's lookup of a missing key yields the zero value. */
  function GetOr<V>(m: map<int, V>, k: int, zero: V): V {
    if k in m then m[k] else zero
  }

  /** What the posting loop works with: the PR, the file, the parsed review
      entries, the line map, whether a diff was given and its added lines. */
  datatype Posting = Posting(prURL: string, filePath: string, review: map<int, string>,
                             lineMap: map<int, int>, remap: bool, changes: seq<ChangedLine>)

  /** Where the comment for review line `k` goes: the remapped line, moved
      to the closest added line when a diff was given; None when the diff
      lookup fails. */
  function Target(p: Posting, k: int): Option<int> {
    var mapped := GetOr(p.lineMap, k, 0);
    if !p.remap then Some(mapped)
    else if p.changes == [] then None
    else Some(Closest(p.changes, mapped))
  }

  /** The comment posted for review entry `k`, if any. */
  function LineComment(p: Posting, k: int): seq<Call> {
    match Target(p, k)
    case None => []
    case Some(line) => [CommentCall(p.prURL, p.filePath, GetOr(p.review, k, ""), line)]
  }

  function LineIntents(p: Posting, order: seq<int>): seq<Call> {
    FlatMap(order, (k: int) => LineComment(p, k))
  }

  lemma LineIntentsSplit(p: Posting, order: seq<int>, i: nat)
    requires i < |order|
    ensures LineIntents(p, order[..i + 1]) == LineIntents(p, order[..i]) + LineComment(p, order[i])
    ensures LineIntents(p, order) == LineIntents(p, order[..i + 1]) + LineIntents(p, order[i + 1..])
  {
    var f := (k: int) => LineComment(p, k);
    assert order[..i + 1] == order[..i] + [order[i]];
    FlatMapConcat(order[..i], [order[i]], f);
    assert order == order[..i + 1] + order[i + 1..];
    FlatMapConcat(order[..i + 1], order[i + 1..], f);
  }

  /** The changes GetMap finds in the diff; nothing when there is no diff. */
  function DiffChanges(diffContent: string): seq<ChangedLine>
    requires diffContent != "" ==> DiffIndexable(diffContent)
  {
    if diffContent == "" then [] else ChangedLines(diffContent)
  }

  function PostingOf(prURL: string, filePath: string, comment: string, diffContent: string,
                     lineMap: map<int, int>): Posting
    requires diffContent != "" ==> DiffIndexable(diffContent)
  {
    Posting(prURL, filePath, ParseLines(Lines(comment)).lines, lineMap, diffContent != "", DiffChanges(diffContent))
  }

  /** The summary comment: at the first added line of the diff, or at
      line 1 when there is none. */
  function SummaryComment(p: Posting): Call {
    CommentCall(p.prURL, p.filePath, DefaultSummary, if p.changes != [] then p.changes[0].lineNum else 1)
  }

  /** The comments commentOnPRIfNecessary sets out to post, in order: the
      summary, then each review entry in the iteration order `order`. */
  function CommentIntents(prURL: string, filePath: string, comment: string, diffContent: string,
                          lineMap: map<int, int>, order: seq<int>): seq<Call>
    requires diffContent != "" ==> DiffIndexable(diffContent)
  {
    var p := PostingOf(prURL, filePath, comment, diffContent, lineMap);
    [SummaryComment(p)] + LineIntents(p, order)
  }

  /** commentOnPRIfNecessary: when enabled, posts the summary and then one
      comment per review entry, skipping entries whose diff lookup fails
      and stopping at the first failed post. */
  method CommentOnPRIfNecessary(world: World, dm: DiffMapper, args: seq<string>, hasCommenter: bool,
                                filePath: string, comment: string, diffContent: string,
                                lineMap: map<int, int>, order: seq<int>)
    returns (ok: bool)
    requires diffContent != "" ==> DiffIndexable(diffContent)
    requires Enumerates(order, ParseLines(Lines(comment)).lines.Keys)
    modifies world, dm
    ensures !Enabled(args, hasCommenter) ==>
      ok && world.calls == old(world.calls) && dm.latestChanges == old(dm.latestChanges)
    ensures Enabled(args, hasCommenter) ==>
      var intents := CommentIntents(Flag(args, FlagGithubPR).value, filePath, comment, diffContent, lineMap, order);
      && world.calls == old(world.calls) + Attempted(intents, world.fails, |old(world.calls)|)
      && (ok <==> !AnyFails(intents, world.fails, |old(world.calls)|))
    ensures Enabled(args, hasCommenter) && diffContent != "" ==> dm.latestChanges == ChangedLines(diffContent)
    ensures diffContent == "" ==> dm.latestChanges == old(dm.latestChanges)
  {
    if !(HasFlag(args, FlagGithubPR) && HasFlag(args, FlagComment) && hasCommenter) {
      return true;
    }
    // HasFlag(FlagGithubPR) holds, so reading the flag cannot fail here.
    var prURL := Flag(args, FlagGithubPR).value;
    ok := PostReview(world, dm, prURL, filePath, comment, diffContent, lineMap, order);
  }

  /** The enabled part of commentOnPRIfNecessary: prepares the posting,
      then posts the summary and the entries. */
  method PostReview(world: World, dm: DiffMapper, prURL: string, filePath: string, comment: string,
                    diffContent: string, lineMap: map<int, int>, order: seq<int>)
    returns (ok: bool)
    requires diffContent != "" ==> DiffIndexable(diffContent)
    requires Enumerates(order, ParseLines(Lines(comment)).lines.Keys)
    modifies world, dm
    ensures var intents := CommentIntents(prURL, filePath, comment, diffContent, lineMap, order);
      && world.calls == old(world.calls) + Attempted(intents, world.fails, |old(world.calls)|)
      && (ok <==> !AnyFails(intents, world.fails, |old(world.calls)|))
    ensures diffContent != "" ==> dm.latestChanges == ChangedLines(diffContent)
    ensures diffContent == "" ==> dm.latestChanges == old(dm.latestChanges)
  {
    var p, first := PrepareReview(dm, prURL, filePath, comment, diffContent, lineMap);
    ghost var rest := LineIntents(p, order);
    assert CommentIntents(prURL, filePath, comment, diffContent, lineMap, order) == [first] + rest;
    assert forall k | k in order :: k in p.review;
    var okCall := world.Perform(first);
    if !okCall {
      AttemptedFirstFails(first, rest, world.fails, |old(world.calls)|);
      return false;
    }
    ok := PostEntries(world, dm, p, order);
    AttemptedAfterSuccess(first, rest, world.fails, |old(world.calls)|);
    AppendAssoc(old(world.calls), [first], Attempted(rest, world.fails, |old(world.calls)| + 1));
  }

  /** Maps the diff (when there is one), parses the review and picks the
      summary's line. */
  method PrepareReview(dm: DiffMapper, prURL: string, filePath: string, comment: string,
                       diffContent: string, lineMap: map<int, int>)
    returns (p: Posting, first: Call)
    requires diffContent != "" ==> DiffIndexable(diffContent)
    modifies dm
    ensures p == PostingOf(prURL, filePath, comment, diffContent, lineMap)
    ensures first == SummaryComment(p)
    ensures p.remap ==> dm.latestChanges == p.changes
    ensures diffContent == "" ==> dm.latestChanges == old(dm.latestChanges)
  {
    var remap := false;
    var diffMap: seq<ChangedLine> := [];
    if diffContent != "" {
      diffMap := dm.GetMap(diffContent);
      remap := true;
    }
    var parsedReview := Parse(comment);
    var defaultLine := 1;
    if diffMap != [] {
      defaultLine := diffMap[0].lineNum;
    }
    p := Posting(prURL, filePath, parsedReview.lines, lineMap, remap, diffMap);
    first := CommentCall(prURL, filePath, parsedReview.summary, defaultLine);
  }

  lemma AttemptedFirstFails(c: Call, cs: seq<Call>, fails: set<nat>, at: nat)
    requires at in fails
    ensures Attempted([c] + cs, fails, at) == [c]
    ensures AnyFails([c] + cs, fails, at)
  {
  }

  lemma AttemptedAfterSuccess(c: Call, cs: seq<Call>, fails: set<nat>, at: nat)
    requires at !in fails
    ensures Attempted([c] + cs, fails, at) == [c] + Attempted(cs, fails, at + 1)
    ensures AnyFails([c] + cs, fails, at) <==> AnyFails(cs, fails, at + 1)
  {
    assert ([c] + cs)[1..] == cs;
  }

  /** The loop over the review entries: posts each entry whose target is
      known, and stops at the first failed post. */
  method PostEntries(world: World, dm: DiffMapper, p: Posting, order: seq<int>) returns (ok: bool)
    requires p.remap ==> dm.latestChanges == p.changes
    requires forall k | k in order :: k in p.review
    modifies world
    ensures world.calls == old(world.calls) + Attempted(LineIntents(p, order), world.fails, |old(world.calls)|)
    ensures ok <==> !AnyFails(LineIntents(p, order), world.fails, |old(world.calls)|)
  {
    var i := 0;
    while i < |order|
      invariant 0 <= i <= |order|
      invariant world.calls == old(world.calls) + LineIntents(p, order[..i])
      invariant !AnyFails(LineIntents(p, order[..i]), world.fails, |old(world.calls)|)
    {
      var lineNr := order[i];
      LineIntentsSplit(p, order, i);
      var lineComment := p.review[lineNr];
      var mappedLineNr := if lineNr in p.lineMap then p.lineMap[lineNr] else 0;
      if p.remap {
        var r := dm.GetClosestPrOffset(mappedLineNr);
        if r.Err? {
          i := i + 1;
          continue;
        }
        mappedLineNr := r.value;
      }
      var c := CommentCall(p.prURL, p.filePath, lineComment, mappedLineNr);
      assert LineComment(p, lineNr) == [c];
      var okCall := world.Perform(c);
      if !okCall {
        AttemptedStops(LineIntents(p, order[..i]), c, LineIntents(p, order[i + 1..]), world.fails, |old(world.calls)|);
        return false;
      }
      NoFailureAppended(LineIntents(p, order[..i]), c, world.fails, |old(world.calls)|);
      i := i + 1;
    }
    assert order[..i] == order;
    AttemptedAll(LineIntents(p, order), world.fails, |old(world.calls)|);
    return true;
  }

  // -----------------------------------------------------------------------
  // Properties of the intended comments

  /** The summary is the first comment; it goes to the first added line of
      the diff, or to line 1 when there is no diff or it adds nothing. A
      failed summary post ends the run with no line comments. */
  lemma SummaryFirst(prURL: string, filePath: string, comment: string, diffContent: string,
                     lineMap: map<int, int>, order: seq<int>, fails: set<nat>, at: nat)
    requires diffContent != "" ==> DiffIndexable(diffContent)
    ensures var intents := CommentIntents(prURL, filePath, comment, diffContent, lineMap, order);
      && |intents| >= 1
      && intents[0].text == DefaultSummary
      && (diffContent == "" || ChangedLines(diffContent) == [] ==> intents[0].line == 1)
      && (diffContent != "" && ChangedLines(diffContent) != [] ==>
            intents[0].line == ChangedLines(diffContent)[0].lineNum)
      && (at in fails ==> Attempted(intents, fails, at) == [intents[0]])
  {
  }

  /** Without a diff, each review entry is posted once, in iteration
      order, at its remapped line, or at line 0 when the entry's number is
      not in the line map. */
  lemma NoDiffPostsEveryEntry(prURL: string, filePath: string, comment: string,
                              lineMap: map<int, int>, order: seq<int>)
    requires Enumerates(order, ParseLines(Lines(comment)).lines.Keys)
    ensures var intents := CommentIntents(prURL, filePath, comment, "", lineMap, order);
      var review := ParseLines(Lines(comment)).lines;
      && |intents| == 1 + |order|
      && forall i | 0 <= i < |order| ::
           intents[i + 1] == CommentCall(prURL, filePath, review[order[i]],
                                         if order[i] in lineMap then lineMap[order[i]] else 0)
  {
    var p := PostingOf(prURL, filePath, comment, "", lineMap);
    var f := (k: int) => LineComment(p, k);
    assert CommentIntents(prURL, filePath, comment, "", lineMap, order) == [SummaryComment(p)] + FlatMap(order, f);
    forall i | 0 <= i < |order|
      ensures f(order[i]) == [CommentCall(prURL, filePath, p.review[order[i]], GetOr(lineMap, order[i], 0))]
    {
      assert order[i] in order;
    }
    FlatMapSingletons(order, f);
  }

  /** With a diff that adds lines, each review entry is posted once, at the
      closest added line at or before its remapped line. */
  lemma DiffPostsAtClosest(prURL: string, filePath: string, comment: string, diffContent: string,
                           lineMap: map<int, int>, order: seq<int>)
    requires diffContent != "" && DiffIndexable(diffContent) && ChangedLines(diffContent) != []
    requires Enumerates(order, ParseLines(Lines(comment)).lines.Keys)
    ensures var intents := CommentIntents(prURL, filePath, comment, diffContent, lineMap, order);
      var review := ParseLines(Lines(comment)).lines;
      && |intents| == 1 + |order|
      && forall i | 0 <= i < |order| ::
           intents[i + 1] == CommentCall(prURL, filePath, review[order[i]],
                                         Closest(ChangedLines(diffContent), GetOr(lineMap, order[i], 0)))
  {
    var p := PostingOf(prURL, filePath, comment, diffContent, lineMap);
    var f := (k: int) => LineComment(p, k);
    assert CommentIntents(prURL, filePath, comment, diffContent, lineMap, order) == [SummaryComment(p)] + FlatMap(order, f);
    forall i | 0 <= i < |order|
      ensures |f(order[i])| == 1
    {
      assert order[i] in order;
    }
    FlatMapSingletons(order, f);
  }

  lemma {:induction false} FlatMapEmpty<T>(s: seq<T>, f: T -> seq<Call>)
    requires forall i | 0 <= i < |s| :: f(s[i]) == []
    ensures FlatMap(s, f) == []
  {
    if s != [] {
      FlatMapEmpty(s[1..], f);
    }
  }

  /** A diff that adds no lines makes every lookup fail: only the summary
      is posted, at line 1. */
  lemma NoAddedLinesOnlySummary(prURL: string, filePath: string, comment: string, diffContent: string,
                                lineMap: map<int, int>, order: seq<int>)
    requires diffContent != "" && DiffIndexable(diffContent) && ChangedLines(diffContent) == []
    ensures CommentIntents(prURL, filePath, comment, diffContent, lineMap, order)
      == [CommentCall(prURL, filePath, DefaultSummary, 1)]
  {
    var p := PostingOf(prURL, filePath, comment, diffContent, lineMap);
    FlatMapEmpty(order, (k: int) => LineComment(p, k));
  }

  /** An example of the move to the closest added line: added lines 10,
      40 and 45 put a comment for line 42 on line 40. */
  lemma ClosestExample()
    ensures Closest([ChangedLine(10, "a"), ChangedLine(40, "b"), ChangedLine(45, "c")], 42) == 40
  {
    var cs := [ChangedLine(10, "a"), ChangedLine(40, "b"), ChangedLine(45, "c")];
    assert cs[..2] == [ChangedLine(10, "a"), ChangedLine(40, "b")];
  }

  /** The review's line numbers count from 1, but the map built by
      SourceCodeLineRemap counts the kept lines from 0. Without a diff, the
      comment for line k of the compacted file (its k-th kept line) lands on
      the original line of the (k+1)-th kept line, and a comment on the
      last kept line lands on line 0. */
  lemma ReviewLineIndexesRemapFromZero(ls: seq<string>, review: map<int, string>, k: int)
    requires 1 <= k <= |KeptLines(ls)|
    ensures var p := Posting("", "", review, IndexMap(KeptLines(ls)), false, []);
      && (k < |KeptLines(ls)| ==>
            && Target(p, k) == Some(KeptLines(ls)[k])
            && 1 <= KeptLines(ls)[k] <= |ls| && |Compact(ls)| == |KeptLines(ls)|
            && ls[KeptLines(ls)[k] - 1] == Compact(ls)[k])
      && (k == |KeptLines(ls)| ==> Target(p, k) == Some(0))
  {
    KeptLinesSound(ls);
  }
}

=== FILE: reviewparser.dfy ===
/** Splitting a free-text review into comments keyed by the line numbers it
    mentions ("Line: N:", "Line N*", "Line N-M:"). */
module ReviewParser {
  import opened Text

  // -----------------------------------------------------------------------
  // The two line-reference patterns
  //
  //   RangeForm:   (?i)Line:?\s*\d+-\d+[:*]
  //   SingleForm:  (?i)Line:?\s*\d+[:*]
  //
  // Each piece is followed by a character it cannot consume, so at any start
  // position at most one way of matching exists and the greedy scan below
  // finds it; MatchAtSound and MatchAtComplete prove this against a
  // declarative description of the pattern.

  datatype Form = RangeForm | SingleForm

  /** RE2's \s: space, tab, newline, form feed, carriage return. */
  predicate IsRegexSpace(c: char) {
    c == ' ' || c == '\t' || c == '\n' || c == 12 as char || c == '\r'
  }

  predicate IsTerminator(c: char) {
    c == ':' || c == '*'
  }

  /** "line" in any letter case starts at p. */
  predicate LineWordAt(s: string, p: nat) {
    && p + 4 <= |s|
    && LowerChar(s[p]) == 'l' && LowerChar(s[p + 1]) == 'i'
    && LowerChar(s[p + 2]) == 'n' && LowerChar(s[p + 3]) == 'e'
  }

  function SkipSpaces(s: string, i: nat): (j: nat)
    requires i <= |s|
    ensures i <= j <= |s|
    ensures forall k | i <= k < j :: IsRegexSpace(s[k])
    ensures j < |s| ==> !IsRegexSpace(s[j])
    decreases |s| - i
  {
    if i < |s| && IsRegexSpace(s[i]) then SkipSpaces(s, i + 1) else i
  }

  /** A match: where it starts, where its first number lies, where it ends. */
  datatype Match = Match(start: nat, numStart: nat, numEnd: nat, end: nat)

  /** The match of the pattern that starts at p, if there is one. */
  function MatchAt(s: string, p: nat, form: Form): (r: Option<Match>)
    requires p <= |s|
    ensures r.Some? ==> r.value.start == p && p + 4 <= r.value.numStart < r.value.numEnd < r.value.end <= |s|
  {
    if !LineWordAt(s, p) then None
    else
      var a := p + 4;
      var b := if a < |s| && s[a] == ':' then a + 1 else a;
      var c := SkipSpaces(s, b);
      var d := SkipDigits(s, c);
      if d == c then None
      else
        match form
        case SingleForm =>
          if d < |s| && IsTerminator(s[d]) then Some(Match(p, c, d, d + 1)) else None
        case RangeForm =>
          if d < |s| && s[d] == '-' then
            var e := SkipDigits(s, d + 1);
            if e > d + 1 && e < |s| && IsTerminator(s[e]) then Some(Match(p, c, d, e + 1)) else None
          else None
  }

  /** The pattern, written out with explicit split points: "line", `colon`
      colons (0 or 1), spaces up to c, digits c..d, then either a terminator
      (SingleForm, e == d) or '-', digits d+1..e and a terminator (RangeForm);
      the match ends at `end`. */
  predicate ShapeAt(s: string, p: nat, form: Form, colon: nat, c: nat, d: nat, e: nat, end: nat) {
    && LineWordAt(s, p)
    && colon <= 1
    && p + 4 + colon <= c < d <= e < end <= |s|
    && (colon == 1 ==> s[p + 4] == ':')
    && (forall k | p + 4 + colon <= k < c :: IsRegexSpace(s[k]))
    && (forall k | c <= k < d :: IsDigit(s[k]))
    && match form
       case SingleForm => e == d && end == d + 1 && IsTerminator(s[d])
       case RangeForm =>
         && s[d] == '-' && d + 1 < e && end == e + 1 && IsTerminator(s[e])
         && (forall k | d + 1 <= k < e :: IsDigit(s[k]))
  }

  /** Every match found fits the pattern. */
  lemma MatchAtSound(s: string, p: nat, form: Form)
    requires p <= |s| && MatchAt(s, p, form).Some?
    ensures var m := MatchAt(s, p, form).value;
      exists colon, e :: ShapeAt(s, p, form, colon, m.numStart, m.numEnd, e, m.end)
  {
    var m := MatchAt(s, p, form).value;
    var colon := if s[p + 4] == ':' then 1 else 0;
    var e := if form == SingleForm then m.numEnd else m.end - 1;
    if form == RangeForm {
      assert SkipDigits(s, m.numEnd + 1) == e;
    }
    assert ShapeAt(s, p, form, colon, m.numStart, m.numEnd, e, m.end);
  }

  lemma SkipSpacesTo(s: string, i: nat, j: nat)
    requires i <= j < |s|
    requires forall k | i <= k < j :: IsRegexSpace(s[k])
    requires !IsRegexSpace(s[j])
    ensures SkipSpaces(s, i) == j
    decreases j - i
  {
    if i < j {
      SkipSpacesTo(s, i + 1, j);
    }
  }

  lemma SkipDigitsTo(s: string, i: nat, j: nat)
    requires i <= j < |s|
    requires forall k | i <= k < j :: IsDigit(s[k])
    requires !IsDigit(s[j])
    ensures SkipDigits(s, i) == j
    decreases j - i
  {
    if i < j {
      SkipDigitsTo(s, i + 1, j);
    }
  }

  /** Whatever fits the pattern at p is the match found at p: the pattern
      matches at p in exactly one way, and the scan finds that one. */
  lemma MatchAtComplete(s: string, p: nat, form: Form, colon: nat, c: nat, d: nat, e: nat, end: nat)
    requires ShapeAt(s, p, form, colon, c, d, e, end)
    ensures MatchAt(s, p, form) == Some(Match(p, c, d, end))
  {
    NumberAfterWord(s, p, colon, c, d);
    if form == RangeForm {
      SkipDigitsTo(s, d + 1, e);
    }
  }

  /** Past "line" and the optional colon, the scan stops at the spaces' end
      and the digits' end the shape names. */
  lemma NumberAfterWord(s: string, p: nat, colon: nat, c: nat, d: nat)
    requires colon <= 1 && p + 4 + colon <= c < d < |s|
    requires colon == 1 ==> s[p + 4] == ':'
    requires forall k | p + 4 + colon <= k < c :: IsRegexSpace(s[k])
    requires forall k | c <= k < d :: IsDigit(s[k])
    requires !IsDigit(s[d])
    ensures var a := p + 4;
      var b := if a < |s| && s[a] == ':' then a + 1 else a;
      SkipSpaces(s, b) == c && SkipDigits(s, c) == d
  {
    var a := p + 4;
    var b := if a < |s| && s[a] == ':' then a + 1 else a;
    assert b == p + 4 + colon by {
      if colon == 0 {
        assert IsRegexSpace(s[a]) || IsDigit(s[a]);
      }
    }
    SkipSpacesTo(s, b, c);
    SkipDigitsTo(s, c, d);
  }

  /** The leftmost match at or after p. */
  function FindFrom(s: string, form: Form, p: nat): (r: Option<Match>)
    requires p <= |s|
    ensures r.Some? ==> p <= r.value.start <= |s| && MatchAt(s, r.value.start, form) == r
    ensures forall q | p <= q <= |s| && (r.None? || q < r.value.start) :: MatchAt(s, q, form).None?
    decreases |s| - p
  {
    if MatchAt(s, p, form).Some? then MatchAt(s, p, form)
    else if p == |s| then None
    else FindFrom(s, form, p + 1)
  }

  /** Index of the first digit at or after i (|t| when there is none). */
  function FirstDigitFrom(t: string, i: nat): (j: nat)
    requires i <= |t|
    ensures i <= j <= |t|
    ensures j < |t| ==> IsDigit(t[j])
    ensures forall k | i <= k < j :: !IsDigit(t[k])
    decreases |t| - i
  {
    if i == |t| || IsDigit(t[i]) then i else FirstDigitFrom(t, i + 1)
  }

  /** regexp `\d+` FindString: the leftmost maximal run of digits, or "". */
  function FirstDigitRun(t: string): (r: string)
    ensures AllDigits(r)
  {
    var i := FirstDigitFrom(t, 0);
    t[i..SkipDigits(t, i)]
  }

  // -----------------------------------------------------------------------
  // hasLineNumber

  /** The line number a reference yields and the text after it. */
  datatype LineRef = LineRef(lineNr: int, comment: string)

  /** The anchor a run of digits gives: its value, except that a value out
      of int64 range (a failed conversion) and 0 both become 1. */
  function AnchorValue(digits: string): int
    requires AllDigits(digits)
  {
    if 0 < DigitsValue(digits) <= MaxInt64 then DigitsValue(digits) else 1
  }

  lemma LineWordHasNoDigit(s: string, p: nat)
    requires LineWordAt(s, p)
    ensures forall k | p <= k < p + 4 :: !IsDigit(s[k])
  {
  }

  lemma SliceOfSlice(s: string, a: nat, b: nat, c: nat, d: nat)
    requires a <= c <= d <= b <= |s|
    ensures s[a..b][c - a..d - a] == s[c..d]
  {
    var u := s[a..b][c - a..d - a];
    assert |u| == d - c;
    forall k | 0 <= k < d - c
      ensures u[k] == s[c..d][k]
    {
      assert u[k] == s[a..b][c - a + k] == s[c + k];
    }
  }

  /** Before its first number a match holds only "line", a colon and
      spaces: no digit. */
  lemma NoDigitBeforeNumber(s: string, form: Form, m: Match)
    requires m.start <= |s| && MatchAt(s, m.start, form) == Some(m)
    ensures forall k | m.start <= k < m.numStart :: !IsDigit(s[k])
  {
    LineWordHasNoDigit(s, m.start);
    MatchAtSound(s, m.start, form);
    var colon, e :| ShapeAt(s, m.start, form, colon, m.numStart, m.numEnd, e, m.end);
    forall k | m.start + 4 <= k < m.numStart
      ensures !IsDigit(s[k])
    {
      assert IsRegexSpace(s[k]) || s[k] == ':';
    }
  }

  /** The digits a match's first number is made of, and what surrounds
      them. */
  lemma NumberOfMatch(s: string, form: Form, m: Match)
    requires m.start <= |s| && MatchAt(s, m.start, form) == Some(m)
    ensures m.start <= m.numStart < m.numEnd < m.end <= |s|
    ensures forall k | m.start <= k < m.numStart :: !IsDigit(s[k])
    ensures forall k | m.numStart <= k < m.numEnd :: IsDigit(s[k])
    ensures !IsDigit(s[m.numEnd])
  {
    NoDigitBeforeNumber(s, form, m);
    MatchAtSound(s, m.start, form);
    var colon, e :| ShapeAt(s, m.start, form, colon, m.numStart, m.numEnd, e, m.end);
  }

  /** The first digit run of `t` lies at i..j when no digit comes before i
      and i..j is a maximal run. */
  lemma FirstDigitRunAt(t: string, i: nat, j: nat)
    requires i < j < |t| && !IsDigit(t[j])
    requires forall k | 0 <= k < i :: !IsDigit(t[k])
    requires forall k | i <= k < j :: IsDigit(t[k])
    ensures FirstDigitRun(t) == t[i..j]
  {
    FirstDigitAt(t, 0, i);
    SkipDigitsTo(t, i, j);
  }

  /** The first digit run of a match's text is its first number. */
  lemma FirstDigitRunOfMatch(s: string, form: Form, m: Match)
    requires m.start <= |s| && MatchAt(s, m.start, form) == Some(m)
    ensures FirstDigitRun(s[m.start..m.end]) == s[m.numStart..m.numEnd]
  {
    NumberOfMatch(s, form, m);
    FirstDigitRunOfSlice(s, m);
  }

  lemma FirstDigitRunOfSlice(s: string, m: Match)
    requires m.start <= m.numStart < m.numEnd < m.end <= |s|
    requires forall k | m.start <= k < m.numStart :: !IsDigit(s[k])
    requires forall k | m.numStart <= k < m.numEnd :: IsDigit(s[k])
    requires !IsDigit(s[m.numEnd])
    ensures FirstDigitRun(s[m.start..m.end]) == s[m.numStart..m.numEnd]
  {
    var t := s[m.start..m.end];
    var i := m.numStart - m.start;
    var j := m.numEnd - m.start;
    assert forall k | 0 <= k < |t| :: t[k] == s[m.start + k];
    FirstDigitRunAt(t, i, j);
    SliceOfSlice(s, m.start, m.end, m.numStart, m.numEnd);
  }

  lemma FirstDigitAt(t: string, i: nat, j: nat)
    requires i <= j < |t| && IsDigit(t[j])
    requires forall k | i <= k < j :: !IsDigit(t[k])
    ensures FirstDigitFrom(t, i) == j
    decreases j - i
  {
    if i < j {
      FirstDigitAt(t, i + 1, j);
    }
  }

  /** hasLineNumberByRegex: the leftmost match, its first digit run as the
      line number (1 when conversion fails or gives 0) and the text after
      the match as the comment. */
  function ByRegex(str: string, form: Form): (r: Option<LineRef>)
    ensures r.Some? ==> r.value.lineNr >= 1
  {
    match FindFrom(str, form, 0)
    case None => None
    case Some(m) =>
      var matchText := str[m.start..m.end];
      var numMatch := FirstDigitRun(matchText);
      AtoiOfDigits(numMatch);
      var lineNr := if numMatch != "" && Atoi(numMatch).ok then Atoi(numMatch).value else 1;
      Some(LineRef(if lineNr == 0 then 1 else lineNr, str[m.end..]))
  }

  /** A reference is found exactly when the pattern matches somewhere; it
      then carries the value of the leftmost match's first number (see
      AnchorValue) and everything after that match. */
  lemma ByRegexSpec(str: string, form: Form)
    ensures ByRegex(str, form).Some? <==> exists p | 0 <= p <= |str| :: MatchAt(str, p, form).Some?
    ensures ByRegex(str, form).Some? ==> var m := FindFrom(str, form, 0).value;
      && ByRegex(str, form).value.comment == str[m.end..]
      && AllDigits(str[m.numStart..m.numEnd])
      && ByRegex(str, form).value.lineNr == AnchorValue(str[m.numStart..m.numEnd])
  {
    if FindFrom(str, form, 0).Some? {
      var m := FindFrom(str, form, 0).value;
      FirstDigitRunOfMatch(str, form, m);
      AtoiOfDigits(str[m.numStart..m.numEnd]);
    }
  }

  /** hasLineNumber: the range form first, then the single form. */
  function HasLineNumber(str: string): Option<LineRef> {
    match ByRegex(str, RangeForm)
    case Some(ref) => Some(ref)
    case None => ByRegex(str, SingleForm)
  }

  /** A line carries a reference exactly when one of the two patterns
      matches in it; when the range pattern matches anywhere, its first
      number is the anchor even if a single reference occurs earlier. */
  lemma HasLineNumberSpec(str: string)
    ensures HasLineNumber(str).Some? <==>
      exists p, form | 0 <= p <= |str| :: MatchAt(str, p, form).Some?
    ensures (exists p | 0 <= p <= |str| :: MatchAt(str, p, RangeForm).Some?) ==>
      HasLineNumber(str) == ByRegex(str, RangeForm)
    ensures HasLineNumber(str).Some? ==> HasLineNumber(str).value.lineNr >= 1
  {
    ByRegexSpec(str, RangeForm);
    ByRegexSpec(str, SingleForm);
    if HasLineNumber(str).None? {
      forall p, form | 0 <= p <= |str|
        ensures MatchAt(str, p, form).None?
      {
        if form == RangeForm {
          assert !exists q | 0 <= q <= |str| :: MatchAt(str, q, RangeForm).Some?;
        } else {
          assert !exists q | 0 <= q <= |str| :: MatchAt(str, q, SingleForm).Some?;
        }
      }
    }
  }

  /** A blank line mentions no line number. */
  lemma BlankHasNoLineNumber(line: string)
    requires IsBlank(line)
    ensures HasLineNumber(line).None?
  {
    BlankIffAllSpace(line);
  }

  // -----------------------------------------------------------------------
  // Parse

  const DefaultSummary: string := "This is an automated review"

  datatype Response = Response(summary: string, lines: map<int, string>)

  /** `m[k] += x` on a Go map, where a missing key reads as "". */
  function Append(m: map<int, string>, k: int, x: string): (r: map<int, string>)
    ensures r.Keys == m.Keys + {k}
  {
    m[k := (if k in m then m[k] else "") + x]
  }

  /** The loop state: the line number comments currently go to, and the
      comments collected so far. */
  datatype ParseState = ParseState(current: int, lines: map<int, string>)

  function ParseStep(st: ParseState, line: string): ParseState {
    if IsBlank(line) then st
    else
      match HasLineNumber(line)
      case Some(ref) => ParseState(ref.lineNr, Append(st.lines, ref.lineNr, ref.comment + "\n"))
      case None => ParseState(st.current, Append(st.lines, st.current, line + "\n"))
  }

  function ParseLines(ls: seq<string>): ParseState {
    if ls == [] then ParseState(1, map[])
    else ParseStep(ParseLines(ls[..|ls| - 1]), ls[|ls| - 1])
  }

  /** Parse: total on every input; the summary is always the fixed sentence. */
  method Parse(mdFile: string) returns (response: Response)
    ensures response == Response(DefaultSummary, ParseLines(Lines(mdFile)).lines)
  {
    var currentLineNr := 1;
    response := Response(DefaultSummary, map[]);
    var ls := Lines(mdFile);
    var i := 0;
    while i < |ls|
      invariant 0 <= i <= |ls|
      invariant response.summary == DefaultSummary
      invariant ParseLines(ls[..i]) == ParseState(currentLineNr, response.lines)
    {
      var line := ls[i];
      ghost var st := ParseLines(ls[..i]);
      assert ls[..i + 1][..i] == ls[..i];
      assert ParseLines(ls[..i + 1]) == ParseStep(st, line);
      i := i + 1;
      if IsBlank(line) {
        continue;
      }
      var ref := HasLineNumber(line);
      if ref.Some? {
        var lineNr := ref.value.lineNr;
        assert ParseStep(st, line) == ParseState(lineNr, Append(st.lines, lineNr, ref.value.comment + "\n"));
        currentLineNr := lineNr;
        var before := if lineNr in response.lines then response.lines[lineNr] else "";
        response := response.(lines := response.lines[lineNr := before + (ref.value.comment + "\n")]);
        continue;
      }
      assert ParseStep(st, line) == ParseState(currentLineNr, Append(st.lines, currentLineNr, line + "\n"));
      var before := if currentLineNr in response.lines then response.lines[currentLineNr] else "";
      response := response.(lines := response.lines[currentLineNr := before + (line + "\n")]);
    }
    assert ls[..|ls|] == ls;
  }

  // -----------------------------------------------------------------------
  // Properties of Parse

  /** Every key, and the running line number, is at least 1. */
  lemma {:induction false} ParseKeysPositive(ls: seq<string>)
    ensures ParseLines(ls).current >= 1
    ensures forall k | k in ParseLines(ls).lines :: k >= 1
  {
    if ls != [] {
      ParseKeysPositive(ls[..|ls| - 1]);
    }
  }

  /** Input with no non-blank line yields no comments at all. */
  lemma {:induction false} ParseBlank(ls: seq<string>)
    requires forall k | 0 <= k < |ls| :: IsBlank(ls[k])
    ensures ParseLines(ls) == ParseState(1, map[])
  {
    if ls != [] {
      ParseBlank(ls[..|ls| - 1]);
    }
  }

  /** The reference a non-blank line carries, if any. */
  function RefOf(line: string): Option<LineRef> {
    if IsBlank(line) then None else HasLineNumber(line)
  }

  /** The line number of the last reference among `ls`, 1 before any. */
  function LastAnchor(ls: seq<string>): int {
    if ls == [] then 1
    else if RefOf(ls[|ls| - 1]).Some? then RefOf(ls[|ls| - 1]).value.lineNr
    else LastAnchor(ls[..|ls| - 1])
  }

  /** The line number line j of `ls` is filed under. */
  function Owner(ls: seq<string>, j: nat): int
    requires j < |ls|
  {
    if RefOf(ls[j]).Some? then RefOf(ls[j]).value.lineNr else LastAnchor(ls[..j])
  }

  /** What line j contributes: the text after its reference, or the whole
      line, with "\n"; a blank line contributes nothing. */
  function Piece(line: string): string {
    if IsBlank(line) then ""
    else if RefOf(line).Some? then RefOf(line).value.comment + "\n"
    else line + "\n"
  }

  /** Everything filed under k, in input order. */
  function Collected(ls: seq<string>, k: int): string {
    if ls == [] then ""
    else Collected(ls[..|ls| - 1], k) + (if Owner(ls, |ls| - 1) == k then Piece(ls[|ls| - 1]) else "")
  }

  /** Some non-blank line is filed under k. */
  predicate Mentioned(ls: seq<string>, k: int) {
    exists j | 0 <= j < |ls| :: !IsBlank(ls[j]) && Owner(ls, j) == k
  }

  lemma OwnerPrefix(ls: seq<string>, j: nat, n: nat)
    requires j < n <= |ls|
    ensures Owner(ls[..n], j) == Owner(ls, j)
  {
    assert ls[..n][j] == ls[j];
    assert ls[..n][..j] == ls[..j];
  }

  /** One parse step, in terms of the line's owner and piece. */
  lemma StepByPiece(st: ParseState, line: string)
    ensures !IsBlank(line) ==>
      var o := if RefOf(line).Some? then RefOf(line).value.lineNr else st.current;
      ParseStep(st, line) == ParseState(o, Append(st.lines, o, Piece(line)))
    ensures IsBlank(line) ==> ParseStep(st, line) == st && Piece(line) == ""
  {
  }

  /** The running line number is the last reference seen, 1 before any. */
  lemma {:induction false} ParseCurrent(ls: seq<string>)
    ensures ParseLines(ls).current == LastAnchor(ls)
  {
    if ls != [] {
      ParseCurrent(ls[..|ls| - 1]);
      StepByPiece(ParseLines(ls[..|ls| - 1]), ls[|ls| - 1]);
    }
  }

  /** Mentioned grows by the owner of the last line when it is not blank. */
  lemma MentionedStep(ls: seq<string>, k: int)
    requires ls != []
    ensures var j := |ls| - 1;
      Mentioned(ls, k) <==> Mentioned(ls[..j], k) || (!IsBlank(ls[j]) && Owner(ls, j) == k)
  {
    if Mentioned(ls[..|ls| - 1], k) {
      MentionedGrows(ls, k);
    }
    if Mentioned(ls, k) {
      MentionedShrinks(ls, k);
    }
  }

  lemma MentionedGrows(ls: seq<string>, k: int)
    requires ls != [] && Mentioned(ls[..|ls| - 1], k)
    ensures Mentioned(ls, k)
  {
    var j := |ls| - 1;
    var init := ls[..j];
    var i :| 0 <= i < |init| && !IsBlank(init[i]) && Owner(init, i) == k;
    OwnerPrefix(ls, i, j);
    assert ls[i] == init[i];
  }

  lemma MentionedShrinks(ls: seq<string>, k: int)
    requires ls != [] && Mentioned(ls, k)
    ensures var j := |ls| - 1;
      Mentioned(ls[..j], k) || (!IsBlank(ls[j]) && Owner(ls, j) == k)
  {
    var j := |ls| - 1;
    var init := ls[..j];
    var i :| 0 <= i < |ls| && !IsBlank(ls[i]) && Owner(ls, i) == k;
    if i < j {
      OwnerPrefix(ls, i, j);
      assert init[i] == ls[i];
      assert !IsBlank(init[i]) && Owner(init, i) == k;
      assert Mentioned(init, k);
    } else {
      assert i == j;
    }
  }

  /** The map has a key exactly for the numbers some non-blank line is
      filed under. */
  lemma {:induction false} ParseKeys(ls: seq<string>)
    ensures forall k :: k in ParseLines(ls).lines <==> Mentioned(ls, k)
  {
    if ls != [] {
      var j := |ls| - 1;
      ParseKeys(ls[..j]);
      ParseCurrent(ls[..j]);
      StepByPiece(ParseLines(ls[..j]), ls[j]);
      assert ls[..j] == ls[..j][..j];
      forall k
        ensures k in ParseLines(ls).lines <==> Mentioned(ls, k)
      {
        MentionedStep(ls, k);
      }
    }
  }

  lemma {:induction false} CollectedUnmentioned(ls: seq<string>, k: int)
    requires !Mentioned(ls, k)
    ensures Collected(ls, k) == ""
  {
    if ls != [] {
      MentionedStep(ls, k);
      CollectedUnmentioned(ls[..|ls| - 1], k);
    }
  }

  /** Comments are filed by the most recent reference: each value is the
      pieces of all lines filed under its key, in input order. */
  lemma {:induction false} ParseCollects(ls: seq<string>)
    ensures forall k | k in ParseLines(ls).lines :: ParseLines(ls).lines[k] == Collected(ls, k)
  {
    if ls != [] {
      var j := |ls| - 1;
      var init := ls[..j];
      ParseCollects(init);
      ParseKeys(init);
      ParseCurrent(init);
      StepByPiece(ParseLines(init), ls[j]);
      forall k | k in ParseLines(ls).lines
        ensures ParseLines(ls).lines[k] == Collected(ls, k)
      {
        if k !in ParseLines(init).lines {
          CollectedUnmentioned(init, k);
        }
      }
    }
  }

  /** Without any recognised reference, every comment is filed under line 1. */
  lemma NoReferencesAllToLineOne(ls: seq<string>)
    requires forall j | 0 <= j < |ls| :: RefOf(ls[j]).None?
    ensures ParseLines(ls).lines.Keys <= {1}
  {
    ParseKeys(ls);
    forall k | k in ParseLines(ls).lines
      ensures k == 1
    {
      var j :| 0 <= j < |ls| && !IsBlank(ls[j]) && Owner(ls, j) == k;
      NoRefsAnchorOne(ls[..j]);
    }
  }

  lemma {:induction false} NoRefsAnchorOne(ls: seq<string>)
    requires forall j | 0 <= j < |ls| :: RefOf(ls[j]).None?
    ensures LastAnchor(ls) == 1
  {
    if ls != [] {
      NoRefsAnchorOne(ls[..|ls| - 1]);
    }
  }

  // -----------------------------------------------------------------------
  // Examples

  /** A range reference is filed under its first number: "Line 10-12: foo"
      goes to line 10 with comment " foo". */
  lemma RangeReference(d1: string, d2: string, t: char, rest: string)
    requires |d1| > 0 && AllDigits(d1) && |d2| > 0 && AllDigits(d2) && IsTerminator(t)
    ensures HasLineNumber("Line " + d1 + "-" + d2 + [t] + rest) == Some(LineRef(AnchorValue(d1), rest))
  {
    var s := "Line " + d1 + "-" + d2 + [t] + rest;
    var d := 5 + |d1|;
    var e := d + 1 + |d2|;
    RangeLineMatch(d1, d2, t, rest);
    FoundAtStart(s, RangeForm, Match(0, 5, d, e + 1));
  }

  lemma RangeLineMatch(d1: string, d2: string, t: char, rest: string)
    requires |d1| > 0 && AllDigits(d1) && |d2| > 0 && AllDigits(d2) && IsTerminator(t)
    ensures var s := "Line " + d1 + "-" + d2 + [t] + rest;
      var d := 5 + |d1|;
      var e := d + 1 + |d2|;
      && e < |s| && s[5..d] == d1 && s[e + 1..] == rest
      && MatchAt(s, 0, RangeForm) == Some(Match(0, 5, d, e + 1))
  {
    var s := "Line " + d1 + "-" + d2 + [t] + rest;
    var d := 5 + |d1|;
    var e := d + 1 + |d2|;
    assert s[5..d] == d1 && s[e + 1..] == rest;
    assert ShapeAt(s, 0, RangeForm, 0, 5, d, e, e + 1) by {
      assert s[..5] == "Line " && s[d] == '-' && s[d + 1..e] == d2 && s[e] == t;
    }
    MatchAtComplete(s, 0, RangeForm, 0, 5, d, e, e + 1);
  }

  /** A range reference needs a '-'. */
  lemma NoDashNoRange(s: string)
    requires '-' !in s
    ensures ByRegex(s, RangeForm).None?
  {
    ByRegexSpec(s, RangeForm);
    forall p | 0 <= p <= |s|
      ensures MatchAt(s, p, RangeForm).None?
    {
      RangeMatchHasDash(s, p);
    }
  }

  lemma RangeMatchHasDash(s: string, p: nat)
    requires p <= |s|
    ensures MatchAt(s, p, RangeForm).Some? ==> '-' in s
  {
    if MatchAt(s, p, RangeForm).Some? {
      var m := MatchAt(s, p, RangeForm).value;
      assert s[m.numEnd] == '-';
    }
  }

  /** A line without digits carries no reference. */
  lemma NoDigitNoReference(s: string)
    requires forall k | 0 <= k < |s| :: !IsDigit(s[k])
    ensures HasLineNumber(s).None?
  {
    HasLineNumberSpec(s);
  }

  /** "Line: " + digits + ':' or '*' + rest, with no range reference,
      yields the digits' value and all of `rest` as its comment: for
      "Line: 5: unused variable" the comment is " unused variable", for
      "Line: 8*: missing null check" it is ": missing null check". */
  lemma SingleReference(d: string, t: char, rest: string)
    requires |d| > 0 && AllDigits(d) && IsTerminator(t) && '-' !in rest
    ensures HasLineNumber("Line: " + d + [t] + rest) == Some(LineRef(AnchorValue(d), rest))
  {
    var s := "Line: " + d + [t] + rest;
    var n := |d|;
    SingleLineMatch(d, t, rest);
    NoDashNoRange(s);
    FoundAtStart(s, SingleForm, Match(0, 6, 6 + n, 7 + n));
  }

  lemma SingleLineMatch(d: string, t: char, rest: string)
    requires |d| > 0 && AllDigits(d) && IsTerminator(t) && '-' !in rest
    ensures var s := "Line: " + d + [t] + rest;
      var n := |d|;
      && 7 + n <= |s| && s[6..6 + n] == d && s[7 + n..] == rest && '-' !in s
      && MatchAt(s, 0, SingleForm) == Some(Match(0, 6, 6 + n, 7 + n))
  {
    var s := "Line: " + d + [t] + rest;
    var n := |d|;
    assert s[..6] == "Line: " && s[6..6 + n] == d && s[6 + n] == t && s[7 + n..] == rest;
    forall k | 0 <= k < |s|
      ensures s[k] != '-'
    {
      if k >= 7 + n {
        assert s[k] == rest[k - 7 - n];
      } else if 6 <= k < 6 + n {
        assert s[k] == d[k - 6];
      }
    }
    assert ShapeAt(s, 0, SingleForm, 1, 6, 6 + n, 6 + n, 7 + n);
    MatchAtComplete(s, 0, SingleForm, 1, 6, 6 + n, 6 + n, 7 + n);
  }

  /** A match at the very start is the leftmost one. */
  lemma FoundAtStart(s: string, form: Form, m: Match)
    requires MatchAt(s, 0, form) == Some(m)
    ensures AllDigits(s[m.numStart..m.numEnd])
    ensures ByRegex(s, form) == Some(LineRef(AnchorValue(s[m.numStart..m.numEnd]), s[m.end..]))
  {
    assert FindFrom(s, form, 0) == Some(m);
    ByRegexSpec(s, form);
  }
}

=== FILE: text.dfy ===
/** The pieces of Go's `strings`, `strconv` and `bufio` packages that the
    review pipeline relies on, stated over `seq<char>` and restricted to ASCII
    (whitespace, case folding). Go's `int` is 64 bits wide. */
module Text {

  datatype Option<+T> = None | Some(value: T)

  datatype Result<+T, +E> = Ok(value: T) | Err(error: E)

  const MaxInt64: int := 0x7fff_ffff_ffff_ffff
  const MinInt64: int := -0x8000_0000_0000_0000
  const MaxUint64: int := 0xffff_ffff_ffff_ffff

  predicate IsInt64(n: int) {
    MinInt64 <= n <= MaxInt64
  }

  // ---------------------------------------------------------------------
  // Prefixes, suffixes and searching

  predicate HasPrefix(s: string, p: string) {
    |p| <= |s| && s[..|p|] == p
  }

  predicate HasSuffix(s: string, p: string) {
    |p| <= |s| && s[|s| - |p|..] == p
  }

  /** strings.TrimPrefix: removes one leading `p` if present. */
  function TrimPrefix(s: string, p: string): (r: string)
    ensures HasPrefix(s, p) ==> p + r == s
    ensures !HasPrefix(s, p) ==> r == s
  {
    if HasPrefix(s, p) then s[|p|..] else s
  }

  /** strings.TrimSuffix: removes one trailing `p` if present. */
  function TrimSuffix(s: string, p: string): (r: string)
    ensures HasSuffix(s, p) ==> r + p == s
    ensures !HasSuffix(s, p) ==> r == s
  {
    if HasSuffix(s, p) then s[..|s| - |p|] else s
  }

  lemma TrimSuffixAppended(s: string, p: string)
    ensures HasSuffix(s + p, p) && TrimSuffix(s + p, p) == s
  {
    assert (s + p)[|s + p| - |p|..] == p;
    assert (s + p)[..|s + p| - |p|] == s;
  }

  lemma TrimPrefixPrepended(p: string, s: string)
    ensures HasPrefix(p + s, p) && TrimPrefix(p + s, p) == s
  {
    assert (p + s)[..|p|] == p;
    assert (p + s)[|p|..] == s;
  }

  /** Index of the first `c` in `s`, or `|s|` when there is none. */
  function IndexOf(s: string, c: char): (i: nat)
    ensures i <= |s|
    ensures i < |s| ==> s[i] == c
    ensures forall k | 0 <= k < i :: s[k] != c
  {
    if s == [] then 0
    else if s[0] == c then 0
    else 1 + IndexOf(s[1..], c)
  }

  lemma IndexOfAppend(a: string, c: char, b: string)
    requires c !in a
    ensures IndexOf(a + [c] + b, c) == |a|
  {
    var s := a + [c] + b;
    assert s[|a|] == c;
    assert forall k | 0 <= k < |a| :: s[k] == a[k];
  }

  /** strings.Split with a one-character separator; never empty. */
  function Split(s: string, sep: char): (parts: seq<string>)
    ensures |parts| >= 1
    ensures forall k | 0 <= k < |parts| :: sep !in parts[k]
    decreases |s|
  {
    var i := IndexOf(s, sep);
    if i == |s| then [s] else [s[..i]] + Split(s[i + 1..], sep)
  }

  lemma SplitAppend(a: string, sep: char, b: string)
    requires sep !in a
    ensures Split(a + [sep] + b, sep) == [a] + Split(b, sep)
  {
    var s := a + [sep] + b;
    IndexOfAppend(a, sep, b);
    assert s[..|a|] == a;
    assert s[|a| + 1..] == b;
  }

  lemma SplitNoSep(a: string, sep: char)
    requires sep !in a
    ensures Split(a, sep) == [a]
  {
  }

  /** Four separator-free pieces joined by the separator split back into
      them. */
  lemma SplitFour(a: string, b: string, c: string, d: string, sep: char)
    requires sep !in a && sep !in b && sep !in c && sep !in d
    ensures var p := Split(a + [sep] + (b + [sep] + (c + [sep] + d)), sep);
      |p| == 4 && p[0] == a && p[1] == b && p[2] == c && p[3] == d
  {
    var s3 := c + [sep] + d;
    var s2 := b + [sep] + s3;
    SplitNoSep(d, sep);
    SplitAppend(c, sep, d);
    var t3 := Split(s3, sep);
    assert |t3| == 2 && t3[0] == c && t3[1] == d;
    SplitAppend(b, sep, s3);
    var t2 := Split(s2, sep);
    assert |t2| == 3 && t2[0] == b && t2[1..] == t3;
    SplitAppend(a, sep, s2);
    var t1 := Split(a + [sep] + s2, sep);
    assert |t1| == 4 && t1[0] == a && t1[1..] == t2;
  }

  // ---------------------------------------------------------------------
  // Whitespace (ASCII subset of unicode.IsSpace)

  predicate IsSpace(c: char) {
    c == ' ' || c == '\t' || c == '\n' || c == '\r' || c as int == 11 || c as int == 12
  }

  function TrimLeftSpace(s: string): (r: string)
    decreases |s|
  {
    if |s| > 0 && IsSpace(s[0]) then TrimLeftSpace(s[1..]) else s
  }

  function TrimRightSpace(s: string): (r: string)
    decreases |s|
  {
    if |s| > 0 && IsSpace(s[|s| - 1]) then TrimRightSpace(s[..|s| - 1]) else s
  }

  /** strings.TrimSpace */
  function TrimSpace(s: string): string {
    TrimRightSpace(TrimLeftSpace(s))
  }

  predicate IsBlank(s: string) {
    TrimSpace(s) == ""
  }

  lemma TrimLeftSpaceAll(s: string)
    ensures TrimLeftSpace(s) == "" <==> forall i | 0 <= i < |s| :: IsSpace(s[i])
    decreases |s|
  {
    if |s| > 0 && IsSpace(s[0]) {
      TrimLeftSpaceAll(s[1..]);
      assert forall i | 1 <= i < |s| :: s[i] == s[1..][i - 1];
    }
  }

  lemma TrimRightSpaceNonBlank(s: string)
    requires |s| > 0 && !IsSpace(s[0])
    ensures TrimRightSpace(s) != ""
    decreases |s|
  {
    if IsSpace(s[|s| - 1]) {
      TrimRightSpaceNonBlank(s[..|s| - 1]);
    }
  }

  /** A line is blank exactly when all of its characters are whitespace. */
  lemma BlankIffAllSpace(s: string)
    ensures IsBlank(s) <==> forall i | 0 <= i < |s| :: IsSpace(s[i])
  {
    TrimLeftSpaceAll(s);
    var t := TrimLeftSpace(s);
    if t != "" {
      TrimLeftSpaceStartsNonSpace(s);
      TrimRightSpaceNonBlank(t);
    }
  }

  lemma TrimLeftSpaceStartsNonSpace(s: string)
    ensures TrimLeftSpace(s) != "" ==> !IsSpace(TrimLeftSpace(s)[0])
    decreases |s|
  {
    if |s| > 0 && IsSpace(s[0]) {
      TrimLeftSpaceStartsNonSpace(s[1..]);
    }
  }

  // ---------------------------------------------------------------------
  // Lines, as bufio.Scanner with ScanLines yields them

  function DropCR(s: string): string {
    if |s| > 0 && s[|s| - 1] == '\r' then s[..|s| - 1] else s
  }

  /** The tokens of bufio.ScanLines: split at each '\n', one trailing '\r'
      dropped from each token, and no empty token after a final '\n'. */
  function Lines(s: string): (ls: seq<string>)
    ensures forall k | 0 <= k < |ls| :: '\n' !in ls[k]
    decreases |s|
  {
    if s == [] then []
    else
      var i := IndexOf(s, '\n');
      if i == |s| then [DropCR(s)] else [DropCR(s[..i])] + Lines(s[i + 1..])
  }

  /** Each line followed by "\n", as a strings.Builder fills it. */
  function JoinLines(ls: seq<string>): string {
    if ls == [] then "" else JoinLines(ls[..|ls| - 1]) + ls[|ls| - 1] + "\n"
  }

  lemma JoinLinesCons(l: string, ls: seq<string>)
    ensures JoinLines([l] + ls) == l + "\n" + JoinLines(ls)
    decreases |ls|
  {
    if ls != [] {
      var last := ls[|ls| - 1];
      assert ([l] + ls)[..|ls|] == [l] + ls[..|ls| - 1];
      JoinLinesCons(l, ls[..|ls| - 1]);
    }
  }

  lemma JoinLinesAppend(ls: seq<string>, l: string)
    ensures JoinLines(ls + [l]) == JoinLines(ls) + l + "\n"
  {
    assert (ls + [l])[..|ls|] == ls;
  }

  /** Splitting text made of '\n'-terminated lines gives those lines back,
      as long as no line contains a line break or a carriage return. */
  lemma {:induction false} LinesOfJoinLines(ls: seq<string>)
    requires forall k | 0 <= k < |ls| :: '\n' !in ls[k] && '\r' !in ls[k]
    ensures Lines(JoinLines(ls)) == ls
    decreases |ls|
  {
    if ls != [] {
      var l := ls[0];
      var rest := ls[1..];
      assert ls == [l] + rest;
      JoinLinesCons(l, rest);
      var s := l + "\n" + JoinLines(rest);
      IndexOfAppend(l, '\n', JoinLines(rest));
      assert s[..|l|] == l;
      assert s[|l| + 1..] == JoinLines(rest);
      assert DropCR(l) == l by {
        if |l| > 0 {
          assert l[|l| - 1] in l;
        }
      }
      LinesOfJoinLines(rest);
    }
  }

  // ---------------------------------------------------------------------
  // Case folding (ASCII) and cutting

  function LowerChar(c: char): char {
    if 'A' <= c <= 'Z' then (c as int + 32) as char else c
  }

  /** strings.ToLower, ASCII letters only. */
  function ToLower(s: string): (r: string)
    ensures |r| == |s|
  {
    seq(|s|, i requires 0 <= i < |s| => LowerChar(s[i]))
  }

  datatype CutResult = CutResult(before: string, after: string, found: bool)

  /** strings.Cut with a one-character separator. */
  function Cut(s: string, sep: char): (r: CutResult)
    ensures r.found <==> sep in s
    ensures r.found ==> s == r.before + [sep] + r.after && sep !in r.before
    ensures !r.found ==> r.before == s && r.after == ""
  {
    var i := IndexOf(s, sep);
    if i == |s| then CutResult(s, "", false)
    else CutResult(s[..i], s[i + 1..], true)
  }

  // ---------------------------------------------------------------------
  // Decimal numbers

  predicate IsDigit(c: char) {
    '0' <= c <= '9'
  }

  predicate AllDigits(s: string) {
    forall k | 0 <= k < |s| :: IsDigit(s[k])
  }

  function DigitValue(c: char): nat
    requires IsDigit(c)
  {
    c as int - '0' as int
  }

  function DigitChar(d: nat): char
    requires d < 10
  {
    ('0' as int + d) as char
  }

  /** The value of a run of decimal digits. */
  function DigitsValue(s: string): nat
    requires AllDigits(s)
  {
    if s == [] then 0 else DigitsValue(s[..|s| - 1]) * 10 + DigitValue(s[|s| - 1])
  }

  /** The end of the run of digits that starts at index `i`. */
  function SkipDigits(s: string, i: nat): (j: nat)
    requires i <= |s|
    ensures i <= j <= |s|
    ensures forall k | i <= k < j :: IsDigit(s[k])
    ensures j < |s| ==> !IsDigit(s[j])
    decreases |s| - i
  {
    if i < |s| && IsDigit(s[i]) then SkipDigits(s, i + 1) else i
  }

  /** Length of the run of digits at the start of `s`. */
  function LeadingDigits(s: string): (n: nat)
    ensures n <= |s| && AllDigits(s[..n])
    ensures n < |s| ==> !IsDigit(s[n])
  {
    if s == [] || !IsDigit(s[0]) then 0
    else
      var m := LeadingDigits(s[1..]);
      assert s[..m + 1] == [s[0]] + s[1..][..m];
      m + 1
  }

  lemma LeadingDigitsAll(s: string)
    requires AllDigits(s)
    ensures LeadingDigits(s) == |s|
  {
  }

  datatype AtoiResult = AtoiResult(value: int, ok: bool)

  /** strconv.Atoi for a 64-bit int: an optional sign and decimal digits.
      A syntax error yields 0; a value out of range yields the nearest
      bound. Like Go, a digit run that overflows is reported as out of range
      even when a bad character follows it. */
  function Atoi(s: string): (r: AtoiResult)
    ensures IsInt64(r.value)
    ensures r.ok ==> |s| > 0
  {
    var neg := |s| > 0 && s[0] == '-';
    var body := if |s| > 0 && (s[0] == '-' || s[0] == '+') then s[1..] else s;
    if body == [] then AtoiResult(0, false)
    else
      var j := LeadingDigits(body);
      var lead: int := DigitsValue(body[..j]);
      if lead > MaxUint64 then AtoiResult(if neg then MinInt64 else MaxInt64, false)
      else if j < |body| then AtoiResult(0, false)
      else if !neg && lead > MaxInt64 then AtoiResult(MaxInt64, false)
      else if neg && lead > MaxInt64 + 1 then AtoiResult(MinInt64, false)
      else AtoiResult(if neg then -lead else lead, true)
  }

  /** A run of digits parses to a non-negative number or fails. */
  lemma AtoiOfDigits(s: string)
    requires AllDigits(s)
    ensures Atoi(s).value >= 0
    ensures Atoi(s).ok <==> |s| > 0 && DigitsValue(s) <= MaxInt64
    ensures Atoi(s).ok ==> Atoi(s).value == DigitsValue(s)
  {
    if |s| > 0 {
      LeadingDigitsAll(s);
      assert s[..|s|] == s;
    }
  }

  function NatToString(n: nat): (r: string)
    ensures |r| >= 1
    decreases n
  {
    if n < 10 then [DigitChar(n)] else NatToString(n / 10) + [DigitChar(n % 10)]
  }

  /** fmt's %d rendering of an integer. */
  function IntToString(n: int): string {
    if n < 0 then "-" + NatToString(-n) else NatToString(n)
  }

  lemma {:induction false} NatToStringDigits(n: nat)
    ensures AllDigits(NatToString(n))
    ensures DigitsValue(NatToString(n)) == n
    decreases n
  {
    var s := NatToString(n);
    if n >= 10 {
      NatToStringDigits(n / 10);
      assert s[..|s| - 1] == NatToString(n / 10);
    }
  }

  /** Printing a 64-bit integer with %d and parsing it back with Atoi
      gives the integer. */
  lemma AtoiOfIntToString(n: int)
    requires IsInt64(n)
    ensures Atoi(IntToString(n)) == AtoiResult(n, true)
  {
    var m := if n < 0 then -n else n;
    var d := NatToString(m);
    NatToStringDigits(m);
    LeadingDigitsAll(d);
    assert d[..|d|] == d;
    if n < 0 {
      assert IntToString(n)[1..] == d;
    } else {
      assert IsDigit(d[0]);
    }
  }

  /** Sequence concatenation is associative; stated once so that proofs
      need not search for it. */
  lemma AppendAssoc<T>(a: seq<T>, b: seq<T>, c: seq<T>)
    ensures (a + b) + c == a + (b + c)
  {
  }

  // ---------------------------------------------------------------------
  // Go map iteration

  /** `order` lists each element of `keys` exactly once: one possible
      iteration order of a Go map with those keys. */
  predicate Enumerates(order: seq<int>, keys: set<int>) {
    && (forall i, j | 0 <= i < j < |order| :: order[i] != order[j])
    && (forall x | x in order :: x in keys)
    && (forall x | x in keys :: x in order)
  }
}
